=== FILE: README.md ===
# Tarot consultation platform: a verified model

The system is a tarot consultation service in three parts.

- **NestJS + TypeORM backend.** It keeps a `users` table with a coin balance per user and a `coin_transactions` ledger. It also holds a per-user notification inbox, sign-up/login/refresh/logout with JWTs, an admin guard, and avatar upload.
- **React admin dashboard.** It lists, edits, deletes and re-roles users and adjusts their coins. It creates users and administrators, shows coin statistics, and shows the admin's notification menu and session.
- **React Native app.** It covers registration, login, the profile settings form, and a paid chat and call with an expert. Its client `ApiService` cleans payloads before they are sent.

Each source file of that core is one Dafny module in a file of the same name:

- `user_service.dfy` holds `UserService`, `notification_service.dfy` holds `NotificationService`, `chat_room.dfy` holds `ChatRoom`, and so on.
- Where the source updates state in place, the module has a class: a service, a controller, or a screen with its React state.
- Where the source computes values, the module has functions.
- Records, enums and DTOs are datatypes. Their class-validator decorators become `Validate` predicates.

The central property is the ledger invariant `UserService.UserService.Valid`:

- every user's `coinBalance` equals the sum of that user's signed ledger rows, and is never negative;
- it is kept by every operation on the two tables;
- each operation is one atomic step that either applies completely or leaves both tables as they were.

Around it the model proves:

- the authorization rules (the admin guard, notification ownership, self-only delete, the role taken from the token);
- the validators' exact acceptance sets;
- the client-side payload cleaning (what is dropped, what is kept, idempotence);
- the screens' state machines (chat billing, call billing, the `mm:ss` display and its inverse, pagination, session restore after reload).

Some parameters stand in for things the model does not compute:

- Network outcomes, the clock and random choices are parameters of the operations that use them.
- Timers are the separate steps they trigger.
- The platform's e-mail and ISO 8601 tests are predicate parameters, and so is whether `new URL` parses a string. The client's own URL check `isValidUrl` is modelled around that parameter.
- bcrypt and JWT signing are uninterpreted constructors.

## Model

| member | source | states |
|---|---|---|
| Common.OrElse | backend/nest-api/src/upload/upload.service.ts:26 | `s \|\| fallback`: a truthy string is kept, an absent or empty one gives the fallback |
| Common.NonEmpty | backend/nest-api/admin-dashboard/src/components/pages/AddUser.tsx:68-73 | `s \|\| undefined`: the result is absent exactly when the string is empty, and is the string otherwise |
| Common.TrimStart | frontend/tarot/src/screens/Settings/SettingsScreen.tsx:149 | the left half of `trim()`: a suffix that does not start with whitespace, everything dropped being whitespace |
| Common.TrimEnd | frontend/tarot/src/screens/Settings/SettingsScreen.tsx:149 | the right half of `trim()`: a prefix that does not end with whitespace, everything dropped being whitespace |
| Common.BlankIffAllWhitespace | frontend/tarot/src/screens/Settings/SettingsScreen.tsx:149 | `!s.trim()` holds exactly when every character of `s` is whitespace |
| Common.BlankIffTrimEmpty | frontend/tarot/src/screens/Chat/ChatRoomScreen.tsx:113 | blank strings are exactly those whose `trim()` is empty |
| Common.NatToString | frontend/tarot/src/screens/Chat/ChatRoomScreen.tsx:121 | `String(n)` of a non-negative number is a non-empty decimal numeral with no leading zero |
| Common.ParseNatToString | frontend/tarot/src/screens/Chat/ChatRoomScreen.tsx:121 | reading back a printed number gives the number |
| Common.ParseIntPipe | backend/nest-api/src/user/user.controller.ts:137 | a path segment that is a decimal numeral passes as its value; anything refused is BadRequest |
| Common.ParseIntPipeReadsIds | backend/nest-api/src/notification/notification.controller.ts:148 | every printed id goes through the pipe unchanged |
| Common.Reverse | backend/nest-api/src/notification/notification.service.ts:79 | `ORDER BY ... DESC` over rows kept in ascending order: same length, element `i` is element `n-1-i` |
| Common.ReverseMembers | backend/nest-api/src/notification/notification.service.ts:79 | the descending order shows exactly the same rows |
| Common.Abs | backend/nest-api/src/notification/notification.service.ts:54 | `Math.abs`: the value or its negation, never negative |
| Jwt.Sign | backend/nest-api/src/auth/auth.service.ts:31-38 | a signed token carries exactly the payload it was given |
| Jwt.Verify | backend/nest-api/src/auth/strategies/jwt.strategy.ts:15-19 | a token passes exactly when this server signed it and it has not expired (`ignoreExpiration: false`), and yields its payload; otherwise Unauthorized |
| UserEntity.RoleName | backend/nest-api/src/user/entities/user.entity.ts:17-20 | the role is stored as `admin` exactly for administrators |
| UserEntity.NewUser | backend/nest-api/src/user/entities/user.entity.ts:66-116 | an inserted row takes the column defaults: balance 0, gender `other`, provider `local`, role `user`, no avatar, address or refresh token |
| UserEntity.CheckRequiredFields | backend/nest-api/src/user/entities/user.entity.ts:126-131 | the `@BeforeInsert` hook refuses with BadRequest exactly the rows with neither a truthy e-mail nor a truthy phone number |
| UserEntity.WithoutPassword | backend/nest-api/src/user/user.service.ts:144-145 | `{ password, ...result }`: the password is gone and every other field is kept |
| CoinTransactionEntity.SignedAmount | backend/nest-api/src/user/entities/user.entity.ts:110-112 | a deposit row adds its amount to the balance, a withdrawal row subtracts it |
| CoinTransactionEntity.RowsOf | backend/nest-api/src/user/entities/coin-transaction.entity.ts:16-18 | selecting by `user_id` yields exactly the rows of the table that belong to that user, and never more rows than the table has |
| CoinTransactionEntity.RowsNotOf | backend/nest-api/src/user/user.service.ts:430 | deleting by `user_id` keeps exactly the rows of the other users, and never adds rows |
| CoinTransactionEntity.NetAppend | backend/nest-api/src/user/user.service.ts:646-660 | appending a ledger row changes only its own user's net balance, by its signed amount |
| CoinTransactionEntity.TotalAppend | backend/nest-api/src/user/user.service.ts:758-774 | appending a row raises the per-type sum by its amount exactly when it is of that type |
| CoinTransactionEntity.NetRowsNotOf | backend/nest-api/src/user/user.service.ts:430 | deleting a user's ledger rows zeroes that user's net balance and leaves every other user's as it was |
| CoinTransactionEntity.NetRowsOf | backend/nest-api/src/user/user.service.ts:702-720 | a user's net balance is determined by that user's own rows |
| CoinTransactionEntity.NetNoRows | backend/nest-api/src/user/user.service.ts:702-720 | a user with no ledger rows has net balance 0 |
| AdjustCoinDto.Validate | backend/nest-api/src/user/dto/adjust-coin.dto.ts:4-15 | an accepted body has a note of at least three characters |
| AdjustCoinDto.AmountUnconstrained | backend/nest-api/src/user/dto/adjust-coin.dto.ts:6-8 | the amount's sign and size never change the validation outcome |
| AdjustCoinDto.ZeroAndNegativeAccepted | backend/nest-api/src/user/dto/adjust-coin.dto.ts:6-8 | amounts 0 and -1 pass validation |
| AdjustCoinDto.ShortNoteRefused | backend/nest-api/src/user/dto/adjust-coin.dto.ts:11-14 | a one- or two-character note is refused whatever the amount |
| CreateUserDto.Transform | backend/nest-api/src/user/dto/create-user.dto.ts:71-73 | the class initialiser fills a missing provider with `local` and changes nothing else |
| CreateUserDto.Validate | backend/nest-api/src/user/dto/create-user.dto.ts:19-62 | an accepted body has a ten-digit phone when its phone is truthy, a valid e-mail when its e-mail is truthy, a password of at least 8 characters unless the provider is Google, and an ISO 8601 birth date |
| CreateUserDto.GooglePasswordUnchecked | backend/nest-api/src/user/dto/create-user.dto.ts:42 | the password of a Google sign-up never affects the outcome |
| CreateUserDto.NoIdentifierPasses | backend/nest-api/src/user/dto/create-user.dto.ts:19-32 | the DTO does not demand an identifier: a body with neither passes |
| CreateUserDto.EmptyPhoneBesideEmailPasses | backend/nest-api/src/user/dto/create-user.dto.ts:21 | an empty phone string next to a truthy e-mail escapes the phone rule |
| ResetPasswordDto.Validate | backend/nest-api/src/user/dto/reset-password.dto.ts:10-28 | an accepted body has an identifier and a new password of at least 8 characters; each identifier is format-checked only when the other is falsy; with both present only the length decides |
| ResetPasswordDto.BothPresentSkipsFormats | backend/nest-api/src/user/dto/reset-password.dto.ts:10-23 | with both identifiers present, malformed ones pass |
| LoginDto.Validate | backend/nest-api/src/auth/dto/login.dto.ts:10-31 | an accepted body has an identifier and a non-empty password; each identifier is format-checked only when the other is falsy; with both present only the password decides |
| LoginDto.ShortPasswordAccepted | backend/nest-api/src/auth/dto/login.dto.ts:29-31 | a one-character password is acceptable at login |
| UpdateProfileDto.Validate | backend/nest-api/src/user/dto/update-profile.dto.ts:20-86 | an accepted body's present e-mail is valid, its birth date is ISO 8601 and its new password has at least 8 characters |
| UpdateProfileDto.OnlyThreeFieldsChecked | backend/nest-api/src/user/dto/update-profile.dto.ts:11-76 | name, avatar, avatar URL, address, old password and gender never affect the outcome |
| UpdateProfileDto.EmptyAndShortOldPasswordPass | backend/nest-api/src/user/dto/update-profile.dto.ts:74-76 | the empty body and a one-character old password are valid |
| CreateAdminDto.Validate | backend/nest-api/src/user/dto/create-admin.dto.ts:10-31 | an accepted body's present e-mail is valid, its present phone has ten digits and its present password has at least 8 characters |
| CreateAdminDto.FullNameUnchecked | backend/nest-api/src/user/dto/create-admin.dto.ts:38-40 | the full name never affects the outcome |
| CreateAdminDto.EmptyBodyPasses | backend/nest-api/src/user/dto/create-admin.dto.ts:10-21 | the DTO alone requires no identifier |
| NotificationService.OfUser | backend/nest-api/src/notification/notification.service.ts:77-80 | `WHERE user_id = u` yields exactly the table's rows of that user |
| NotificationService.NotOfUser | backend/nest-api/src/notification/notification.service.ts:167-172 | what deleting a user's notifications keeps: exactly the rows of other users |
| NotificationService.CountUnread | backend/nest-api/src/notification/notification.service.ts:88-90 | the count is zero exactly when every row of that user is read |
| NotificationService.IndexOfId | backend/nest-api/src/notification/notification.service.ts:98-100 | the position of the row with that primary key, or none when no row has it |
| NotificationService.OfUserOrdered | backend/nest-api/src/notification/notification.service.ts:77-80 | selecting one user's rows keeps them in insertion order |
| NotificationService.ReversedIsNewestFirst | backend/nest-api/src/notification/notification.service.ts:79 | rows stored in insertion order come out newest first |
| NotificationService.CoinMessage | backend/nest-api/src/notification/notification.service.ts:50-58 | only a strictly positive amount is worded as received; zero and negative amounts are worded as a deduction of the absolute value |
| NotificationService.WordingsDiffer | backend/nest-api/src/notification/notification.service.ts:52-54 | a received title and a deducted title are never equal |
| NotificationService.ZeroAmountReadsAsDeduction | backend/nest-api/src/notification/notification.service.ts:50 | a zero adjustment is announced as a deduction |
| NotificationService.NotificationService.constructor | backend/nest-api/src/notification/notification.service.ts:13-18 | the table starts empty |
| NotificationService.NotificationService.Insert | backend/nest-api/src/notification/notification.service.ts:60-69 | a save appends one unread row with the next id and the current time |
| NotificationService.NotificationService.Create | backend/nest-api/src/notification/notification.service.ts:23-44 | an unknown addressee is NotFound and adds nothing; otherwise exactly one row with the given user, title and content is added |
| NotificationService.NotificationService.CreateCoinNotification | backend/nest-api/src/notification/notification.service.ts:49-70 | appends one unread `coin` row whose wording follows the sign of the amount |
| NotificationService.NotificationService.FindAllForUser | backend/nest-api/src/notification/notification.service.ts:75-81 | exactly that user's notifications, newest first |
| NotificationService.NotificationService.CountUnreadForUser | backend/nest-api/src/notification/notification.service.ts:86-91 | zero exactly when all of that user's notifications are read |
| NotificationService.NotificationService.FindOne | backend/nest-api/src/notification/notification.service.ts:96-108 | the row with that id, or NotFound when none has it |
| NotificationService.NotificationService.Update | backend/nest-api/src/notification/notification.service.ts:113-131 | a missing id is NotFound; otherwise only that row's `isRead` changes, and only when the body supplies it |
| NotificationService.NotificationService.MarkAllAsRead | backend/nest-api/src/notification/notification.service.ts:136-145 | the user's unread rows become read, no other row changes, and the user has nothing unread afterwards |
| NotificationService.NotificationService.Remove | backend/nest-api/src/notification/notification.service.ts:150-159 | a missing id is NotFound and deletes nothing; otherwise exactly that row goes |
| NotificationService.NotificationService.RemoveAllForUser | backend/nest-api/src/notification/notification.service.ts:164-173 | deletes exactly that user's notifications and leaves the others in order |
| NotificationService.RemoveAtKeeps | backend/nest-api/src/notification/notification.service.ts:153 | deleting one row keeps the others, in insertion order |
| NotificationService.NotOfUserHasNone | backend/nest-api/src/notification/notification.service.ts:167-172 | after the delete the user has no notification left |
| NotificationController.NotificationController.constructor | backend/nest-api/src/notification/notification.controller.ts:27 | the controller works on the given service |
| NotificationController.NotificationController.Create | backend/nest-api/src/notification/notification.controller.ts:32-55 | `POST /notifications` behind `JwtAuthGuard` and `AdminGuard`: no verified token is Unauthorized and a non-admin token Forbidden, both adding nothing; for an admin, NotFound for an unknown addressee, otherwise one row for that user is added |
| NotificationController.NotificationController.FindMine | backend/nest-api/src/notification/notification.controller.ts:59-74 | exactly the caller's notifications, newest first |
| NotificationController.NotificationController.CountMyUnread | backend/nest-api/src/notification/notification.controller.ts:76-90 | zero exactly when the caller has nothing unread |
| NotificationController.NotificationController.MarkAllMineRead | backend/nest-api/src/notification/notification.controller.ts:92-107 | nobody else's rows change and the caller has nothing unread afterwards |
| NotificationController.NotificationController.RemoveAllMine | backend/nest-api/src/notification/notification.controller.ts:109-124 | exactly the caller's rows go |
| NotificationController.NotificationController.FindOne | backend/nest-api/src/notification/notification.controller.ts:148-157 | a bad id is BadRequest, a missing row NotFound, another user's row Forbidden unless the caller is an admin |
| NotificationController.NotificationController.Update | backend/nest-api/src/notification/notification.controller.ts:181-194 | the same checks as `findOne`, with nothing changed on refusal; otherwise the service's update |
| NotificationController.NotificationController.Remove | backend/nest-api/src/notification/notification.controller.ts:218-227 | the same checks as `findOne`, with nothing deleted on refusal; otherwise exactly that row goes |
| NotificationController.NotificationController.OnlyOwnerOrAdmin | backend/nest-api/src/notification/notification.controller.ts:152-154 | a non-admin caller can neither see, change nor delete another user's notification; an admin can |
| UserService.PerformedBy | backend/nest-api/src/user/user.service.ts:651 | the ledger's `performedBy` is the admin's e-mail when truthy, else `admin-<id>`; never empty |
| UserService.KindFor | backend/nest-api/src/user/user.service.ts:641-643 | an adjustment is booked as a deposit exactly when its amount is not negative |
| UserService.SignedRowAmount | backend/nest-api/src/user/user.service.ts:646-652 | a row written with the absolute amount and the type for that amount contributes exactly the signed amount |
| UserService.AdjustKeepsConsistent | backend/nest-api/src/user/user.service.ts:646-660 | writing the ledger row and the new balance together keeps every balance equal to its user's ledger net and the ledger chronological |
| UserService.DeleteKeepsConsistent | backend/nest-api/src/user/user.service.ts:430-433 | deleting a user together with all of the user's ledger rows keeps every remaining balance equal to its ledger, no orphan row and the ledger chronological, and leaves no row of that user |
| UserService.PublicView | backend/nest-api/src/user/user.service.ts:114-121 | the intended listed row: no password and no refresh token, every other field as stored |
| UserService.PublicRows | backend/nest-api/src/user/user.service.ts:114-121 | the intended listing maps every row through `PublicView`, keeping the length |
| UserService.SignupRow | backend/nest-api/src/user/user.service.ts:64-80 | the inserted row: balance 0, role `user`, the DTO's identifiers, a bcrypt hash only for a truthy non-Google password, and a row the insert hook accepts whenever an identifier is truthy |
| UserService.UpdatedRow | backend/nest-api/src/user/user.service.ts:268-281 | `update` copies each supplied name, e-mail, phone, gender and date of birth, hashes a truthy password, and keeps id, balance, role, provider, avatar, address and refresh token |
| UserService.ProfileRow | backend/nest-api/src/user/user.service.ts:839-870 | `updateProfile` copies each supplied name, e-mail, gender, date of birth and address; the avatar comes from `avatar`, else `avatarUrl`, else stays; the password changes only on a verified change; id, balance, role, phone, provider and refresh token never change |
| UserService.SimpleRow | backend/nest-api/src/user/user.service.ts:931 | `updateUserSimple` copies supplied e-mail, name, gender, avatar and address and never changes id, balance, role, password, phone, date of birth, provider or refresh token |
| UserService.Promoted | backend/nest-api/src/user/user.service.ts:507-514 | promotion sets role `admin`, keeps the identifiers and balance, and rehashes the password only when one is given |
| UserService.AdminRow | backend/nest-api/src/user/user.service.ts:524-536 | the new admin row as written stores both identifiers verbatim, empty strings included |
| UserService.IntendedAdminRow | backend/nest-api/src/user/user.service.ts:524-536 | the new admin row as intended stores an empty identifier as NULL |
| UserService.WriteKeepsConsistent | backend/nest-api/src/user/user.service.ts:268-281 | overwriting a row without touching its balance or identifiers' uniqueness keeps the tables consistent |
| UserService.InsertKeepsConsistent | backend/nest-api/src/user/user.service.ts:64-80 | inserting a fresh, non-clashing row with balance 0 keeps the tables consistent |
| UserService.UserService.constructor | backend/nest-api/src/user/user.service.ts:20-28 | both tables start empty |
| UserService.UserService.WithEmail | backend/nest-api/src/user/user.service.ts:52-61 | the lookup by e-mail finds a row holding that e-mail, or none exists |
| UserService.UserService.WithPhone | backend/nest-api/src/user/user.service.ts:40-49 | the lookup by phone finds a row holding that phone, or none exists |
| UserService.UserService.ClashCheck | backend/nest-api/src/user/entities/user.entity.ts:34-40 | the unique indexes refuse a row exactly when another row shares its non-NULL e-mail or phone |
| UserService.UserService.FindOne | backend/nest-api/src/user/user.service.ts:132-145 | the stored row without its password when the id exists, otherwise NotFound |
| UserService.UserService.FindAll | backend/nest-api/src/user/user.service.ts:114-121 | as written: every row listed without its password, but with its refresh token |
| UserService.UserService.FindAllPublic | backend/nest-api/src/user/user.service.ts:114-121 | as intended: every row listed with neither password nor refresh token |
| UserService.UserService.FindByEmail | backend/nest-api/src/user/user.service.ts:184-193 | succeeds exactly when some row holds the e-mail, and returns that row; otherwise NotFound |
| UserService.UserService.FindByPhoneNumber | backend/nest-api/src/user/user.service.ts:207-216 | succeeds exactly when some row holds the phone, and returns that row; otherwise NotFound |
| UserService.UserService.Create | backend/nest-api/src/user/user.service.ts:30-100 | no identifier is BadRequest, a taken phone or e-mail is Conflict, nothing changes on refusal; otherwise exactly `SignupRow` is inserted under a fresh id |
| UserService.UserService.Update | backend/nest-api/src/user/user.service.ts:230-287 | a missing id is NotFound, a changed e-mail or phone already taken is Conflict; otherwise only that row changes, to `UpdatedRow` |
| UserService.UserService.SetRefreshToken | backend/nest-api/src/user/user.service.ts:328-340 | a missing user is NotFound; an `undefined` token, which `update` leaves out of the SET list, changes no tracked column; a token replaces that user's stored token and nothing else |
| UserService.UserService.ClearRefreshToken | backend/nest-api/src/user/user.service.ts:338-339 | the `null` write that clearing needs: a missing user is NotFound; otherwise only that user's stored token becomes `null` |
| UserService.UserService.ResetPassword | backend/nest-api/src/user/user.service.ts:356-393 | the e-mail is looked up when truthy, else the phone; it succeeds exactly when that lookup finds a row, and a refusal is NotFound and changes nothing |
| UserService.UserService.AdminUpdateUserRole | backend/nest-api/src/user/user.service.ts:461-476 | a missing id is NotFound; otherwise only that user's role changes |
| UserService.UserService.AdminLookup | backend/nest-api/src/user/user.service.ts:499-505 | finds a row by a non-empty e-mail first, then by a non-empty phone; finds one exactly when one of them is taken |
| UserService.UserService.CreateOrPromoteAdmin | backend/nest-api/src/user/user.service.ts:492-548 | a found account is promoted; otherwise a missing password or identifier is BadRequest, a unique-index clash InternalError, and else exactly `AdminRow` is inserted |
| UserService.UserService.UpdateProfile | backend/nest-api/src/user/user.service.ts:807-880 | a changed e-mail needs a phone on the account and must be unused, a password change needs the old password to match; otherwise only that row changes, to `ProfileRow` |
| UserService.UserService.UpdateUserSimple | backend/nest-api/src/user/user.service.ts:903-938 | the same e-mail checks, then only that row changes, to `SimpleRow` |
| UserService.UserService.GetUserStats | backend/nest-api/src/user/user.service.ts:560-580 | the total, the admin count and the user count are the sizes of those sets of rows, and admins plus users make the total |
| UserService.UserService.GetUserCoinTransactions | backend/nest-api/src/user/user.service.ts:702-720 | NotFound exactly for a missing user; otherwise exactly that user's ledger rows, newest first, whose net is the user's balance |
| UserService.UserService.GetTotalSystemCoins | backend/nest-api/src/user/user.service.ts:733-796 | `totalCoins` is the sum of all balances, the deposit and withdrawal totals are the per-type sums of the ledger, `usersWithCoins` counts the users with a positive balance (never more than there are users), and the recent rows are `Recent` |
| UserService.UserService.Recent | backend/nest-api/src/user/user.service.ts:776-781 | the twenty newest ledger rows (all of them when there are fewer), newest first and each newer than every row left out, each joined with the whole stored row of its user |
| UserService.JoinUsers | backend/nest-api/src/user/user.service.ts:778 | the left join keeps every row and pairs it with the stored user of its `user_id`, or with nothing when there is none |
| UserService.NewestJoined | backend/nest-api/src/user/user.service.ts:776-781 | over a chronological ledger without orphan rows: the `limit` newest rows (all when fewer), newest first, each newer than every row left out and joined with its user's stored row |
| UserService.UserService.GetTotalSystemCoinsPublic | backend/nest-api/src/user/user.service.ts:776-781 | the same answer, except that each joined user is its public view, without the password hash or the refresh token |
| UserService.UserService.RecentRowsExposeSecrets | backend/nest-api/src/user/user.service.ts:776-781 | the user of any of the twenty newest ledger rows appears in the answer with their password hash and refresh token |
| UserService.UserService.TotalCoinsMatchLedger | backend/nest-api/src/user/user.service.ts:743-774 | the sum of all balances equals total deposits minus total withdrawals, so the answer's `totalCoins` is `totalDeposits - totalWithdrawals` |
| UserService.UserService.Book | backend/nest-api/src/user/user.service.ts:654-660 | the transaction's two writes: one ledger row appended and that user's balance moved by the amount |
| UserService.UserService.AdjustUserCoins | backend/nest-api/src/user/user.service.ts:593-690 | missing target or actor is NotFound, a non-admin actor Forbidden, a negative result BadRequest, all changing nothing; once all four checks pass the adjustment succeeds, with one ledger row and the new balance, and a coin notification unless that step fails |
| UserService.UserService.AdminRemoveUser | backend/nest-api/src/user/user.service.ts:411-458 | a missing id is NotFound; a user who has notifications is refused by the notification table's foreign key (InternalError) and nothing changes; otherwise the user and all of the user's ledger rows go, no row refers to the user any more, and every other balance still matches its ledger |
| UserService.UserService.Remove | backend/nest-api/src/user/user.service.ts:302-325 | a missing id is NotFound; a user still referenced by ledger rows or notifications is refused by the foreign keys (InternalError); either failure changes nothing; otherwise only the user row goes and the ledger is untouched |
| UserService.UserService.AdjustedUserNotRemovable | backend/nest-api/src/user/user.service.ts:411-458 | whenever the adjustment's four checks pass, it succeeds and notifies its target, and `adminRemoveUser` of that user then fails with InternalError and the user stays |
| UserService.UserService.AdminRemoveUserWithInbox | backend/nest-api/src/user/user.service.ts:411-458 | deleting the user's notifications first: an existing user is removed with all their ledger rows and notifications, and nothing refers to them afterwards |
| UserService.CountRoleIsCardinality | backend/nest-api/src/user/user.service.ts:567-575 | counting by role gives the size of the set of rows with that role |
| UserService.CountPositiveIsCardinality | backend/nest-api/src/user/user.service.ts:752-756 | counting positive balances gives the size of the set of users holding coins |
| UserService.RolesPartition | backend/nest-api/src/user/user.service.ts:564-575 | every row is counted either as an admin or as a user |
| UserService.SumIsNetWithin | backend/nest-api/src/user/user.service.ts:743-749 | the sum of balances equals the sum of the users' ledger nets |
| UserService.NetWithinAll | backend/nest-api/src/user/user.service.ts:758-774 | summed over every user id in use, the ledger nets are deposits minus withdrawals |
| UserService.RowsOfKeeps | backend/nest-api/src/user/user.service.ts:712-718 | selecting one user's rows keeps their creation order |
| UserService.ReversedNewestFirst | backend/nest-api/src/user/user.service.ts:717 | a chronological ledger reversed is newest first |
| UserService.NetReverse | backend/nest-api/src/user/user.service.ts:717 | the order of the rows does not change a user's net |
| UserService.ZeroAdjustmentBookedAsDepositAnnouncedAsDeduction | backend/nest-api/src/user/user.service.ts:641-643 | a zero adjustment is booked as a deposit while its notification speaks of a deduction |
| UserService.PhoneOnlyAdminsCollide | backend/nest-api/src/user/user.service.ts:524-536 | as written, a second phone-only admin fails with status 500 although its phone is unused |
| UserService.IntendedAdminRowInsertable | backend/nest-api/src/user/user.service.ts:524-536 | with empty identifiers stored as NULL, a new admin with unused identifiers never clashes |
| UserService.AdminRowNotInsertable | backend/nest-api/src/user/user.service.ts:524-536 | the row as written clashes with an existing phone-only admin on the empty e-mail |
| UserService.RowsNotOfKeeps | backend/nest-api/src/user/user.service.ts:430 | the ledger delete keeps the other users' rows in creation order |
| UserService.NoRowsOfLeft | backend/nest-api/src/user/user.service.ts:430 | after the ledger delete the user has no rows left |
| AuthService.PayloadOf | backend/nest-api/src/auth/auth.service.ts:87-92 | the token payload carries the user's id as `sub`, the identifiers, and the role claim `admin` exactly for administrators |
| AuthService.SummaryOf | backend/nest-api/src/auth/auth.service.ts:107-114 | the user summary in the response carries the id, role and identifiers |
| AuthService.AuthService.constructor | backend/nest-api/src/auth/auth.service.ts:13-16 | the service works on the given user store and access-token lifetime |
| AuthService.AuthService.IssueTokens | backend/nest-api/src/auth/auth.service.ts:94-115 | an access token and a seven-day refresh token signed over the user's payload; only that user's stored refresh token changes |
| AuthService.AuthService.Signup | backend/nest-api/src/auth/auth.service.ts:18-53 | a refused `create` is passed on and changes nothing; otherwise the new row is inserted and keeps the refresh token returned with the session |
| AuthService.AuthService.ValidateUser | backend/nest-api/src/auth/auth.service.ts:55-84 | every failure is Unauthorized; the e-mail is used when truthy, else the phone; success returns the stored row whose hash matches the password |
| AuthService.AuthService.Login | backend/nest-api/src/auth/auth.service.ts:86-116 | for a stored user, both tokens carry the user's payload and are issued now, the refresh token lasts seven days, the answer's user is the summary of the row, and only that row changes, its stored refresh token becoming the new one |
| AuthService.AuthService.RefreshToken | backend/nest-api/src/auth/auth.service.ts:118-141 | as written: any token that verifies yields a fresh access token with the same claims; anything else is Unauthorized |
| AuthService.AuthService.RefreshTokenChecked | backend/nest-api/src/auth/auth.service.ts:118-141 | as intended: a token is honoured only when it verifies and is the one stored on its user's row |
| AuthService.AuthService.Logout | backend/nest-api/src/auth/auth.service.ts:143-146 | passing `undefined` changes no stored row: the user's refresh token stays; NotFound for a missing user |
| AuthService.AuthService.RevokingLogout | backend/nest-api/src/auth/auth.service.ts:143-146 | the intended logout clears only that user's stored token, after which the intended refresh refuses every token of that user |
| AuthService.AuthService.CheckedRefreshRefusedAfterLogout | backend/nest-api/src/auth/auth.service.ts:143-146 | once the stored token is cleared, the intended refresh refuses every token of that user |
| AuthService.LogoutDoesNotRevoke | backend/nest-api/src/auth/auth.service.ts:118-146 | as written, the refresh token from sign-up still works after logout, and since the stored copy survives the logout even the intended refresh accepts it; after the intended logout the intended refresh refuses it |
| AuthService.ListedAdminTokenYieldsAdminAccess | backend/nest-api/src/user/user.service.ts:114-121 | the user listing exposes each stored refresh token, and an admin's unexpired one refreshes into an access token claiming `admin` |
| JwtStrategy.Validate | backend/nest-api/src/auth/strategies/jwt.strategy.ts:22-39 | a payload whose `sub` is a stored user yields that row without its password, with the identifiers and role taken from the token; otherwise Unauthorized |
| JwtStrategy.Authenticate | backend/nest-api/src/auth/strategies/jwt.strategy.ts:15-39 | a request is authenticated exactly when it carries an unexpired token of this server whose user still exists, and its role is the token's |
| JwtStrategy.RoleComesFromToken | backend/nest-api/src/auth/strategies/jwt.strategy.ts:29-34 | the request's role is the token's claim, whatever the stored row now says |
| AdminGuard.CanActivate | backend/nest-api/src/auth/guards/admin.guard.ts:7-19 | passes exactly a request user whose role is `admin`; everything else is Forbidden |
| AdminGuard.DemotedAdminStillPasses | backend/nest-api/src/auth/guards/admin.guard.ts:14-16 | an admin demoted after login keeps passing until the old token expires |
| AdminGuard.PromotedUserStillRefused | backend/nest-api/src/auth/guards/admin.guard.ts:14-16 | a user promoted after login is refused until a new token is issued |
| UploadService.UploadService.constructor | backend/nest-api/src/upload/upload.service.ts:12-21 | the service works on the given user store and `BASE_URL` setting |
| UploadService.UploadService.BaseUrl | backend/nest-api/src/upload/upload.service.ts:26 | `BASE_URL` when set and non-empty, else `http://localhost:3000` |
| UploadService.UploadService.GetFileUrl | backend/nest-api/src/upload/upload.service.ts:25-28 | the URL is the base, then `/uploads/`, then the file name |
| UploadService.UploadService.FileUrlInjective | backend/nest-api/src/upload/upload.service.ts:25-28 | two file names with the same URL are the same name |
| UploadService.UploadService.UpdateUserAvatar | backend/nest-api/src/upload/upload.service.ts:36-39 | only the avatar of that user changes; a missing id changes nothing and is not reported |
| UserController.AdminPathsCarryBothGuards | backend/nest-api/src/user/user.controller.ts:38-406 | exactly the routes under `admin/` carry both guards; every other route except the password reset carries the JWT guard alone |
| UserController.RunGuards | backend/nest-api/src/user/user.controller.ts:245 | the guards let a request through exactly when it is authenticated where required and an admin where required; a refusal is Unauthorized or Forbidden |
| UserController.AdminRouteAccess | backend/nest-api/src/user/user.controller.ts:245-406 | an admin route admits exactly the authenticated requests whose role claim is `admin`; an unauthenticated one is Unauthorized |
| UserController.NumericId | backend/nest-api/src/user/user.controller.ts:374 | `+id` gives a number exactly for a non-empty string of decimal digits, and that number is its value |
| UserController.UserController.constructor | backend/nest-api/src/user/user.controller.ts:34 | the controller works on the given service |
| UserController.UserController.Remove | backend/nest-api/src/user/user.controller.ts:195-201 | a bad id is BadRequest and another user's id Forbidden, both deleting nothing; the caller's own id is the service's `remove`: NotFound when missing, InternalError while ledger rows or notifications refer to it, otherwise only the user row goes |
| UserController.UserController.CreateOrPromoteAdmin | backend/nest-api/src/user/user.controller.ts:327-345 | no truthy identifier is BadRequest and changes nothing; otherwise the service's `createOrPromoteAdmin` with missing fields as `''` |
| UserController.UserController.AdjustUserCoins | backend/nest-api/src/user/user.controller.ts:369-375 | the target is the path's id and the actor is always the caller; a non-numeric path finds no user; an existing target, an admin caller and a non-negative new balance give success |
| UserController.UserController.UserTransactions | backend/nest-api/src/user/user.controller.ts:400-402 | a non-numeric path is NotFound; otherwise the service's listing for that id |
| ApiService.ReplaceLocalBase | frontend/tarot/src/utils/apiService.ts:82 | replacing `http://localhost:3000` by the server address never shortens the URL |
| ApiService.ReplaceWithoutOccurrence | frontend/tarot/src/utils/apiService.ts:82 | a URL without `http://localhost:3000` is left unchanged |
| ApiService.LocalBaseNeedsLocalhost | frontend/tarot/src/utils/apiService.ts:81 | a URL containing `http://localhost:3000` contains `localhost`, so the guard never skips a replacement |
| ApiService.ConvertReplacesLocalBase | frontend/tarot/src/utils/apiService.ts:71-89 | `convertLocalhostUrl` is exactly the global replacement; a URL without the local base is unchanged, and none gets shorter |
| ApiService.ConvertLocalPrefix | frontend/tarot/src/utils/apiService.ts:76-82 | a URL starting with the local base starts with the server address afterwards |
| ApiService.ValidateData | frontend/tarot/src/utils/apiService.ts:412-446 | absent data gives `{}`; otherwise exactly the given keys that are allowed (when a list is given) and neither `undefined`, `null` nor blank strings, each with its value, which is `Validated` of the data |
| ApiService.KeepAllowed | frontend/tarot/src/utils/apiService.ts:421-427 | keeps exactly the keys in the allowed list, with their values |
| ApiService.DropEmpty | frontend/tarot/src/utils/apiService.ts:430-443 | keeps exactly the keys whose values are not `undefined`, `null` or blank strings |
| ApiService.ValidateDataIdempotent | frontend/tarot/src/utils/apiService.ts:412-446 | cleaning an object a second time with the same list changes nothing, so a body cleaned by the client passes a second cleaning as it is |
| ApiService.CleanDate | frontend/tarot/src/utils/apiService.ts:104-123 | a date string keeps its `YYYY-MM-DD` prefix, `null` stays, a string without that prefix is dropped |
| ApiService.DeleteAll | frontend/tarot/src/utils/apiService.ts:127-134 | exactly the listed keys are gone and every other key is unchanged |
| ApiService.DropNonStrings | frontend/tarot/src/utils/apiService.ts:143-161 | a listed key goes exactly when its value is truthy and not a string; every other key is unchanged |
| ApiService.CleanDateField | frontend/tarot/src/utils/apiService.ts:104-123 | the date pass changes only `dateOfBirth`, as `CleanDate` says |
| ApiService.ConvertAvatar | frontend/tarot/src/utils/apiService.ts:138-141 | a non-empty string avatar is converted, nothing else changes |
| ApiService.CleanPasswords | frontend/tarot/src/utils/apiService.ts:164-175 | the password pair goes when both are truthy and one is not a string; `confirmNewPassword` always goes; nothing else changes |
| ApiService.ProfilePayload | frontend/tarot/src/utils/apiService.ts:97-197 | the body `updateUserProfile` sends carries, key by key, what `ProfileField` gives |
| ApiService.PhasesGiveProfile | frontend/tarot/src/utils/apiService.ts:100-175 | the five cleaning passes composed give `ProfileField` for every key |
| ApiService.ProfilePayloadProperties | frontend/tarot/src/utils/apiService.ts:100-175 | the profile body never carries a server-managed column or the confirmation, only keys the caller gave, a date that is `null` or `YYYY-MM-DD`, and every other key unchanged |
| ApiService.SimplePayload | frontend/tarot/src/utils/apiService.ts:453-493 | the body holds exactly the five allowed fields that are neither `undefined` nor `null`, unchanged but for the converted avatar |
| ApiService.LoginBody | frontend/tarot/src/utils/apiService.ts:495-512 | refused without an identifier; otherwise the password and exactly one identifier, the phone when truthy, else the e-mail |
| ApiService.RegisterPayload | frontend/tarot/src/utils/apiService.ts:547-583 | the body holds exactly the keys whose values are neither `''` nor `undefined`, unchanged but for an avatar URL that `IsValidUrl` accepts, which is converted; an avatar that does not name the server is never changed |
| ApiService.IsValidUrl | frontend/tarot/src/utils/apiService.ts:35-65 | the empty string is invalid; a URL naming the server is valid; any other URL mentioning `localhost` is invalid; whatever is accepted names the server or Google's image host, or parses as a URL |
| ApiService.ConvertLocalPrefixKeepsNonEmpty | frontend/tarot/src/utils/apiService.ts:547-583 | converting never empties a URL, so the avatar conversion cannot remove the avatar |
| SettingsScreen.FirstAt | frontend/tarot/src/screens/Settings/SettingsScreen.tsx:132 | the position of the first `@`, or none when the string has no `@` |
| SettingsScreen.MatcherImpliesPattern | frontend/tarot/src/screens/Settings/SettingsScreen.tsx:131-134 | every string the matcher accepts has the shape `/^[^\s@]+@[^\s@]+\.[^\s@]+$/` describes |
| SettingsScreen.PatternImpliesMatcher | frontend/tarot/src/screens/Settings/SettingsScreen.tsx:131-134 | every string of that shape is accepted by the matcher |
| SettingsScreen.EmailMatchesPattern | frontend/tarot/src/screens/Settings/SettingsScreen.tsx:131-134 | `isValidEmail` accepts exactly the strings of the form `local@domain.tld`, with no whitespace or further `@` in any part |
| SettingsScreen.EmailReason | frontend/tarot/src/screens/Settings/SettingsScreen.tsx:155-164 | the e-mail is clear exactly when it is not blank, is well formed and the account has a phone number |
| SettingsScreen.NoErrorsIff | frontend/tarot/src/screens/Settings/SettingsScreen.tsx:137-205 | the form passes exactly when name and address are not blank, the e-mail is clear, and a password change has a current password and a confirmed new one of at least 8 characters |
| SettingsScreen.JsOf | frontend/tarot/src/screens/Settings/SettingsScreen.tsx:304-322 | a profile field is sent as `null` or a string |
| SettingsScreen.DayOf | frontend/tarot/src/screens/Settings/SettingsScreen.tsx:325-326 | a date is sent as its ISO day or `null` |
| SettingsScreen.UpdatePayload | frontend/tarot/src/screens/Settings/SettingsScreen.tsx:290-353 | the body holds only profile fields and the password pair, each key as `PayloadField` decides |
| SettingsScreen.OnlyDifferencesSent | frontend/tarot/src/screens/Settings/SettingsScreen.tsx:299-338 | against the stored copy every field sent differs from the copy's, and the password pair goes exactly when changing with all three typed |
| SettingsScreen.NoCopySendsAll | frontend/tarot/src/screens/Settings/SettingsScreen.tsx:339-353 | without a stored copy all six profile fields are sent |
| SettingsScreen.PayloadSurvivesCleaning | frontend/tarot/src/utils/apiService.ts:100-175 | the client's own cleaning passes the screen's body on unchanged, apart from the avatar |
| SettingsScreen.ClampBirth | frontend/tarot/src/screens/Settings/SettingsScreen.tsx:173-176 | a future date of birth becomes now; nothing else changes |
| SettingsScreen.SettingsScreen.constructor | frontend/tarot/src/screens/Settings/SettingsScreen.tsx:46-76 | the initial form: empty strings, today's date, gender `male`, no errors, no password change |
| SettingsScreen.SettingsScreen.ValidateInputs | frontend/tarot/src/screens/Settings/SettingsScreen.tsx:137-205 | a `null` text field throws before anything is recorded; otherwise the errors become `ErrorsFor`, a future birth date is clamped, and the answer is whether there are no errors |
| SettingsScreen.SettingsScreen.UpdateProfile | frontend/tarot/src/screens/Settings/SettingsScreen.tsx:290-411 | a null name, e-mail or address makes `trim()` throw: nothing is sent and nothing changes; otherwise the errors are those of the clamped form, a body is sent exactly when there are none and `UpdatePayload` of the clamped form is non-empty, and it is that body; an invalid form leaves loading as it was and shows the clamped form; a valid one ends loading and shows `Refetched` of the fetched user after a successful save of a stored user, else the clamped form |
| SettingsScreen.Refetched | frontend/tarot/src/screens/Settings/SettingsScreen.tsx:376-386 | the refetched profile always has a date of birth; it differs from the fetched one only there, and not at all when the fetched one has a date of birth |
| SettingsScreen.UnchangedFormSendsNothing | frontend/tarot/src/screens/Settings/SettingsScreen.tsx:355-364 | a form equal to the stored copy, with no password change, sends nothing |
| ChatRoom.ChargeFor | frontend/tarot/src/screens/Chat/ChatRoomScreen.tsx:88-109 | a message is paid exactly when a free credit remains or the balance covers the price; a free credit is used first; payment lowers the worth by exactly one price; a refusal changes nothing; neither counter goes negative |
| ChatRoom.ChargeManyWorth | frontend/tarot/src/screens/Chat/ChatRoomScreen.tsx:88-109 | charging `n` messages keeps both counters non-negative and, when all are paid, lowers the worth by `n` prices |
| ChatRoom.BalancePaysFor | frontend/tarot/src/screens/Chat/ChatRoomScreen.tsx:93-96 | with no credits, `n` messages are all paid exactly when `n` prices fit in the balance |
| ChatRoom.WithStatus | frontend/tarot/src/screens/Chat/ChatRoomScreen.tsx:140-146 | the status update changes only the status, and only of the messages with that id |
| ChatRoom.WithStatusOnlyLast | frontend/tarot/src/screens/Chat/ChatRoomScreen.tsx:140-146 | a fresh id changes only the message just appended |
| ChatRoom.ChatRoom.constructor | frontend/tarot/src/screens/Chat/ChatRoomScreen.tsx:42-47 | the sample balance 100000, two free credits, no messages, loading |
| ChatRoom.ChatRoom.HistoryLoaded | frontend/tarot/src/screens/Chat/ChatRoomScreen.tsx:56-71 | the history is the single read greeting from a day before, and loading is over |
| ChatRoom.ChatRoom.CheckAndChargeFee | frontend/tarot/src/screens/Chat/ChatRoomScreen.tsx:88-109 | the counters move as `ChargeFor` says and nothing else changes |
| ChatRoom.ChatRoom.SendMessage | frontend/tarot/src/screens/Chat/ChatRoomScreen.tsx:112-134 | a blank input does nothing; otherwise the fee is charged and, only when paid, the trimmed text is appended as a sending message and the input is cleared |
| ChatRoom.ChatRoom.MessageDelivered | frontend/tarot/src/screens/Chat/ChatRoomScreen.tsx:138-146 | that message becomes `sent`; nothing else changes |
| ChatRoom.ChatRoom.ExpertReplied | frontend/tarot/src/screens/Chat/ChatRoomScreen.tsx:149-185 | that message becomes `read`, the reply is appended and sending is over |
| ChatRoom.ExchangeAppendsTwo | frontend/tarot/src/screens/Chat/ChatRoomScreen.tsx:112-185 | one paid exchange leaves the earlier messages as they were and appends the user's message, read, and the reply |
| CallComponent.Pad2 | frontend/tarot/src/screens/Chat/CallComponent.tsx:112 | `padStart(2, '0')` gives at least two digits, exactly two below 100, and reads back as the number |
| CallComponent.FormatDurationRoundTrip | frontend/tarot/src/screens/Chat/CallComponent.tsx:109-113 | `mm:ss` has at least five characters and reads back as the seconds it was made from |
| CallComponent.FormatDurationInjective | frontend/tarot/src/screens/Chat/CallComponent.tsx:109-113 | two durations shown alike are equal |
| CallComponent.BilledStep | frontend/tarot/src/screens/Chat/CallComponent.tsx:44-51 | each second adds the price exactly when it completes a minute |
| CallComponent.BilledMonotone | frontend/tarot/src/screens/Chat/CallComponent.tsx:44-51 | with a non-negative price, a longer call never costs less |
| CallComponent.Call.constructor | frontend/tarot/src/screens/Chat/CallComponent.tsx:33-37 | hidden, connecting, zero duration and zero cost |
| CallComponent.Call.StartCall | frontend/tarot/src/screens/Chat/CallComponent.tsx:77-82 | visible, connecting, duration and cost reset |
| CallComponent.Call.ConnectTimerFired | frontend/tarot/src/screens/Chat/CallComponent.tsx:62-74 | as written: while visible, the call becomes ongoing whatever its status was |
| CallComponent.Call.ConnectTimerFiredChecked | frontend/tarot/src/screens/Chat/CallComponent.tsx:62-74 | as intended: only a connecting call becomes ongoing; an ended call stays ended |
| CallComponent.Call.Tick | frontend/tarot/src/screens/Chat/CallComponent.tsx:40-59 | while visible and ongoing, one more second and the cost as `Billed` says; otherwise nothing changes |
| CallComponent.Call.EndCall | frontend/tarot/src/screens/Chat/CallComponent.tsx:85-106 | the call ends, the ticking stops, and the summary shows the formatted duration and the billed cost |
| CallComponent.Call.Dismiss | frontend/tarot/src/screens/Chat/CallComponent.tsx:101-104 | the modal closes and nothing ticks |
| CallComponent.EndedWhileConnecting | frontend/tarot/src/screens/Chat/CallComponent.tsx:62-90 | as written, a call ended while connecting is reopened and ticks again; as intended it stays ended |
| UserList.OpenForm | backend/nest-api/admin-dashboard/src/components/pages/UserList.tsx:134-147 | the edit form opens with an empty password and each missing text field as `''`, otherwise with the user's own values |
| UserList.EditDiff | backend/nest-api/admin-dashboard/src/components/pages/UserList.tsx:295-332 | as written: a field is sent when it differs from the stored value (`''` differs from `null`), a cleared e-mail, phone or date goes as `null`, the password only when typed, the role only when changed |
| UserList.IntendedDiffEmptyIffUntouched | backend/nest-api/admin-dashboard/src/components/pages/UserList.tsx:295-332 | as intended, comparing with the values the dialog opened with: nothing is sent exactly when the form is left as it opened and no password was typed |
| UserList.UnchangedFormStillSends | backend/nest-api/admin-dashboard/src/components/pages/UserList.tsx:134-147 | as written, a user with a `null` name opened and saved unchanged is still sent `fullName: ''`; as intended nothing is sent |
| UserList.DiffsAgreeOnCompleteRows | backend/nest-api/admin-dashboard/src/components/pages/UserList.tsx:305-327 | for a user whose every text field is filled in, the written and the intended change sets are the same |
| UserList.ApplyPatch | backend/nest-api/admin-dashboard/src/components/pages/UserList.tsx:342-351 | the saved row is the selected user with the sent fields laid over it, field by field (name, e-mail, phone, gender, role); id, balance and provider are kept; the date changes only to a non-empty new date |
| UserList.UpdateWhere | backend/nest-api/admin-dashboard/src/components/pages/UserList.tsx:349-351 | rows with that id are transformed, every other row stays, the length is kept |
| UserList.WithoutId | backend/nest-api/admin-dashboard/src/components/pages/UserList.tsx:252 | the filter never lengthens the list |
| UserList.WithoutIdMembers | backend/nest-api/admin-dashboard/src/components/pages/UserList.tsx:252 | exactly the rows with another id are kept |
| UserList.WithoutIdCutsOne | backend/nest-api/admin-dashboard/src/components/pages/UserList.tsx:252 | with distinct ids, deleting one row's id cuts out that row and keeps the order of the rest |
| UserList.WithoutIdAbsent | backend/nest-api/admin-dashboard/src/components/pages/UserList.tsx:252 | deleting an id no row has changes nothing |
| UserList.CoinConfirmMatchesOverdraftRule | backend/nest-api/admin-dashboard/src/components/pages/UserList.tsx:595 | an enabled confirm button never overdraws the shown balance; with an amount, a note and nothing pending, overdrawing is the only reason it is disabled |
| UserList.ShortNoteEnabledButRefused | backend/nest-api/admin-dashboard/src/components/pages/UserList.tsx:595 | a two-character note enables the button while the server's body check refuses it |
| UserList.ResetBodyFor | backend/nest-api/admin-dashboard/src/components/pages/UserList.tsx:280-284 | the body carries the new password and each identifier exactly when the user's is truthy |
| UserList.ResetBodyAgainstServer | backend/nest-api/admin-dashboard/src/components/pages/UserList.tsx:276-293 | a user with both identifiers is reset exactly when the new password has eight characters; a user with neither never is |
| UserList.AdjustTouchesOnlyBalance | backend/nest-api/admin-dashboard/src/components/pages/UserList.tsx:233-235 | after an adjustment the user's rows carry the server's balance and nothing else in any row changes |
| UserList.UserListPage.constructor | backend/nest-api/admin-dashboard/src/components/pages/UserList.tsx:47-77 | an empty list, nothing selected, every dialog closed, the coin dialog reset |
| UserList.UserListPage.FetchUsers | backend/nest-api/admin-dashboard/src/components/pages/UserList.tsx:83-95 | an answer replaces the list and clears the error; a failure keeps the list and sets the error |
| UserList.UserListPage.OpenEditDialog | backend/nest-api/admin-dashboard/src/components/pages/UserList.tsx:134-148 | the user is selected and the form is `OpenForm` of it |
| UserList.UserListPage.OpenCoinDialog | backend/nest-api/admin-dashboard/src/components/pages/UserList.tsx:158-163 | the user is selected with a zero amount and an empty note |
| UserList.UserListPage.SaveUserChanges | backend/nest-api/admin-dashboard/src/components/pages/UserList.tsx:295-362 | with nothing selected nothing is sent and no state changes, the loading flag included; an empty change set closes the dialog unsent; otherwise the change set is sent and, on success, the user's rows become `ApplyPatch` of it |
| UserList.UserListPage.CloseEditDialog | backend/nest-api/admin-dashboard/src/components/pages/UserList.tsx:150-156 | the dialog closes, nothing is selected, saving is over |
| UserList.UserListPage.AdjustCoin | backend/nest-api/admin-dashboard/src/components/pages/UserList.tsx:219-244 | without a user or a note nothing is sent; otherwise the amount and note are sent and, on success, the user's rows take the server's balance and the dialog resets |
| UserList.UserListPage.DeleteUser | backend/nest-api/admin-dashboard/src/components/pages/UserList.tsx:247-258 | on success the user's rows leave the list and the dialog closes; on failure, which includes the server refusing a user who has ledger rows or notifications, the list stays and the error is set |
| UserList.UserListPage.UpdateRole | backend/nest-api/admin-dashboard/src/components/pages/UserList.tsx:260-274 | on success only the role of the user's rows changes; on failure the list stays and the error is set |
| UserList.UserListPage.ResetPassword | backend/nest-api/admin-dashboard/src/components/pages/UserList.tsx:276-293 | without a user or a password nothing is sent; otherwise `ResetBodyFor` is sent; the list never changes |
| LoginScreen.FormErrors | frontend/tarot/src/screens/Auth/LoginScreen.tsx:38-62 | the phone is clear exactly when it is ten digits and "required" exactly when empty; the password is clear exactly when non-empty; the form passes exactly when both are |
| LoginScreen.AnyPasswordLengthAccepted | frontend/tarot/src/screens/Auth/LoginScreen.tsx:55-58 | the login form puts no length bound on the password: one character passes with a valid phone |
| LoginScreen.LoginScreen.constructor | frontend/tarot/src/screens/Auth/LoginScreen.tsx:29-35 | empty fields, no errors, not loading |
| LoginScreen.LoginScreen.ValidateInputs | frontend/tarot/src/screens/Auth/LoginScreen.tsx:38-62 | the errors become `FormErrors` of the fields and the answer is whether the form passes; the fields do not change |
| LoginScreen.LoginScreen.HandleLogin | frontend/tarot/src/screens/Auth/LoginScreen.tsx:65-82 | the form is validated; exactly a passing form sets loading and schedules the timer |
| LoginScreen.LoginScreen.LoginTimerFired | frontend/tarot/src/screens/Auth/LoginScreen.tsx:70-80 | loading ends and the home screen opens with an empty name |
| LoginScreen.InvalidFormStaysIdle | frontend/tarot/src/screens/Auth/LoginScreen.tsx:65-82 | a phone that is not ten digits schedules nothing and leaves loading off |
| RegisterScreen.FormErrors | frontend/tarot/src/screens/Auth/RegisterScreen.tsx:56-93 | each field is clear, "required" or refused exactly as the three checks say, with the minimum length a parameter |
| RegisterScreen.FormPassesIff | frontend/tarot/src/screens/Auth/RegisterScreen.tsx:56-93 | the form as written passes exactly when the phone has ten digits, the password at least six characters and the confirmation repeats it |
| RegisterScreen.SignupBody | frontend/tarot/src/screens/Auth/RegisterScreen.tsx:108-113 | the body carries the generated name, the phone, the password and provider `local`, and no e-mail |
| RegisterScreen.ShortPasswordPassesForm | frontend/tarot/src/screens/Auth/RegisterScreen.tsx:77 | as written: a six-character password passes the form while the server's eight-character minimum refuses the body |
| RegisterScreen.IntendedFormErrors | frontend/tarot/src/screens/Auth/RegisterScreen.tsx:56-93 | as intended, with the server's minimum of eight: the form passes exactly when the phone has ten digits, the password eight characters and the confirmation repeats it |
| RegisterScreen.IntendedFormAcceptedByServer | frontend/tarot/src/screens/Auth/RegisterScreen.tsx:56-113 | every body the intended check lets through passes the server's sign-up validation |
| RegisterScreen.RegisterScreen.constructor | frontend/tarot/src/screens/Auth/RegisterScreen.tsx:36-53 | empty fields, no errors, not loading, and the name the generator picked |
| RegisterScreen.RegisterScreen.ValidateInputs | frontend/tarot/src/screens/Auth/RegisterScreen.tsx:56-93 | the errors become `FormErrors` of the fields and the answer is whether the form passes; the fields do not change |
| RegisterScreen.RegisterScreen.HandleRegister | frontend/tarot/src/screens/Auth/RegisterScreen.tsx:96-177 | a body is sent exactly when the form passes, and it is `SignupBody`; registration succeeds exactly when it was sent and the server accepted it; loading is over afterwards |
| AddUser.FormCheck | backend/nest-api/admin-dashboard/src/components/pages/AddUser.tsx:52-60 | "no identifier" exactly when both e-mail and phone are empty, "no password" exactly when an identifier is there and the password is empty, and passing otherwise |
| AddUser.DisabledIffRefused | backend/nest-api/admin-dashboard/src/components/pages/AddUser.tsx:255 | when nothing is loading, the submit button is disabled exactly when `handleSubmit` would refuse the form |
| AddUser.Payload | backend/nest-api/admin-dashboard/src/components/pages/AddUser.tsx:67-75 | each empty optional field is left out, the gender is kept, the password is sent and the provider is `local` |
| AddUser.SentPayloadShape | backend/nest-api/admin-dashboard/src/components/pages/AddUser.tsx:48-97 | a sent body carries an identifier, no empty identifier and a non-empty password, and the DTO's transformation leaves it alone |
| AddUser.AddUserPage.constructor | backend/nest-api/admin-dashboard/src/components/pages/AddUser.tsx:26-37 | an empty form, not loading, no error, no success |
| AddUser.AddUserPage.HandleSubmit | backend/nest-api/admin-dashboard/src/components/pages/AddUser.tsx:48-97 | a refused form only sets the error; otherwise `Payload` is sent, and success clears the form while failure keeps it and shows the server's message |
| AddAdmin.FormCheck | backend/nest-api/admin-dashboard/src/components/pages/AddAdmin.tsx:33-42 | "no identifier" exactly when both are empty, "no password" exactly when an identifier is there and the password is empty, and passing otherwise |
| AddAdmin.DisabledIffRefused | backend/nest-api/admin-dashboard/src/components/pages/AddAdmin.tsx:184 | when nothing is loading, the submit button is disabled exactly when `handleSubmit` would refuse the form |
| AddAdmin.Payload | backend/nest-api/admin-dashboard/src/components/pages/AddAdmin.tsx:49-53 | an empty identifier is left out; the password is sent and no name |
| AddAdmin.SentPayloadHasIdentifier | backend/nest-api/admin-dashboard/src/components/pages/AddAdmin.tsx:29-70 | a sent body gets past the controller's identifier check and carries no empty identifier |
| AddAdmin.AddAdminPage.constructor | backend/nest-api/admin-dashboard/src/components/pages/AddAdmin.tsx:21-27 | empty fields, not loading, no error, no success |
| AddAdmin.AddAdminPage.HandleSubmit | backend/nest-api/admin-dashboard/src/components/pages/AddAdmin.tsx:29-70 | a refused form only sets the error; otherwise `Payload` is sent, and success clears the three fields while failure keeps them and shows the server's message |
| Dashboard.MarkedRead | backend/nest-api/admin-dashboard/src/components/Dashboard.tsx:170-174 | the map keeps the length |
| Dashboard.AllRead | backend/nest-api/admin-dashboard/src/components/Dashboard.tsx:184-186 | the map keeps the length |
| Dashboard.Without | backend/nest-api/admin-dashboard/src/components/Dashboard.tsx:196-198 | the filter never lengthens the list |
| Dashboard.MarkedReadOnlyThatId | backend/nest-api/admin-dashboard/src/components/Dashboard.tsx:167-179 | only `isRead` changes, only on notifications with that id, and those all end up read |
| Dashboard.MarkedReadUnread | backend/nest-api/admin-dashboard/src/components/Dashboard.tsx:167-179 | marking one read never raises the unread count and lowers it when that notification was unread |
| Dashboard.AllReadNoneUnread | backend/nest-api/admin-dashboard/src/components/Dashboard.tsx:181-191 | after marking all, nothing is unread, matching the zero the menu shows, and only `isRead` changed |
| Dashboard.WithoutMembers | backend/nest-api/admin-dashboard/src/components/Dashboard.tsx:193-203 | exactly the notifications with another id are kept |
| Dashboard.WithoutIdempotent | backend/nest-api/admin-dashboard/src/components/Dashboard.tsx:193-203 | deleting twice is deleting once, and deleting never raises the unread count |
| Dashboard.Dashboard.constructor | backend/nest-api/admin-dashboard/src/components/Dashboard.tsx:109-111 | no notifications, a zero count, not loading |
| Dashboard.Dashboard.FetchUnreadCount | backend/nest-api/admin-dashboard/src/components/Dashboard.tsx:146-153 | only a received answer replaces the count |
| Dashboard.Dashboard.FetchNotifications | backend/nest-api/admin-dashboard/src/components/Dashboard.tsx:155-165 | only a received answer replaces the list; loading is over either way |
| Dashboard.Dashboard.MarkNotificationAsRead | backend/nest-api/admin-dashboard/src/components/Dashboard.tsx:167-179 | on success the list becomes `MarkedRead` of it and the count is asked for again; on failure nothing changes |
| Dashboard.Dashboard.MarkAllAsRead | backend/nest-api/admin-dashboard/src/components/Dashboard.tsx:181-191 | on success every notification is read and the count is zero; on failure nothing changes |
| Dashboard.Dashboard.DeleteNotification | backend/nest-api/admin-dashboard/src/components/Dashboard.tsx:193-203 | on success the list loses that id and the count is asked for again; on failure nothing changes |
| Dashboard.Dashboard.ClearAllNotifications | backend/nest-api/admin-dashboard/src/components/Dashboard.tsx:205-214 | on success the list is empty and the count zero; on failure nothing changes |
| CoinStats.FromServer | backend/nest-api/src/user/user.service.ts:788-794 | the server's answer always carries its list of recent rows |
| CoinStats.SliceIndex | backend/nest-api/admin-dashboard/src/components/pages/CoinStats.tsx:265 | a `slice` index ends up within the list, is kept when already inside it and is cut to the length beyond it |
| CoinStats.JsSlice | backend/nest-api/admin-dashboard/src/components/pages/CoinStats.tsx:265 | a slice is never longer than the list |
| CoinStats.PageRowsAre | backend/nest-api/admin-dashboard/src/components/pages/CoinStats.tsx:264-265 | a page holds at most `rowsPerPage` rows, exactly the rows from `page * rowsPerPage` on in order, is full when the list reaches its end, and is empty past the list |
| CoinStats.EveryRowOnItsPage | backend/nest-api/admin-dashboard/src/components/pages/CoinStats.tsx:264-265 | each row appears on page `j / rowsPerPage` at position `j % rowsPerPage` and on no other page |
| CoinStats.CoinStatsPage.constructor | backend/nest-api/admin-dashboard/src/components/pages/CoinStats.tsx:31-38 | nothing loaded, loading, first page, ten rows a page |
| CoinStats.CoinStatsPage.FetchCoinStats | backend/nest-api/admin-dashboard/src/components/pages/CoinStats.tsx:40-63 | an answer replaces the figures, replaces the table only when it lists rows, clears the error and records the time; a failure sets the error and keeps the rest; loading and refreshing end |
| CoinStats.CoinStatsPage.HandleChangePage | backend/nest-api/admin-dashboard/src/components/pages/CoinStats.tsx:90-92 | only the page changes |
| CoinStats.CoinStatsPage.HandleChangeRowsPerPage | backend/nest-api/admin-dashboard/src/components/pages/CoinStats.tsx:94-97 | the page size changes, the table goes back to the first page, which shows the first rows |
| CoinStats.ServerAnswerReplacesTable | backend/nest-api/admin-dashboard/src/components/pages/CoinStats.tsx:49-51 | a successful fetch of what the server sends always replaces the table with the server's joined rows |
| CoinStats.UserCellOf | backend/nest-api/admin-dashboard/src/components/pages/CoinStats.tsx:270 | the user cell shows the first non-empty of full name, e-mail and phone, and the bare user id only when the join found no user or all three are empty |
| CoinStats.PublicViewKeepsUserCells | backend/nest-api/admin-dashboard/src/components/pages/CoinStats.tsx:270 | sending the public view of the joined users instead leaves every row and every user cell of the table as it is |
| AuthContext.ErrorText | backend/nest-api/admin-dashboard/src/context/AuthContext.tsx:55 | the server's message is shown exactly when it sent a non-empty one |
| AuthContext.Restored | backend/nest-api/admin-dashboard/src/context/AuthContext.tsx:22-33 | a session is restored exactly when a non-empty token and user are stored, and it is the stored user |
| AuthContext.LoginPayload | backend/nest-api/admin-dashboard/src/context/AuthContext.tsx:40-42 | the password is sent, and each identifier exactly when it is truthy |
| AuthContext.LoginPayloadChecked | backend/nest-api/admin-dashboard/src/context/AuthContext.tsx:35-60 | the body never carries an empty identifier, and one with no identifier or an empty password is refused by the server's validation |
| AuthContext.AuthProvider.constructor | backend/nest-api/admin-dashboard/src/context/AuthContext.tsx:17-33 | mounting restores `Restored` of the storage and ends loading |
| AuthContext.AuthProvider.Login | backend/nest-api/admin-dashboard/src/context/AuthContext.tsx:35-60 | a granted login stores the three keys and authenticates its user; a refusal sets the error, is rethrown, and leaves the session and storage alone |
| AuthContext.AuthProvider.Logout | backend/nest-api/admin-dashboard/src/context/AuthContext.tsx:62-79 | whatever the server answers, the three session keys go, other keys stay and the session ends |
| AuthContext.LoginSurvivesReload | backend/nest-api/admin-dashboard/src/context/AuthContext.tsx:22-59 | mounting again after a granted login restores the same user |
| AuthContext.LogoutSurvivesReload | backend/nest-api/admin-dashboard/src/context/AuthContext.tsx:22-79 | mounting again after a logout restores nothing |

## Left out

- Password hashing: bcrypt is the free constructor `Bcrypt`, and comparison is equality of hashes.
- JWT signing and signature checking: a token is either `Signed` by this server or `Foreign`, and only expiry is checked, against a clock parameter.
- Database mechanics: query-runner connect, start, commit and release are not modelled. Each service call is one atomic step.
- Concurrency: concurrent requests and database isolation are not modelled.
- Logging: Winston, the Nest `Logger` and `console` calls have no effect in the model.
- HTTP plumbing: axios interceptors, AsyncStorage wrappers and the platform `fetch` are not modelled. In `apiService.ts` this means:
  - `fetchWithToken`, with its timeout, abort and retry-after-refresh;
  - `refreshToken`, `getUserInfo` and `uploadAvatar`.
  The operations that call them take the server's outcome as a parameter.
- `registerWithGoogle` (frontend/tarot/src/utils/apiService.ts:617-644) is not modelled. It only builds a fixed body for Google sign-in and passes it to `register`, which is modelled as `ApiService.RegisterPayload`.
- `findOneWithCoins` (backend/nest-api/src/user/user.service.ts:158-182) has the same body as `findOne`, so `UserService.UserService.FindOne` stands for both.
- UploadService.UploadService.RemoveOldAvatar has no contract beyond changing nothing, because its body is empty. The file system and the multipart upload are not modelled.
- `isEmail` and `isISO8601` are library code and are predicate parameters. Whether `new URL` parses a string as http or https, inside `isValidUrl`, is a boolean parameter.
- UserService.ChronologicalRows: creation times are modelled as strictly increasing in insertion order. SQLite's `datetime('now')` has one-second resolution, so rows written within the same second tie and may come back in either order. The newest-first orderings of UserService.UserService.Recent, UserService.UserService.GetUserCoinTransactions and NotificationService.NotificationService.FindAllForUser hold only under that assumption.
- NotificationService.InsertionOrdered: notification creation times are modelled the same way, with the same one-second caveat for `FindAllForUser`'s newest-first order.
- UserController.NumericId: JavaScript's `+id` also turns other strings into numbers that can name a user. These are hexadecimal, binary and octal literals (`0x10`, `0b101`, `0o7`), exponent forms (`1e1`), numerals with a decimal point (`5.0`, `5.`), a leading `+` (`+5`), `-0`, and space-padded numerals. The model gives such ids no number, so the two routes that read them answer NotFound, where the source looks up the user that number names.
- CreateUserDto.Validate, CreateAdminDto.Validate, UpdateProfileDto.Validate, ResetPasswordDto.Validate, AdjustCoinDto.Validate, RegisterScreen.FormErrors, SettingsScreen.SettingsScreen.ValidateInputs: `@MinLength` and the screens' `.length` checks count UTF-16 code units and the model counts characters. The two differ only for characters outside the Basic Multilingual Plane.
- SettingsScreen.DayOf: a `Date` is a record of its time value and its `toISOString().split('T')[0]` text (`isoDay`); `new Date()` is the `now` parameter. The model does not tie the two fields to each other. The date picker and `new Date(...)` parsing a fetched date string are not modelled.
- `JSON.stringify` and `JSON.parse` of the stored user are taken to undo each other. `AuthContext` stores the user text as it is.
- AdjustCoinDto.Validate: amounts are integers, so `@IsNumber`'s acceptance of fractional amounts is not modelled.
- Timers:
  - the chat's 1.5-second status and reply timers, the call's 2-second connect timer and 1-second tick, the login screen's 1.5-second timer and the coin page's one-minute refresh are separate methods;
  - how far apart in time they fire is not modelled;
  - clearing an interval on unmount is not modelled.
- Randomness:
  - the expert's reply text (`Math.random` in ChatRoomScreen.tsx) is a parameter;
  - the display name from the name generator is a parameter.
- SettingsScreen.SettingsScreen.UpdateProfile: fetching the user on mount and picking an avatar image are not modelled. They are network and image-picker I/O.
- Message texts: user-facing text is not modelled. This covers alert titles and the Vietnamese error messages, which become error constructors, and the chat's greeting text.
- Framework wiring: migrations, the create-admin scripts, presentation-only components, the thin upload and auth controllers, and declaration-only DTOs are not modelled. The DTOs appear only as record types where an operation takes them.

## Findings

| source | as written | input that shows it | evidently intended | confidence | as-written member | corrected member |
|---|---|---|---|---|---|---|
| backend/nest-api/src/user/user.service.ts:524-536 | the controller turns a missing identifier into `''` (user.controller.ts:333-334) and the new admin row stores it, so the unique index treats `''` as a value | two phone-only admins: the second insert clashes on `email = ''` and fails with status 500 | a missing identifier is stored as `null`, so any number of phone-only admins can be created | not executed | UserService.PhoneOnlyAdminsCollide | UserService.IntendedAdminRowInsertable |
| backend/nest-api/src/auth/auth.service.ts:118-146 | `refreshToken` checks only the token's signature and expiry, never the copy stored at login; and `logout` passes `undefined`, which `update` leaves out of the SET list, so the stored copy is not even cleared | log in, log out, then refresh with the old refresh token: a new access token is issued | `logout` writes `null`, and a refresh token is honoured only while it is the one stored for the user | not executed | AuthService.LogoutDoesNotRevoke | AuthService.AuthService.RevokingLogout |
| backend/nest-api/src/user/user.service.ts:114-121 | `findAll` strips the password hash but returns every user's stored refresh token | an admin's listed refresh token is refreshed into an access token that passes `AdminGuard` | the list omits the refresh token as it omits the password | not executed | AuthService.ListedAdminTokenYieldsAdminAccess | UserService.UserService.FindAllPublic |
| backend/nest-api/src/user/user.service.ts:411-458 | `adminRemoveUser` deletes the user's ledger rows but not the user's notifications, which keep a foreign key to `users` | adjust a user's coins, which sends that user a notification, then delete the user as admin: the delete fails and is rolled back with status 500 | the user's notifications are deleted in the same transaction, so any existing user can be removed | not executed | UserService.UserService.AdjustedUserNotRemovable | UserService.UserService.AdminRemoveUserWithInbox |
| backend/nest-api/src/user/user.service.ts:776-781 | the recent rows are loaded with `leftJoinAndSelect` on the user, which selects every column of the user row | any user with one of the twenty newest ledger rows: the admin's statistics answer carries their password hash and refresh token | the joined user is reduced to its public fields, as `findAll` does for the password | not executed | UserService.UserService.RecentRowsExposeSecrets | UserService.UserService.GetTotalSystemCoinsPublic |
| frontend/tarot/src/screens/Auth/RegisterScreen.tsx:77 | the form asks for at least 6 password characters while the server's sign-up body asks for 8 | password `123456` with a valid phone: the form sends it and the server refuses it | the form uses the server's minimum of 8 | not executed | RegisterScreen.ShortPasswordPassesForm | RegisterScreen.IntendedFormAcceptedByServer |
| frontend/tarot/src/screens/Chat/CallComponent.tsx:62-74 | the connect timer sets the status to `ongoing` whatever it is | end the call within two seconds of opening it: it is reopened and billed again | only a call still connecting becomes ongoing | not executed | CallComponent.EndedWhileConnecting | CallComponent.Call.ConnectTimerFiredChecked |
| backend/nest-api/admin-dashboard/src/components/pages/UserList.tsx:305-327 | the change set compares the form, which opened with `''` for missing fields, with the stored `null`s | open and save at once a user whose name is `null`: `fullName: ''` is sent | each field is compared with the value the dialog opened with | not executed | UserList.UnchangedFormStillSends | UserList.IntendedDiffEmptyIffUntouched |

=== FILE: add_admin.dfy ===
/**
 * `AddAdmin`: the dashboard page that creates an administrator or promotes
 * an existing account.  The form needs an e-mail or a phone number and a
 * password; an empty identifier is left out of the body.  A success clears
 * the three fields.
 */
module AddAdmin {
  import opened Common
  import CreateAdminDto

  /** The checks of `handleSubmit`, in order; `None` when both pass. */
  function FormCheck(email: string, phoneNumber: string, password: string): (r: Option<SubmitError>)
    ensures r == Some(NoIdentifier) <==> email == "" && phoneNumber == ""
    ensures r == Some(NoPassword) <==> (email != "" || phoneNumber != "") && password == ""
    ensures r.None? <==> (email != "" || phoneNumber != "") && password != ""
  {
    if email == "" && phoneNumber == "" then Some(NoIdentifier)
    else if password == "" then Some(NoPassword)
    else None
  }

  /** The submit button's `disabled`. */
  predicate SubmitDisabled(loading: bool, email: string, phoneNumber: string, password: string)
  {
    loading || (email == "" && phoneNumber == "") || password == ""
  }

  /** When nothing is loading, the button is disabled exactly when
   *  `handleSubmit` would refuse the form. */
  lemma DisabledIffRefused(email: string, phoneNumber: string, password: string)
    ensures SubmitDisabled(false, email, phoneNumber, password) <==> FormCheck(email, phoneNumber, password).Some?
  {
  }

  /** The body sent to `/users/admin/create-admin`. */
  function Payload(email: string, phoneNumber: string, password: string): (d: CreateAdminDto.CreateAdminDto)
    ensures d.email.None? <==> email == ""
    ensures d.phoneNumber.None? <==> phoneNumber == ""
    ensures d.password == Some(password) && d.fullName.None?
  {
    CreateAdminDto.CreateAdminDto(NonEmpty(email), NonEmpty(phoneNumber), Some(password), None)
  }

  /** A body the page sends always gets past the controller's identifier
   *  check, and never carries an empty identifier. */
  lemma SentPayloadHasIdentifier(email: string, phoneNumber: string, password: string)
    requires FormCheck(email, phoneNumber, password).None?
    ensures var d := Payload(email, phoneNumber, password);
            (Truthy(d.email) || Truthy(d.phoneNumber))
            && (d.email.Some? ==> d.email.value != "") && (d.phoneNumber.Some? ==> d.phoneNumber.value != "")
  {
  }

  class AddAdminPage {
    var email: string
    var phoneNumber: string
    var password: string
    var loading: bool
    var error: Option<SubmitError>
    var success: bool

    constructor ()
      ensures email == "" && phoneNumber == "" && password == ""
      ensures !loading && error.None? && !success
    {
      email, phoneNumber, password := "", "", "";
      loading := false;
      error := None;
      success := false;
    }

    /** `handleSubmit`: a refused form only sets the error.  Otherwise the
     *  body is sent; on success the fields clear and `success` is set, on
     *  failure they stay and the error carries the server's message.
     *  Loading is over afterwards either way. */
    method HandleSubmit(outcome: Outcome) returns (sent: Option<CreateAdminDto.CreateAdminDto>)
      modifies this
      ensures FormCheck(old(email), old(phoneNumber), old(password)).Some? ==>
        sent.None? && error == FormCheck(old(email), old(phoneNumber), old(password))
        && email == old(email) && phoneNumber == old(phoneNumber) && password == old(password)
        && loading == old(loading) && success == old(success)
      ensures FormCheck(old(email), old(phoneNumber), old(password)).None? ==>
        sent == Some(Payload(old(email), old(phoneNumber), old(password))) && !loading
        && (outcome.Succeeded? ==> email == "" && phoneNumber == "" && password == "" && success && error.None?)
        && (outcome.Failed? ==> email == old(email) && phoneNumber == old(phoneNumber) && password == old(password)
                                && !success && error == Some(RequestFailed(outcome.message)))
    {
      var check := FormCheck(email, phoneNumber, password);
      if check.Some? {
        error := check;
        return None;
      }
      loading := true;
      error := None;
      success := false;
      sent := Some(Payload(email, phoneNumber, password));
      if outcome.Succeeded? {
        email, phoneNumber, password := "", "", "";
        success := true;
      } else {
        error := Some(RequestFailed(outcome.message));
      }
      loading := false;
    }
  }
}

=== FILE: add_user.dfy ===
/**
 * `AddUser`: the dashboard page that creates an account through the
 * sign-up route.  The form needs an e-mail or a phone number and a
 * password; empty optional fields are left out of the body, and the
 * provider is always `local`.  A success clears the form.
 */
module AddUser {
  import opened Common
  import opened UserEntity
  import CreateUserDto

  /** The form; the gender select holds `''` (`None`) or one of the three
   *  values. */
  datatype Form = Form(fullName: string, email: string, phoneNumber: string, password: string,
                       gender: Option<Gender>, dateOfBirth: string)

  const EmptyForm := Form("", "", "", "", None, "")

  /** The checks of `handleSubmit`, in order; `None` when both pass. */
  function FormCheck(f: Form): (r: Option<SubmitError>)
    ensures r == Some(NoIdentifier) <==> f.email == "" && f.phoneNumber == ""
    ensures r == Some(NoPassword) <==> (f.email != "" || f.phoneNumber != "") && f.password == ""
    ensures r.None? <==> (f.email != "" || f.phoneNumber != "") && f.password != ""
  {
    if f.email == "" && f.phoneNumber == "" then Some(NoIdentifier)
    else if f.password == "" then Some(NoPassword)
    else None
  }

  /** The submit button's `disabled`. */
  predicate SubmitDisabled(loading: bool, f: Form)
  {
    loading || (f.email == "" && f.phoneNumber == "") || f.password == ""
  }

  /** When nothing is loading, the button is disabled exactly when
   *  `handleSubmit` would refuse the form. */
  lemma DisabledIffRefused(f: Form)
    ensures SubmitDisabled(false, f) <==> FormCheck(f).Some?
  {
  }

  /** The body sent to `/auth/signup`. */
  function Payload(f: Form): (d: CreateUserDto.CreateUserDto)
    ensures d.authProvider == Some(UserEntity.Local) && d.password == Some(f.password)
    ensures d.fullName.None? <==> f.fullName == ""
    ensures d.email.None? <==> f.email == ""
    ensures d.phoneNumber.None? <==> f.phoneNumber == ""
    ensures d.dateOfBirth.None? <==> f.dateOfBirth == ""
    ensures d.gender == f.gender
  {
    CreateUserDto.CreateUserDto(NonEmpty(f.fullName), NonEmpty(f.phoneNumber), NonEmpty(f.email), Some(f.password),
                                NonEmpty(f.dateOfBirth), f.gender, Some(UserEntity.Local))
  }

  /** A body the page sends carries an identifier, carries no empty string
   *  in any field, and is left alone by the DTO's transformation. */
  lemma SentPayloadShape(f: Form)
    requires FormCheck(f).None?
    ensures var d := Payload(f);
            (Truthy(d.email) || Truthy(d.phoneNumber))
            && (d.email.Some? ==> d.email.value != "") && (d.phoneNumber.Some? ==> d.phoneNumber.value != "")
            && d.password.Some? && d.password.value != ""
            && CreateUserDto.Transform(d) == d
  {
  }

  class AddUserPage {
    var formData: Form
    var loading: bool
    var error: Option<SubmitError>
    var success: bool

    constructor ()
      ensures formData == EmptyForm && !loading && error.None? && !success
    {
      formData := EmptyForm;
      loading := false;
      error := None;
      success := false;
    }

    /** `handleSubmit`: a refused form only sets the error.  Otherwise the
     *  body is sent; on success the form clears and `success` is set, on
     *  failure the form stays and the error carries the server's message.
     *  Loading is over afterwards either way. */
    method HandleSubmit(outcome: Outcome) returns (sent: Option<CreateUserDto.CreateUserDto>)
      modifies this
      ensures FormCheck(old(formData)).Some? ==>
        sent.None? && error == FormCheck(old(formData))
        && formData == old(formData) && loading == old(loading) && success == old(success)
      ensures FormCheck(old(formData)).None? ==>
        sent == Some(Payload(old(formData))) && !loading
        && (outcome.Succeeded? ==> formData == EmptyForm && success && error.None?)
        && (outcome.Failed? ==> formData == old(formData) && !success && error == Some(RequestFailed(outcome.message)))
    {
      var check := FormCheck(formData);
      if check.Some? {
        error := check;
        return None;
      }
      loading := true;
      error := None;
      success := false;
      sent := Some(Payload(formData));
      if outcome.Succeeded? {
        formData := EmptyForm;
        success := true;
      } else {
        error := Some(RequestFailed(outcome.message));
      }
      loading := false;
    }
  }
}

=== FILE: adjust_coin_dto.dfy ===
/**
 * `AdjustCoinDto`, the body of an admin's coin adjustment, and the check
 * the validation pipe applies to it.
 */
module AdjustCoinDto {

  /** `amount` is signed: positive adds coins, negative removes them. */
  datatype AdjustCoinDto = AdjustCoinDto(amount: int, note: string)

  /** The pipe accepts any numeric amount and a note of at least three
   *  characters; the sign of the amount plays no part. */
  function Validate(d: AdjustCoinDto): (ok: bool)
    ensures ok ==> d.note != "" && |d.note| >= 3
  {
    |d.note| >= 3
  }

  /** The sign and size of the amount never decide the outcome. */
  lemma AmountUnconstrained(a: int, b: int, note: string)
    ensures Validate(AdjustCoinDto(a, note)) == Validate(AdjustCoinDto(b, note))
  {
  }

  /** Zero and negative amounts pass validation. */
  lemma ZeroAndNegativeAccepted(note: string)
    requires |note| >= 3
    ensures Validate(AdjustCoinDto(0, note)) && Validate(AdjustCoinDto(-1, note))
  {
  }

  /** A note of one or two characters is refused whatever the amount. */
  lemma ShortNoteRefused(a: int, note: string)
    requires |note| < 3
    ensures !Validate(AdjustCoinDto(a, note))
  {
  }
}

=== FILE: admin_guard.dfy ===
/**
 * `AdminGuard.canActivate`: the request's user must be present and carry
 * the role `'admin'`; otherwise the guard throws Forbidden.  It never
 * answers `false`.
 */
module AdminGuard {
  import opened Common
  import opened UserEntity
  import Jwt
  import US = UserService
  import opened JwtStrategy

  function CanActivate(user: Option<RequestUser>): (r: Result<bool>)
    ensures r.Ok? <==> user.Some? && user.value.role == RoleName(Admin)
    ensures r.Ok? ==> r.value
    ensures r.Err? ==> r.error == Forbidden
  {
    if user.None? || user.value.role != RoleName(Admin) then Err(Forbidden) else Ok(true)
  }

  /** An admin demoted after logging in keeps passing the guard until the
   *  access token issued before the demotion expires. */
  lemma DemotedAdminStillPasses(service: US.UserService, p: Jwt.Payload, issuedAt: int, lifetime: nat, now: int)
    requires p.role == RoleName(Admin) && p.sub in service.users && service.users[p.sub].role == Regular
    requires now < issuedAt + lifetime
    ensures var who := Authenticate(service, Some(Jwt.Signed(p, issuedAt, lifetime)), now);
            who.Ok? && CanActivate(Some(who.value)) == Ok(true)
  {
    RoleComesFromToken(service, p, issuedAt, lifetime, now);
  }

  /** Conversely a user promoted after logging in is refused until a new
   *  token is issued. */
  lemma PromotedUserStillRefused(service: US.UserService, p: Jwt.Payload, issuedAt: int, lifetime: nat, now: int)
    requires p.role == RoleName(Regular) && p.sub in service.users && service.users[p.sub].role == Admin
    requires now < issuedAt + lifetime
    ensures var who := Authenticate(service, Some(Jwt.Signed(p, issuedAt, lifetime)), now);
            who.Ok? && CanActivate(Some(who.value)) == Err(Forbidden)
  {
    RoleComesFromToken(service, p, issuedAt, lifetime, now);
  }
}

=== FILE: api_service.dfy ===
/**
 * The mobile client's `ApiService`: the request-payload cleaning it does
 * before calling the server, the rewrite of `localhost` URLs to the API
 * host, and the choice of login identifier.  A JSON object is a map from
 * key to value; the network calls themselves are outside the model.
 */
module ApiService {
  import opened Common

  /** The JavaScript values a payload field can hold.  `DateObj` is a `Date`,
   *  given by the day part of its `toISOString()`. */
  datatype JsValue = Undefined | Null | Str(s: string) | Num(n: int) | Bool(b: bool) | DateObj(isoDay: string) | Obj

  /** The payload keys the client handles by name; `Other` is any key it
   *  passes through without looking at it. */
  datatype Key =
    | Id | PhoneNumber | CoinBalance | CreatedAt | UpdatedAt | RefreshToken | AuthProvider | Role
    | FullName | Email | Gender | Address | Avatar | DateOfBirth
    | Password | OldPassword | NewPassword | ConfirmNewPassword
    | Other(name: string)

  /** The JavaScript property name a key stands for. */
  function KeyName(k: Key): string
  {
    match k
    case Id => "id"
    case PhoneNumber => "phoneNumber"
    case CoinBalance => "coinBalance"
    case CreatedAt => "createdAt"
    case UpdatedAt => "updatedAt"
    case RefreshToken => "refreshToken"
    case AuthProvider => "authProvider"
    case Role => "role"
    case FullName => "fullName"
    case Email => "email"
    case Gender => "gender"
    case Address => "address"
    case Avatar => "avatar"
    case DateOfBirth => "dateOfBirth"
    case Password => "password"
    case OldPassword => "oldPassword"
    case NewPassword => "newPassword"
    case ConfirmNewPassword => "confirmNewPassword"
    case Other(name) => name
  }

  /** A key is canonical when an `Other` never spells a name the client
   *  handles: then each property of a JavaScript object has one key. */
  ghost predicate Canonical(k: Key)
  {
    k.Other? ==> forall n: Key :: !n.Other? ==> KeyName(n) != k.name
  }

  /** Canonical keys are one-to-one with property names. */
  lemma CanonicalKeysAreNames(a: Key, b: Key)
    requires Canonical(a) && Canonical(b) && KeyName(a) == KeyName(b)
    ensures a == b
  {
  }

  /** A JSON object. */
  type Dict = map<Key, JsValue>

  /** JavaScript truthiness. */
  predicate JsTruthy(v: JsValue)
  {
    match v
    case Undefined => false
    case Null => false
    case Str(s) => s != ""
    case Num(n) => n != 0
    case Bool(b) => b
    case _ => true
  }

  /** `API_BASE_URL`, which is `protocol + '//' + hostname` once split. */
  const ApiBaseUrl := "http://192.168.69.106:3000"
  const LocalBaseUrl := "http://localhost:3000"

  predicate StartsWith(s: string, p: string)
  {
    |p| <= |s| && s[..|p|] == p
  }

  /** `s.includes(p)`. */
  predicate Contains(s: string, p: string)
    decreases |s|
  {
    StartsWith(s, p) || (s != [] && Contains(s[1..], p))
  }

  /** `API_BASE_URL.split('//')[1]`: the server's host and port. */
  const ServerHost := "192.168.69.106:3000"

  /** `isValidUrl`: empty is invalid; a URL naming the server is valid; any
   *  other URL mentioning `localhost` is invalid; a Google-hosted image is
   *  valid; anything else is valid when `new URL` parses it with the
   *  protocol `http:` or `https:`, which `parsesAsHttp` stands for. */
  function IsValidUrl(url: string, parsesAsHttp: bool): (b: bool)
    ensures url == "" ==> !b
    ensures url != "" && Contains(url, ServerHost) ==> b
    ensures !Contains(url, ServerHost) && Contains(url, "localhost") ==> !b
    ensures b ==> Contains(url, ServerHost) || Contains(url, "googleusercontent.com") || parsesAsHttp
  {
    if url == "" then false
    else if Contains(url, ServerHost) then true
    else if Contains(url, "localhost") then false
    else if Contains(url, "googleusercontent.com") then true
    else parsesAsHttp
  }

  /** `s.replace(/http:\/\/localhost:3000/g, ApiBaseUrl)`: a left-to-right
   *  scan replacing each non-overlapping occurrence. */
  function ReplaceLocalBase(s: string): (r: string)
    ensures |r| >= |s|
    decreases |s|
  {
    if StartsWith(s, LocalBaseUrl) then ApiBaseUrl + ReplaceLocalBase(s[|LocalBaseUrl|..])
    else if s == [] then []
    else [s[0]] + ReplaceLocalBase(s[1..])
  }

  /** A string in which the local base never occurs is left as it is. */
  lemma {:induction false} ReplaceWithoutOccurrence(s: string)
    requires !Contains(s, LocalBaseUrl)
    ensures ReplaceLocalBase(s) == s
    decreases |s|
  {
    if s != [] {
      ReplaceWithoutOccurrence(s[1..]);
      assert [s[0]] + s[1..] == s;
    }
  }

  /** A string that starts with `p` contains everything `p` contains. */
  lemma {:induction false} ContainsInside(s: string, p: string, q: string, j: nat)
    requires StartsWith(s, p) && j + |q| <= |p| && p[j..j + |q|] == q
    ensures Contains(s, q)
    decreases j
  {
    if j == 0 {
      assert s[..|q|] == p[..|q|];
    } else {
      assert p[1..][j - 1..j - 1 + |q|] == p[j..j + |q|];
      ContainsInside(s[1..], p[1..], q, j - 1);
    }
  }

  /** Every occurrence of the local base contains `localhost`. */
  lemma {:induction false} LocalBaseNeedsLocalhost(s: string)
    requires Contains(s, LocalBaseUrl)
    ensures Contains(s, "localhost")
    decreases |s|
  {
    if StartsWith(s, LocalBaseUrl) {
      assert LocalBaseUrl[7..16] == "localhost";
      ContainsInside(s, LocalBaseUrl, "localhost", 7);
    } else {
      LocalBaseNeedsLocalhost(s[1..]);
    }
  }

  lemma ReplaceFacts(url: string)
    ensures !Contains(url, LocalBaseUrl) ==> ReplaceLocalBase(url) == url
    ensures Contains(url, LocalBaseUrl) ==> Contains(url, "localhost")
  {
    if Contains(url, LocalBaseUrl) {
      LocalBaseNeedsLocalhost(url);
    } else {
      ReplaceWithoutOccurrence(url);
    }
  }

  /** `convertLocalhostUrl`: an empty URL and a URL without `localhost`
   *  come back unchanged; otherwise every local base is replaced. */
  function ConvertLocalhostUrl(url: string): string
  {
    ReplaceFacts(url);
    if url == "" then url
    else if Contains(url, "localhost") then ReplaceLocalBase(url)
    else url
  }

  /** `convertLocalhostUrl` rewrites exactly the occurrences of the local
   *  base: its `localhost` test only skips strings without one, and a URL
   *  without one is returned as it is. */
  lemma ConvertReplacesLocalBase(url: string)
    ensures ConvertLocalhostUrl(url) == ReplaceLocalBase(url)
    ensures !Contains(url, LocalBaseUrl) ==> ConvertLocalhostUrl(url) == url
    ensures |ConvertLocalhostUrl(url)| >= |url|
  {
    ReplaceFacts(url);
  }

  /** A URL that starts with the local base has that prefix rewritten to
   *  the API host. */
  lemma ConvertLocalPrefix(rest: string)
    ensures ConvertLocalhostUrl(LocalBaseUrl + rest) == ApiBaseUrl + ReplaceLocalBase(rest)
  {
    var url := LocalBaseUrl + rest;
    assert StartsWith(url, LocalBaseUrl);
    ConvertReplacesLocalBase(url);
    assert url[|LocalBaseUrl|..] == rest;
  }

  /** What `validateData` keeps: neither `undefined`, `null` nor a string
   *  that trims to nothing. */
  predicate Kept(v: JsValue)
  {
    !v.Undefined? && !v.Null? && !(v.Str? && IsBlank(v.s))
  }

  /** What `validateData` makes of an object: the entries whose key is
   *  allowed (every key when `allowedFields` is empty) and whose value is
   *  kept. */
  function Validated(data: Dict, allowedFields: seq<Key>): Dict
  {
    map k | k in data && (allowedFields == [] || k in allowedFields) && Kept(data[k]) :: data[k]
  }

  /** `validateData(data, allowedFields)`: a copy of `data` restricted to
   *  `allowedFields` when that list is non-empty, without empty values.
   *  `data` is `None` when it is falsy or not an object. */
  method ValidateData(data: Option<Dict>, allowedFields: seq<Key>) returns (clean: Dict)
    ensures data.None? ==> clean == map[]
    ensures data.Some? ==> clean == Validated(data.value, allowedFields)
    ensures data.Some? ==> clean.Keys <= data.value.Keys
    ensures data.Some? ==> forall k :: k in clean ==> clean[k] == data.value[k] && Kept(clean[k])
    ensures allowedFields != [] ==> forall k :: k in clean ==> k in allowedFields
    ensures data.Some? ==> forall k :: k in data.value && (allowedFields == [] || k in allowedFields) && Kept(data.value[k]) ==> k in clean
  {
    if data.None? {
      return map[];
    }
    var restricted := data.value;
    if |allowedFields| > 0 {
      restricted := KeepAllowed(data.value, allowedFields);
    }
    clean := DropEmpty(restricted);
  }

  /** The first pass of `validateData`: deletes every key not allowed. */
  method KeepAllowed(data: Dict, allowedFields: seq<Key>) returns (clean: Dict)
    ensures clean.Keys <= data.Keys
    ensures forall k :: k in clean ==> clean[k] == data[k] && k in allowedFields
    ensures forall k :: k in data && k in allowedFields ==> k in clean
  {
    clean := data;
    var todo := clean.Keys;
    while todo != {}
      invariant todo <= clean.Keys <= data.Keys
      invariant forall k :: k in clean ==> clean[k] == data[k]
      invariant forall k :: k in data && (k in todo || k in allowedFields) ==> k in clean
      invariant forall k :: k in clean && k !in todo ==> k in allowedFields
      decreases todo
    {
      var k :| k in todo;
      if k !in allowedFields {
        clean := clean - {k};
      }
      todo := todo - {k};
    }
  }

  /** The second pass of `validateData`: deletes `undefined`, `null` and
   *  blank strings. */
  method DropEmpty(data: Dict) returns (clean: Dict)
    ensures clean.Keys <= data.Keys
    ensures forall k :: k in clean ==> clean[k] == data[k] && Kept(clean[k])
    ensures forall k :: k in data && Kept(data[k]) ==> k in clean
  {
    clean := data;
    var todo := clean.Keys;
    while todo != {}
      invariant todo <= clean.Keys <= data.Keys
      invariant forall k :: k in clean ==> clean[k] == data[k]
      invariant forall k :: k in data && (k in todo || Kept(data[k])) ==> k in clean
      invariant forall k :: k in clean && k !in todo ==> Kept(clean[k])
      decreases todo
    {
      var k :| k in todo;
      if !Kept(clean[k]) {
        clean := clean - {k};
      }
      todo := todo - {k};
    }
  }

  /** `validateData` is idempotent: cleaning a cleaned payload again
   *  changes nothing. */
  lemma ValidateDataIdempotent(data: Dict, allowedFields: seq<Key>)
    ensures Validated(Validated(data, allowedFields), allowedFields) == Validated(data, allowedFields)
  {
    var once := Validated(data, allowedFields);
    assert forall k :: k in Validated(once, allowedFields) <==> k in once;
  }

  function Lookup(m: Dict, k: Key): (r: Option<JsValue>)
    ensures r.Some? <==> k in m
    ensures r.Some? ==> r.value == m[k]
  {
    if k in m then Some(m[k]) else None
  }

  /** The keys `updateUserProfile` always strips: server-managed columns. */
  const StrippedFields := [Id, PhoneNumber, CoinBalance, CreatedAt, UpdatedAt, RefreshToken, AuthProvider, Role]

  /** The keys whose value must be a string when truthy. */
  const StringFields := [FullName, Email, Gender, Address]

  /** `/^\d{4}-\d{2}-\d{2}/`: a leading calendar date. */
  predicate HasDatePrefix(s: string)
  {
    |s| >= 10 && IsDigit(s[0]) && IsDigit(s[1]) && IsDigit(s[2]) && IsDigit(s[3]) && s[4] == '-'
    && IsDigit(s[5]) && IsDigit(s[6]) && s[7] == '-' && IsDigit(s[8]) && IsDigit(s[9])
  }

  /** What becomes of a `dateOfBirth` field: a `Date` is sent as its day,
   *  a string as its leading date, `null` as it is; anything else is
   *  dropped. */
  function CleanDate(v: JsValue): (r: Option<JsValue>)
    ensures r.Some? ==> r.value.Null? || (r.value.Str? && |r.value.s| == 10 && HasDatePrefix(r.value.s)) || v.DateObj?
    ensures v.Null? ==> r == Some(Null)
    ensures v.Str? && HasDatePrefix(v.s) ==> r == Some(Str(v.s[..10]))
    ensures v.Str? && !HasDatePrefix(v.s) ==> r.None?
  {
    match v
    case DateObj(day) => Some(Str(day))
    case Str(d) => if HasDatePrefix(d) then Some(Str(d[..10])) else None
    case Null => Some(Null)
    case _ => None
  }

  /** Whether the password pair is dropped: both truthy, one not a string. */
  predicate BadPasswordPair(d: Dict)
  {
    OldPassword in d && NewPassword in d && JsTruthy(d[OldPassword]) && JsTruthy(d[NewPassword])
    && !(d[OldPassword].Str? && d[NewPassword].Str?)
  }

  /** Deletes each of `fields` from `d`. */
  method DeleteAll(d: Dict, fields: seq<Key>) returns (clean: Dict)
    ensures forall k :: Lookup(clean, k) == if k in fields then None else Lookup(d, k)
  {
    clean := d;
    for i := 0 to |fields|
      invariant forall k :: k in clean <==> k in d && k !in fields[..i]
      invariant forall k :: k in clean ==> clean[k] == d[k]
    {
      assert fields[..i + 1] == fields[..i] + [fields[i]];
      if fields[i] in clean {
        clean := clean - {fields[i]};
      }
    }
    assert fields[..|fields|] == fields;
    forall k ensures Lookup(clean, k) == if k in fields then None else Lookup(d, k) {
    }
  }

  /** Deletes each of `fields` whose value is truthy but not a string. */
  method DropNonStrings(d: Dict, fields: seq<Key>) returns (clean: Dict)
    ensures forall k :: Lookup(clean, k) == if k in fields && k in d && JsTruthy(d[k]) && !d[k].Str? then None else Lookup(d, k)
  {
    clean := d;
    for i := 0 to |fields|
      invariant clean.Keys <= d.Keys
      invariant forall k :: k in clean ==> clean[k] == d[k]
      invariant forall k :: k in d && k !in fields[..i] ==> k in clean
      invariant forall f :: f in fields[..i] && f in d ==> (f in clean <==> !(JsTruthy(d[f]) && !d[f].Str?))
    {
      assert fields[..i + 1] == fields[..i] + [fields[i]];
      var f := fields[i];
      if f in clean && JsTruthy(clean[f]) && !clean[f].Str? {
        clean := clean - {f};
      }
    }
    assert fields[..|fields|] == fields;
    forall k ensures Lookup(clean, k) == if k in fields && k in d && JsTruthy(d[k]) && !d[k].Str? then None else Lookup(d, k) {
    }
  }

  /** The `dateOfBirth` pass: a `Date` becomes its day, a string its
   *  leading date, `null` stays, anything else goes. */
  ghost predicate DateStep(d: Dict, out: Dict)
  {
    (forall k :: k != DateOfBirth ==> Lookup(out, k) == Lookup(d, k))
    && Lookup(out, DateOfBirth) == (if DateOfBirth in d then CleanDate(d[DateOfBirth]) else None)
  }

  /** The pass deleting the server-managed columns. */
  ghost predicate StripStep(d: Dict, out: Dict)
  {
    forall k :: Lookup(out, k) == if k in StrippedFields then None else Lookup(d, k)
  }

  /** A non-empty string avatar has its local base rewritten. */
  predicate RewritesAvatar(d: Dict)
  {
    Avatar in d && d[Avatar].Str? && d[Avatar].s != ""
  }

  ghost predicate AvatarStep(d: Dict, out: Dict)
  {
    (forall k :: k != Avatar ==> Lookup(out, k) == Lookup(d, k))
    && Lookup(out, Avatar) == (if RewritesAvatar(d) then Some(Str(ConvertLocalhostUrl(d[Avatar].s))) else Lookup(d, Avatar))
  }

  /** The pass deleting a truthy non-string name, e-mail, gender or address. */
  ghost predicate TypeStep(d: Dict, out: Dict)
  {
    forall k :: Lookup(out, k) == if k in StringFields && k in d && JsTruthy(d[k]) && !d[k].Str? then None else Lookup(d, k)
  }

  /** The password pass: the pair goes when both are truthy and one is not
   *  a string; the confirmation always goes. */
  ghost predicate PasswordStep(d: Dict, out: Dict)
  {
    (forall k :: k != OldPassword && k != NewPassword && k != ConfirmNewPassword ==> Lookup(out, k) == Lookup(d, k))
    && ConfirmNewPassword !in out
    && Lookup(out, OldPassword) == (if BadPasswordPair(d) then None else Lookup(d, OldPassword))
    && Lookup(out, NewPassword) == (if BadPasswordPair(d) then None else Lookup(d, NewPassword))
  }

  method CleanDateField(d: Dict) returns (out: Dict)
    ensures DateStep(d, out)
  {
    out := d;
    if DateOfBirth in out {
      var v := CleanDate(out[DateOfBirth]);
      if v.Some? {
        out := out[DateOfBirth := v.value];
      } else {
        out := out - {DateOfBirth};
      }
    }
  }

  method ConvertAvatar(d: Dict) returns (out: Dict)
    ensures AvatarStep(d, out)
  {
    out := d;
    if RewritesAvatar(out) {
      out := out[Avatar := Str(ConvertLocalhostUrl(out[Avatar].s))];
    }
  }

  method CleanPasswords(d: Dict) returns (out: Dict)
    ensures PasswordStep(d, out)
  {
    out := d;
    if BadPasswordPair(out) {
      out := out - {OldPassword, NewPassword};
    }
    if ConfirmNewPassword in out {
      out := out - {ConfirmNewPassword};
    }
  }

  /** Key by key, what `updateUserProfile` sends: stripped keys and the
   *  confirmation never, `dateOfBirth` cleaned, a non-empty string avatar
   *  rewritten, a truthy non-string name, e-mail, gender or address
   *  dropped, the password pair dropped when one of them is not a string,
   *  and every other key as given. */
  function ProfileField(u: Dict, k: Key): Option<JsValue>
  {
    if k in StrippedFields || k == ConfirmNewPassword then None
    else if k == DateOfBirth then (if k in u then CleanDate(u[k]) else None)
    else if k == Avatar && RewritesAvatar(u) then Some(Str(ConvertLocalhostUrl(u[k].s)))
    else if k in StringFields && k in u && JsTruthy(u[k]) && !u[k].Str? then None
    else if (k == OldPassword || k == NewPassword) && BadPasswordPair(u) then None
    else Lookup(u, k)
  }

  /** The payload cleaning of `updateUserProfile`, in the source's passes. */
  method ProfilePayload(userData: Dict) returns (clean: Dict)
    ensures forall k :: Lookup(clean, k) == ProfileField(userData, k)
  {
    var dated := CleanDateField(userData);
    var stripped := DeleteAll(dated, StrippedFields);
    var converted := ConvertAvatar(stripped);
    var typed := DropNonStrings(converted, StringFields);
    clean := CleanPasswords(typed);
    PhasesGiveProfile(userData, dated, stripped, converted, typed, clean);
  }

  /** The five passes, composed, send each key as `ProfileField` says. */
  lemma PhasesGiveProfile(u: Dict, dated: Dict, stripped: Dict, converted: Dict, typed: Dict, clean: Dict)
    requires DateStep(u, dated) && StripStep(dated, stripped) && AvatarStep(stripped, converted)
    requires TypeStep(converted, typed) && PasswordStep(typed, clean)
    ensures forall k :: Lookup(clean, k) == ProfileField(u, k)
  {
    PasswordsUntouchedBefore(u, dated, stripped, converted, typed);
    forall k
      ensures Lookup(clean, k) == ProfileField(u, k)
    {
      if k in StrippedFields || k == ConfirmNewPassword {
        StrippedKeyGone(dated, stripped, converted, typed, clean, k);
      } else if k == OldPassword || k == NewPassword {
      } else {
        OtherKeyFollows(u, dated, stripped, converted, typed, clean, k);
      }
    }
  }

  /** No pass before the last touches the password pair. */
  lemma PasswordsUntouchedBefore(u: Dict, dated: Dict, stripped: Dict, converted: Dict, typed: Dict)
    requires DateStep(u, dated) && StripStep(dated, stripped) && AvatarStep(stripped, converted) && TypeStep(converted, typed)
    ensures Lookup(typed, OldPassword) == Lookup(u, OldPassword) && Lookup(typed, NewPassword) == Lookup(u, NewPassword)
    ensures BadPasswordPair(typed) == BadPasswordPair(u)
  {
    assert Lookup(stripped, OldPassword) == Lookup(dated, OldPassword);
    assert Lookup(stripped, NewPassword) == Lookup(dated, NewPassword);
    assert Lookup(typed, OldPassword) == Lookup(converted, OldPassword);
    assert Lookup(typed, NewPassword) == Lookup(converted, NewPassword);
  }

  lemma StrippedKeyGone(dated: Dict, stripped: Dict, converted: Dict, typed: Dict, clean: Dict, k: Key)
    requires k in StrippedFields || k == ConfirmNewPassword
    requires StripStep(dated, stripped) && AvatarStep(stripped, converted) && TypeStep(converted, typed) && PasswordStep(typed, clean)
    ensures k !in clean
  {
    if k in StrippedFields {
      assert Lookup(stripped, k).None?;
      assert Lookup(converted, k) == Lookup(stripped, k);
      assert Lookup(typed, k) == Lookup(converted, k);
    }
  }

  lemma OtherKeyFollows(u: Dict, dated: Dict, stripped: Dict, converted: Dict, typed: Dict, clean: Dict, k: Key)
    requires k !in StrippedFields && k != ConfirmNewPassword && k != OldPassword && k != NewPassword
    requires DateStep(u, dated) && StripStep(dated, stripped) && AvatarStep(stripped, converted)
    requires TypeStep(converted, typed) && PasswordStep(typed, clean)
    ensures Lookup(clean, k) == ProfileField(u, k)
  {
    assert Lookup(clean, k) == Lookup(typed, k);
    assert Lookup(stripped, k) == Lookup(dated, k);
    if k != DateOfBirth {
      assert Lookup(dated, k) == Lookup(u, k);
      if k == Avatar {
        assert RewritesAvatar(stripped) == RewritesAvatar(u);
      } else {
        assert Lookup(converted, k) == Lookup(u, k);
      }
    }
  }

  /** What the server receives from `updateUserProfile`: never a
   *  server-managed column or the confirmation, only keys the caller gave,
   *  a date of birth that is `null` or a `YYYY-MM-DD` string, and every
   *  key the client does not handle by name unchanged. */
  lemma ProfilePayloadProperties(u: Dict)
    ensures forall f :: f in StrippedFields ==> ProfileField(u, f).None?
    ensures ProfileField(u, ConfirmNewPassword).None?
    ensures forall k :: ProfileField(u, k).Some? ==> k in u
    ensures ProfileField(u, DateOfBirth).Some? && !u[DateOfBirth].DateObj? ==>
              ProfileField(u, DateOfBirth).value.Null?
              || (ProfileField(u, DateOfBirth).value.Str? && HasDatePrefix(ProfileField(u, DateOfBirth).value.s)
                  && |ProfileField(u, DateOfBirth).value.s| == 10)
    ensures forall name :: Other(name) in u ==> ProfileField(u, Other(name)) == Some(u[Other(name)])
  {
  }

  /** The fields `updateUserSimple` copies. */
  const SimpleFields := [FullName, Email, Gender, Avatar, Address]

  /** `updateUserSimple`: copies each of the five fields that is neither
   *  `undefined` nor `null`, then rewrites a non-empty string avatar. */
  method SimplePayload(userData: Dict) returns (clean: Dict)
    ensures forall k :: k in clean <==> k in SimpleFields && k in userData && !userData[k].Undefined? && !userData[k].Null?
    ensures forall k :: k in clean && k != Avatar ==> clean[k] == userData[k]
    ensures Avatar in clean ==> clean[Avatar] == if RewritesAvatar(userData) then Str(ConvertLocalhostUrl(userData[Avatar].s)) else userData[Avatar]
  {
    var copied: Dict := map[];
    for i := 0 to |SimpleFields|
      invariant forall k :: k in copied <==> k in SimpleFields[..i] && k in userData && !userData[k].Undefined? && !userData[k].Null?
      invariant forall k :: k in copied ==> copied[k] == userData[k]
    {
      assert SimpleFields[..i + 1] == SimpleFields[..i] + [SimpleFields[i]];
      var f := SimpleFields[i];
      if f in userData && !userData[f].Undefined? && !userData[f].Null? {
        copied := copied[f := userData[f]];
      }
    }
    assert SimpleFields[..|SimpleFields|] == SimpleFields;
    clean := ConvertAvatar(copied);
    assert RewritesAvatar(copied) == RewritesAvatar(userData);
    forall k
      ensures (k in clean <==> k in copied) && (k in clean && k != Avatar ==> clean[k] == copied[k])
    {
      assert Lookup(clean, k).Some? <==> k in clean;
      if k != Avatar {
        assert Lookup(clean, k) == Lookup(copied, k);
      }
    }
  }

  /** The body of `login`: the password, and the phone number when it is
   *  truthy, else the e-mail when that is; with neither nothing is sent. */
  function LoginBody(phoneNumber: Option<string>, email: Option<string>, password: string): (r: Option<Dict>)
    ensures r.Some? <==> Truthy(phoneNumber) || Truthy(email)
    ensures r.Some? ==> Lookup(r.value, Password) == Some(Str(password))
    ensures r.Some? ==> (PhoneNumber in r.value <==> Truthy(phoneNumber)) && (Email in r.value <==> !Truthy(phoneNumber))
    ensures r.Some? && Truthy(phoneNumber) ==> r.value[PhoneNumber] == Str(phoneNumber.value)
    ensures r.Some? && !Truthy(phoneNumber) ==> r.value[Email] == Str(email.value)
    ensures r.Some? ==> |r.value| == 2
  {
    if Truthy(phoneNumber) then Some(map[Password := Str(password), PhoneNumber := Str(phoneNumber.value)])
    else if Truthy(email) then Some(map[Password := Str(password), Email := Str(email.value)])
    else None
  }

  /** `register`: a non-empty string avatar that `isValidUrl` accepts is
   *  rewritten, then every empty-string or `undefined` field is deleted.
   *  `avatarParses` is what `new URL` makes of the avatar.  Since
   *  `isValidUrl` refuses every URL that mentions `localhost` but not the
   *  server, the rewrite changes only an avatar that names the server. */
  method RegisterPayload(userData: Dict, avatarParses: bool) returns (clean: Dict)
    ensures forall k :: k in clean <==> k in userData && userData[k] != Str("") && !userData[k].Undefined?
    ensures forall k :: k in clean && k != Avatar ==> clean[k] == userData[k]
    ensures Avatar in clean ==>
      clean[Avatar] == if RewritesAvatar(userData) && IsValidUrl(userData[Avatar].s, avatarParses)
                       then Str(ConvertLocalhostUrl(userData[Avatar].s)) else userData[Avatar]
    ensures Avatar in clean && (!userData[Avatar].Str? || !Contains(userData[Avatar].s, ServerHost)) ==>
      clean[Avatar] == userData[Avatar]
  {
    var data := userData;
    if RewritesAvatar(data) && !Contains(data[Avatar].s, ServerHost) && IsValidUrl(data[Avatar].s, avatarParses) {
      if Contains(data[Avatar].s, LocalBaseUrl) {
        LocalBaseNeedsLocalhost(data[Avatar].s);
      }
      assert ConvertLocalhostUrl(data[Avatar].s) == data[Avatar].s;
    }
    if RewritesAvatar(data) && IsValidUrl(data[Avatar].s, avatarParses) {
      ConvertLocalPrefixKeepsNonEmpty(data[Avatar].s);
      data := data[Avatar := Str(ConvertLocalhostUrl(data[Avatar].s))];
    }
    clean := data;
    var todo := clean.Keys;
    while todo != {}
      invariant todo <= clean.Keys <= data.Keys
      invariant forall k :: k in clean ==> clean[k] == data[k]
      invariant forall k :: k in data && (k in todo || (data[k] != Str("") && !data[k].Undefined?)) ==> k in clean
      invariant forall k :: k in clean && k !in todo ==> clean[k] != Str("") && !clean[k].Undefined?
      decreases todo
    {
      var k :| k in todo;
      if clean[k] == Str("") || clean[k].Undefined? {
        clean := clean - {k};
      }
      todo := todo - {k};
    }
  }

  /** Rewriting never empties a URL. */
  lemma ConvertLocalPrefixKeepsNonEmpty(url: string)
    requires url != ""
    ensures ConvertLocalhostUrl(url) != ""
  {
    ConvertReplacesLocalBase(url);
  }
}

=== FILE: auth_context.dfy ===
/**
 * `AuthContext`: the dashboard's session, kept in `localStorage` under
 * `accessToken`, `refreshToken` and `user`.  Mounting restores a session
 * when a token and a user are stored; logging in stores all three,
 * logging out removes all three whether or not the server answers.  The
 * user is kept as its JSON text (`JSON.stringify` and `JSON.parse` are
 * taken to undo each other).
 */
module AuthContext {
  import opened Common
  import LoginDto

  datatype StorageKey = AccessToken | RefreshToken | UserKey | Other(name: string)

  type Storage = map<StorageKey, string>

  /** The keys the session owns. */
  const SessionKeys := {AccessToken, RefreshToken, UserKey}

  /** How `/auth/login` answers: the tokens and the user, or a refusal
   *  with the server's `message` when the response carries one. */
  datatype LoginAnswer = Granted(accessToken: string, refreshToken: string, user: string)
                       | Refused(message: Option<string>)

  /** What the context shows as its error. */
  datatype LoginError = ServerMessage(text: string) | DefaultMessage

  /** The server's message when it sent a non-empty one, else the page's
   *  default text. */
  function ErrorText(message: Option<string>): (e: LoginError)
    ensures e.ServerMessage? <==> Truthy(message)
  {
    if Truthy(message) then ServerMessage(message.value) else DefaultMessage
  }

  function Get(s: Storage, k: StorageKey): Option<string>
  {
    if k in s then Some(s[k]) else None
  }

  /** The session mounting restores: the stored user, when both a token
   *  and a user are stored and neither is empty. */
  function Restored(s: Storage): (u: Option<string>)
    ensures u.Some? <==> Truthy(Get(s, AccessToken)) && Truthy(Get(s, UserKey))
    ensures u.Some? ==> u.value == s[UserKey]
  {
    if Truthy(Get(s, AccessToken)) && Truthy(Get(s, UserKey)) then Some(s[UserKey]) else None
  }

  /** The body `login` posts: the password, and each identifier only when
   *  it is truthy. */
  function LoginPayload(email: Option<string>, phoneNumber: Option<string>, password: string): (d: LoginDto.LoginDto)
    ensures d.password == password
    ensures d.email.Some? <==> Truthy(email)
    ensures d.phoneNumber.Some? <==> Truthy(phoneNumber)
    ensures d.email.Some? ==> d.email == email
    ensures d.phoneNumber.Some? ==> d.phoneNumber == phoneNumber
  {
    LoginDto.LoginDto(if Truthy(email) then email else None,
                      if Truthy(phoneNumber) then phoneNumber else None, password)
  }

  /** The payload never carries an empty identifier; with neither
   *  identifier, or an empty password, the server's validation refuses it. */
  lemma LoginPayloadChecked(email: Option<string>, phoneNumber: Option<string>, password: string,
                            isEmail: string -> bool)
    ensures var d := LoginPayload(email, phoneNumber, password);
            (d.email.Some? ==> d.email.value != "") && (d.phoneNumber.Some? ==> d.phoneNumber.value != "")
            && ((!Truthy(email) && !Truthy(phoneNumber)) || password == "" ==> !LoginDto.Validate(d, isEmail))
  {
  }

  class AuthProvider {
    var storage: Storage
    var isAuthenticated: bool
    var user: Option<string>
    var loading: bool
    var error: Option<LoginError>

    /** A user is held exactly while authenticated. */
    predicate Valid()
      reads this
    {
      user.Some? <==> isAuthenticated
    }

    /** Mounting, with the mount effect run: the session is whatever the
     *  storage restores, and loading is over. */
    constructor (stored: Storage)
      ensures Valid()
      ensures storage == stored && user == Restored(stored)
      ensures isAuthenticated <==> Truthy(Get(stored, AccessToken)) && Truthy(Get(stored, UserKey))
      ensures !loading && error.None?
    {
      storage := stored;
      isAuthenticated := false;
      user := None;
      loading := true;
      error := None;
      if Truthy(Get(stored, AccessToken)) && Truthy(Get(stored, UserKey)) {
        isAuthenticated := true;
        user := Some(stored[UserKey]);
      }
      loading := false;
    }

    /** `login`: a granted answer stores the three keys and authenticates
     *  with its user; a refusal sets the error and is rethrown
     *  (`rethrown`), leaving the session and the storage as they were. */
    method Login(email: Option<string>, phoneNumber: Option<string>, password: string, answer: LoginAnswer)
      returns (sent: LoginDto.LoginDto, rethrown: bool)
      requires Valid()
      modifies this
      ensures Valid() && !loading
      ensures sent == LoginPayload(email, phoneNumber, password)
      ensures rethrown <==> answer.Refused?
      ensures answer.Granted? ==>
        storage == old(storage)[AccessToken := answer.accessToken][RefreshToken := answer.refreshToken][UserKey := answer.user]
        && isAuthenticated && user == Some(answer.user) && error.None?
      ensures answer.Refused? ==>
        storage == old(storage) && isAuthenticated == old(isAuthenticated) && user == old(user)
        && error == Some(ErrorText(answer.message))
    {
      loading := true;
      error := None;
      sent := LoginPayload(email, phoneNumber, password);
      match answer {
        case Granted(access, refresh, u) =>
          storage := storage[AccessToken := access][RefreshToken := refresh][UserKey := u];
          isAuthenticated := true;
          user := Some(u);
          rethrown := false;
        case Refused(message) =>
          error := Some(ErrorText(message));
          rethrown := true;
      }
      loading := false;
    }

    /** `logout`: whatever the server answers, the three keys go, the
     *  session ends and loading is over; other keys stay. */
    method Logout(apiOk: bool)
      modifies this
      ensures Valid() && !isAuthenticated && user.None? && !loading
      ensures storage == old(storage) - SessionKeys
      ensures error == old(error)
    {
      loading := true;
      storage := storage - SessionKeys;
      isAuthenticated := false;
      user := None;
      loading := false;
    }
  }

  /** A granted login survives a reload: mounting again on the storage it
   *  left restores the same user. */
  lemma LoginSurvivesReload(s: Storage, access: string, refresh: string, u: string)
    requires access != "" && u != ""
    ensures Restored(s[AccessToken := access][RefreshToken := refresh][UserKey := u]) == Some(u)
  {
    var t := s[AccessToken := access][RefreshToken := refresh][UserKey := u];
    assert Get(t, AccessToken) == Some(access);
    assert Get(t, UserKey) == Some(u);
  }

  /** A logout survives a reload: nothing is restored from what it left. */
  lemma LogoutSurvivesReload(s: Storage)
    ensures Restored(s - SessionKeys) == None
  {
    assert AccessToken !in s - SessionKeys;
  }
}

=== FILE: auth_service.dfy ===
/**
 * `AuthService`: sign-up, credential check, login, access-token refresh and
 * logout over the user table.  Tokens are the uninterpreted JWTs of module
 * `Jwt`; the refresh token issued at login is stored in the user's row and
 * cleared at logout.
 */
module AuthService {
  import opened Common
  import opened UserEntity
  import opened CreateUserDto
  import opened LoginDto
  import Jwt
  import US = UserService

  /** The `user` object of the login and sign-up answers. */
  datatype Summary = Summary(id: nat, email: Option<string>, phoneNumber: Option<string>, fullName: Option<string>,
                             role: UserRole, avatar: Option<string>)

  datatype Session = Session(accessToken: Jwt.Token, refreshToken: Jwt.Token, user: Summary)

  /** The claims put in both tokens. */
  function PayloadOf(u: User): (p: Jwt.Payload)
    ensures p.sub == u.id && p.email == u.email && p.phoneNumber == u.phoneNumber
    ensures p.role == "admin" <==> u.role == Admin
  {
    Jwt.Payload(u.email, u.phoneNumber, u.id, RoleName(u.role))
  }

  function SummaryOf(u: User): (s: Summary)
    ensures s.id == u.id && s.role == u.role && s.email == u.email && s.phoneNumber == u.phoneNumber
  {
    Summary(u.id, u.email, u.phoneNumber, u.fullName, u.role, u.avatar)
  }

  /** A row whose identifier and password the login body matches. */
  ghost predicate Matches(u: User, d: LoginDto)
  {
    (if Truthy(d.email) then u.email == d.email else u.phoneNumber == d.phoneNumber)
    && u.password == Some(Bcrypt(d.password))
  }

  class AuthService {
    const users: US.UserService
    /** The access tokens' lifetime, from the JWT module configuration. */
    const accessLifetime: nat

    constructor (users: US.UserService, accessLifetime: nat)
      ensures this.users == users && this.accessLifetime == accessLifetime
    {
      this.users := users;
      this.accessLifetime := accessLifetime;
    }

    /** Issues both tokens for `u` at `now` and stores the refresh token. */
    method IssueTokens(u: User, now: int) returns (r: Result<Session>)
      requires users.Valid()
      modifies users
      ensures users.Valid() && users.transactions == old(users.transactions)
      ensures u.id !in old(users.users) ==> r == Err(NotFound) && users.users == old(users.users)
      ensures u.id in old(users.users) ==>
        r.Ok? && r.value.accessToken == Jwt.Sign(PayloadOf(u), now, accessLifetime)
        && r.value.refreshToken == Jwt.Sign(PayloadOf(u), now, Jwt.RefreshLifetime)
        && r.value.user == SummaryOf(u)
        && users.users == old(users.users)[u.id := old(users.users)[u.id].(refreshToken := Some(r.value.refreshToken))]
    {
      var p := PayloadOf(u);
      var access := Jwt.Sign(p, now, accessLifetime);
      var refresh := Jwt.Sign(p, now, Jwt.RefreshLifetime);
      var stored := users.SetRefreshToken(u.id, Some(refresh));
      if stored.Err? {
        return Err(stored.error);
      }
      r := Ok(Session(access, refresh, SummaryOf(u)));
    }

    /** `signup`: `create`, then tokens for the new user, whose row keeps
     *  the refresh token. */
    method Signup(dto: CreateUserDto, now: int) returns (r: Result<Session>)
      requires users.Valid()
      modifies users
      ensures users.Valid() && users.transactions == old(users.transactions)
      ensures old(users.CreateOutcome(dto)).Err? ==> r == Err(old(users.CreateOutcome(dto)).error) && users.users == old(users.users)
      ensures old(users.CreateOutcome(dto)).Ok? ==>
        r.Ok? && r.value.user == SummaryOf(old(users.CreateOutcome(dto)).value)
        && r.value.user.id in users.users && r.value.user.id !in old(users.users)
        && users.users[r.value.user.id].refreshToken == Some(r.value.refreshToken)
        && r.value.user.role == Regular
        && r.value.accessToken.Signed? && r.value.refreshToken.Signed?
        && r.value.refreshToken.payload == r.value.accessToken.payload
        && r.value.accessToken.payload.role == "user"
        && r.value.refreshToken.payload.sub == r.value.user.id
        && r.value.refreshToken.issuedAt == now && r.value.refreshToken.lifetime == Jwt.RefreshLifetime
    {
      var created := users.Create(dto);
      if created.Err? {
        return Err(created.error);
      }
      r := IssueTokens(created.value, now);
    }

    /** `validateUser`: looks the account up by a truthy e-mail, else by a
     *  truthy phone number, and compares the password.  Every failure,
     *  including an account without a password (bcrypt throws), is the same
     *  Unauthorized. */
    function ValidateUser(dto: LoginDto): (r: Result<User>)
      reads users
      requires users.Valid()
      ensures r.Err? ==> r.error == Unauthorized
      ensures r.Ok? ==> r.value.id in users.users && users.users[r.value.id] == r.value && Matches(r.value, dto)
      ensures (Truthy(dto.email) || Truthy(dto.phoneNumber)) ==>
                (r.Ok? <==> exists k :: k in users.users && Matches(users.users[k], dto))
      ensures !Truthy(dto.email) && !Truthy(dto.phoneNumber) ==> r.Err?
    {
      var found := if Truthy(dto.email) then users.FindByEmail(dto.email.value)
                   else if Truthy(dto.phoneNumber) then users.FindByPhoneNumber(dto.phoneNumber.value)
                   else Err(Unauthorized);
      if found.Err? then Err(Unauthorized)
      else if found.value.password.None? then Err(Unauthorized)
      else if !BcryptMatches(dto.password, found.value.password.value) then Err(Unauthorized)
      else Ok(found.value)
    }

    /** `login`: tokens for a validated user. */
    method Login(u: User, now: int) returns (r: Result<Session>)
      requires users.Valid() && u.id in users.users
      modifies users
      ensures users.Valid() && users.transactions == old(users.transactions)
      ensures r.Ok? && u.id in users.users && users.users[u.id].refreshToken == Some(r.value.refreshToken)
      ensures r.value.accessToken.Signed? && r.value.refreshToken.Signed?
      ensures r.value.accessToken.payload == PayloadOf(u) && r.value.refreshToken.payload == PayloadOf(u)
      ensures r.value.refreshToken.lifetime == Jwt.RefreshLifetime && r.value.accessToken.lifetime == accessLifetime
      ensures r.value.accessToken.issuedAt == now && r.value.refreshToken.issuedAt == now
      ensures r.value.user == SummaryOf(u)
      ensures users.users == old(users.users)[u.id := old(users.users)[u.id].(refreshToken := Some(r.value.refreshToken))]
    {
      r := IssueTokens(u, now);
    }

    /** `refreshToken`: a new access token with the refresh token's claims,
     *  whenever the refresh token verifies.  The stored copy is not read. */
    function RefreshToken(t: Jwt.Token, now: int): (r: Result<Jwt.Token>)
      ensures r.Ok? <==> Jwt.Verify(t, now).Ok?
      ensures r.Ok? ==> r.value.Signed? && r.value.payload == t.payload && r.value.issuedAt == now && r.value.lifetime == accessLifetime
      ensures r.Err? ==> r.error == Unauthorized
    {
      match Jwt.Verify(t, now)
      case Err(_) => Err(Unauthorized)
      case Ok(p) => Ok(Jwt.Sign(Jwt.Payload(p.email, p.phoneNumber, p.sub, p.role), now, accessLifetime))
    }

    /** The refresh as evidently intended: the token must also be the one
     *  stored for its user, so that logging out revokes it. */
    function RefreshTokenChecked(t: Jwt.Token, now: int): (r: Result<Jwt.Token>)
      reads users
      ensures r.Ok? <==> Jwt.Verify(t, now).Ok? && t.payload.sub in users.users && users.users[t.payload.sub].refreshToken == Some(t)
      ensures r.Ok? ==> r == RefreshToken(t, now)
      ensures r.Err? ==> r.error == Unauthorized
    {
      match Jwt.Verify(t, now)
      case Err(_) => Err(Unauthorized)
      case Ok(p) =>
        if p.sub in users.users && users.users[p.sub].refreshToken == Some(t) then RefreshToken(t, now)
        else Err(Unauthorized)
    }

    /** `logout`: `setRefreshToken(userId, undefined)`, which leaves the
     *  stored refresh token in place. */
    method Logout(userId: nat) returns (r: Result<()>)
      requires users.Valid()
      modifies users
      ensures users.Valid() && users.transactions == old(users.transactions)
      ensures users.users == old(users.users)
      ensures userId !in old(users.users) ==> r == Err(NotFound)
      ensures userId in old(users.users) ==> r == Ok(())
    {
      r := users.SetRefreshToken(userId, None);
    }

    /** Logging out as evidently intended: the stored token is cleared, so
     *  with the intended refresh no token of that user is honoured any
     *  more. */
    method RevokingLogout(userId: nat) returns (r: Result<()>)
      requires users.Valid()
      modifies users
      ensures users.Valid() && users.transactions == old(users.transactions)
      ensures userId !in old(users.users) ==> r == Err(NotFound) && users.users == old(users.users)
      ensures userId in old(users.users) ==>
        r == Ok(()) && users.users == old(users.users)[userId := old(users.users)[userId].(refreshToken := None)]
      ensures userId in old(users.users) ==>
        forall t: Jwt.Token, now: int :: t.Signed? && t.payload.sub == userId ==> RefreshTokenChecked(t, now) == Err(Unauthorized)
    {
      r := users.ClearRefreshToken(userId);
      if userId in old(users.users) {
        forall t: Jwt.Token, now: int | t.Signed? && t.payload.sub == userId
          ensures RefreshTokenChecked(t, now) == Err(Unauthorized)
        {
          CheckedRefreshRefusedAfterLogout(t, now);
        }
      }
    }

    /** Once the stored token is cleared, the intended refresh refuses every
     *  token of that user. */
    lemma CheckedRefreshRefusedAfterLogout(t: Jwt.Token, now: int)
      requires t.Signed? && t.payload.sub in users.users && users.users[t.payload.sub].refreshToken.None?
      ensures RefreshTokenChecked(t, now) == Err(Unauthorized)
    {
    }
  }

  /** As written, logging out does not revoke the refresh token: right after
   *  sign-up and logout, the refresh token issued at sign-up still yields an
   *  access token, and since the stored copy survives the logout even the
   *  intended refresh would honour it.  After `RevokingLogout` the intended
   *  refresh refuses it.  A witness of the contracts of
   *  `AuthService.Logout` (nothing is written), `AuthService.RefreshToken`
   *  (the stored copy is not read) and `AuthService.RevokingLogout`. */
  method LogoutDoesNotRevoke() returns (afterLogout: Result<Jwt.Token>, checkedAfterLogout: Result<Jwt.Token>,
                                        checkedAfterRevoking: Result<Jwt.Token>)
    ensures afterLogout.Ok? && checkedAfterLogout.Ok?
    ensures checkedAfterRevoking == Err(Unauthorized)
  {
    var inbox := new US.NS.NotificationService();
    var service := new US.UserService(inbox);
    var auth := new AuthService(service, 3600);
    var session := auth.Signup(CreateUserDto(None, Some("0900000001"), None, Some("password1"), None, None, Some(Local)), 0);
    assert session.Ok?;
    var out := auth.Logout(session.value.user.id);
    afterLogout := auth.RefreshToken(session.value.refreshToken, 60);
    checkedAfterLogout := auth.RefreshTokenChecked(session.value.refreshToken, 60);
    out := auth.RevokingLogout(session.value.user.id);
    checkedAfterRevoking := auth.RefreshTokenChecked(session.value.refreshToken, 60);
  }

  /** As written, the user listing hands every caller each user's stored
   *  refresh token; an admin's, while unexpired, refreshes into an access
   *  token that claims the role `admin`.  The intended listing carries no
   *  token at all. */
  lemma ListedAdminTokenYieldsAdminAccess(auth: AuthService, k: nat, now: int)
    requires auth.users.Valid() && k in auth.users.users && auth.users.users[k].refreshToken.Some?
    requires var t := auth.users.users[k].refreshToken.value;
             t.Signed? && t.payload.role == "admin" && now < t.issuedAt + t.lifetime
    ensures exists i :: 0 <= i < |auth.users.FindAll()| && auth.users.FindAll()[i].refreshToken == auth.users.users[k].refreshToken
    ensures var minted := auth.RefreshToken(auth.users.users[k].refreshToken.value, now);
            minted.Ok? && minted.value.payload.role == "admin"
  {
    var t := auth.users.users[k].refreshToken.value;
    assert Jwt.Verify(t, now).Ok?;
    var minted := auth.RefreshToken(t, now);
    assert minted.Ok?;
    assert minted.value.payload == t.payload;
    assert t.payload.role == "admin";
    var listing := auth.users.FindAll();
    var row := WithoutPassword(auth.users.users[k]);
    assert row in listing;
    var i :| 0 <= i < |listing| && listing[i] == row;
    assert listing[i].refreshToken == auth.users.users[k].refreshToken;
  }
}

=== FILE: call_component.dfy ===
/**
 * `CallComponent`: a voice or video call with an expert.  Opening the call
 * shows it as connecting; a timer two seconds later makes it ongoing; while
 * it is shown and ongoing, a one-second interval counts the duration and
 * adds `price` to the cost at every full minute.  The timers are modelled
 * as the steps they trigger.
 */
module CallComponent {
  import opened Common

  datatype CallStatus = Connecting | Ongoing | Ended

  /** `n.toString().padStart(2, '0')`. */
  function Pad2(n: nat): (r: string)
    ensures |r| >= 2 && AllDigits(r)
    ensures n < 100 ==> |r| == 2
    ensures ParseNat(r) == n
  {
    var d := NatToString(n);
    ParseNatToString(n);
    if |d| >= 2 then d
    else
      assert d == [DigitChar(n)];
      assert ParseNat(['0'] + d) == ParseNat(['0']) * 10 + n;
      ['0'] + d
  }

  /** `formatDuration`: whole minutes, a colon, then the seconds of the
   *  unfinished minute, each at least two digits. */
  function FormatDuration(seconds: nat): string
  {
    Pad2(seconds / 60) + ":" + Pad2(seconds % 60)
  }

  /** Reads `mm:ss` back: the digits before the last three characters are
   *  the minutes, the last two the seconds. */
  function ReadDuration(t: string): Option<nat>
  {
    if |t| >= 3 && t[|t| - 3] == ':' && AllDigits(t[..|t| - 3]) && AllDigits(t[|t| - 2..])
    then Some(ParseNat(t[..|t| - 3]) * 60 + ParseNat(t[|t| - 2..]))
    else None
  }

  /** The display loses nothing: the seconds part always has exactly two
   *  digits, and reading the text back gives the duration. */
  lemma FormatDurationRoundTrip(seconds: nat)
    ensures |FormatDuration(seconds)| >= 5
    ensures ReadDuration(FormatDuration(seconds)) == Some(seconds)
  {
    var m, s := Pad2(seconds / 60), Pad2(seconds % 60);
    var t := m + ":" + s;
    assert |s| == 2;
    assert t[..|t| - 3] == m;
    assert t[|t| - 2..] == s;
  }

  /** Distinct durations are shown differently. */
  lemma FormatDurationInjective(a: nat, b: nat)
    requires FormatDuration(a) == FormatDuration(b)
    ensures a == b
  {
    FormatDurationRoundTrip(a);
    FormatDurationRoundTrip(b);
  }

  /** The cost after `seconds` of conversation: `price` per completed
   *  minute. */
  function Billed(price: int, seconds: nat): int
  {
    price * (seconds / 60)
  }

  /** One more second adds `price` exactly when it completes a minute. */
  lemma BilledStep(price: int, seconds: nat)
    ensures Billed(price, seconds + 1) == Billed(price, seconds) + (if (seconds + 1) % 60 == 0 then price else 0)
  {
    if (seconds + 1) % 60 == 0 {
      assert (seconds + 1) / 60 == seconds / 60 + 1;
    } else {
      assert (seconds + 1) / 60 == seconds / 60;
    }
  }

  /** With a non-negative price the cost never falls as the call goes on. */
  lemma {:induction false} BilledMonotone(price: int, a: nat, b: nat)
    requires price >= 0 && a <= b
    ensures Billed(price, a) <= Billed(price, b)
    decreases b - a
  {
    if a < b {
      BilledStep(price, b - 1);
      BilledMonotone(price, a, b - 1);
    }
  }

  class Call {
    const price: int
    var isVisible: bool
    var callStatus: CallStatus
    var callDuration: nat
    var cost: int

    /** The cost is always what the duration has earned. */
    predicate Valid()
      reads this
    {
      cost == Billed(price, callDuration)
    }

    /** Whether the one-second interval is running. */
    predicate Ticking()
      reads this
    {
      isVisible && callStatus == Ongoing
    }

    constructor (price: int)
      ensures Valid() && this.price == price
      ensures !isVisible && callStatus == Connecting && callDuration == 0 && cost == 0
    {
      this.price := price;
      isVisible := false;
      callStatus := Connecting;
      callDuration := 0;
      cost := 0;
    }

    /** `startCall`: shown, connecting, nothing counted yet. */
    method StartCall()
      modifies this
      ensures Valid()
      ensures isVisible && callStatus == Connecting && callDuration == 0 && cost == 0
    {
      isVisible := true;
      callStatus := Connecting;
      callDuration := 0;
      cost := 0;
    }

    /** The connection timer, as written: it was set when the call was
     *  shown and is cancelled only by hiding it, so it marks the call
     *  ongoing whatever its status has become meanwhile. */
    method ConnectTimerFired()
      modifies this
      ensures callStatus == if old(isVisible) then Ongoing else old(callStatus)
      ensures isVisible == old(isVisible) && callDuration == old(callDuration) && cost == old(cost)
    {
      if isVisible {
        callStatus := Ongoing;
      }
    }

    /** The connection timer as evidently intended: only a call still
     *  connecting becomes ongoing, so an ended call stays ended. */
    method ConnectTimerFiredChecked()
      modifies this
      ensures callStatus == if old(isVisible) && old(callStatus) == Connecting then Ongoing else old(callStatus)
      ensures old(callStatus) == Ended ==> callStatus == Ended
      ensures isVisible == old(isVisible) && callDuration == old(callDuration) && cost == old(cost)
    {
      if isVisible && callStatus == Connecting {
        callStatus := Ongoing;
      }
    }

    /** One interval tick: only while the call is shown and ongoing, the
     *  duration grows by a second and a completed minute costs `price`. */
    method Tick()
      requires Valid()
      modifies this
      ensures Valid()
      ensures old(Ticking()) ==> callDuration == old(callDuration) + 1
      ensures !old(Ticking()) ==> callDuration == old(callDuration) && cost == old(cost)
      ensures isVisible == old(isVisible) && callStatus == old(callStatus)
    {
      if isVisible && callStatus == Ongoing {
        BilledStep(price, callDuration);
        callDuration := callDuration + 1;
        if callDuration % 60 == 0 {
          cost := cost + price;
        }
      }
    }

    /** `endCall`: the call is ended, which stops the interval; the summary
     *  shows the formatted duration and the cost. */
    method EndCall() returns (shownDuration: string, shownCost: int)
      requires Valid()
      modifies this
      ensures Valid() && !Ticking()
      ensures callStatus == Ended && isVisible == old(isVisible)
      ensures callDuration == old(callDuration) && cost == old(cost)
      ensures shownDuration == FormatDuration(callDuration) && shownCost == Billed(price, callDuration)
    {
      shownDuration := FormatDuration(callDuration);
      shownCost := cost;
      callStatus := Ended;
    }

    /** The summary's OK button: the call is hidden. */
    method Dismiss()
      modifies this
      ensures !isVisible && !Ticking()
      ensures callStatus == old(callStatus) && callDuration == old(callDuration) && cost == old(cost)
    {
      isVisible := false;
    }
  }

  /** A call ended while still connecting: as written, the pending
   *  connection timer makes it ongoing again, and it goes on counting while
   *  the summary is open; with the intended timer it stays ended.  A
   *  witness of the contracts of `Call.ConnectTimerFired` (the status
   *  becomes `Ongoing` whatever it was) and `Call.ConnectTimerFiredChecked`
   *  (only a connecting call changes). */
  method EndedWhileConnecting() returns (asWritten: CallStatus, ticking: bool, intended: CallStatus)
    ensures asWritten == Ongoing && ticking
    ensures intended == Ended
  {
    var call := new Call(1000);
    call.StartCall();
    var _, _ := call.EndCall();
    call.ConnectTimerFired();
    asWritten, ticking := call.callStatus, call.Ticking();

    var fixed := new Call(1000);
    fixed.StartCall();
    var _, _ := fixed.EndCall();
    fixed.ConnectTimerFiredChecked();
    intended := fixed.callStatus;
  }
}

=== FILE: chat_room.dfy ===
/**
 * `ChatRoomScreen`: the paid chat with an expert.  A message costs one free
 * credit while any remain, else `price` coins from the balance; a message
 * that cannot be paid for is not sent.  A sent message goes through the
 * statuses `sending`, `sent` and `read`, and the expert answers once.
 * Timers are modelled as the later steps they trigger; the clock and the
 * reply picked at random are parameters.
 */
module ChatRoom {
  import opened Common

  datatype Sender = UserSide | ExpertSide
  datatype Status = Sending | Sent | Delivered | Read

  datatype Message = Message(id: string, text: string, sender: Sender, timestamp: int, status: Status, isPaid: bool)

  /** What `checkAndChargeFee` decides: whether the message may go, and the
   *  credits and balance afterwards. */
  datatype Charge = Charge(ok: bool, credits: int, balance: int)

  /** The fee rule.  A message is worth `price`, a free credit as much as
   *  `price` coins: a paid message lowers `credits * price + balance` by
   *  exactly `price`, a refused one changes nothing.  Neither counter goes
   *  below zero when it starts at zero or above. */
  function ChargeFor(credits: int, balance: int, price: int): (c: Charge)
    ensures c.ok <==> credits > 0 || balance >= price
    ensures c.ok ==> c.credits * price + c.balance == credits * price + balance - price
    ensures !c.ok ==> c.credits == credits && c.balance == balance
    ensures credits > 0 ==> c.balance == balance && c.credits == credits - 1
    ensures credits <= 0 ==> c.credits == credits
    ensures credits >= 0 ==> c.credits >= 0
    ensures balance >= 0 ==> c.balance >= 0
  {
    if credits > 0 then Charge(true, credits - 1, balance)
    else if balance >= price then Charge(true, credits, balance - price)
    else Charge(false, credits, balance)
  }

  /** `n` messages in a row, each charged by `ChargeFor`. */
  function ChargeMany(credits: int, balance: int, price: int, n: nat): (c: Charge)
    decreases n
  {
    if n == 0 then Charge(true, credits, balance)
    else
      var first := ChargeFor(credits, balance, price);
      if !first.ok then Charge(false, credits, balance)
      else ChargeMany(first.credits, first.balance, price, n - 1)
  }

  /** Sending `n` messages from non-negative credits and balance either
   *  pays for all of them, lowering the worth by `n * price`, or stops at
   *  the first refusal; the counters stay non-negative throughout. */
  lemma {:induction false} ChargeManyWorth(credits: int, balance: int, price: int, n: nat)
    requires credits >= 0 && balance >= 0
    ensures var c := ChargeMany(credits, balance, price, n);
            c.credits >= 0 && c.balance >= 0
            && (c.ok ==> c.credits * price + c.balance == credits * price + balance - n * price)
    decreases n
  {
    if n > 0 {
      var first := ChargeFor(credits, balance, price);
      if first.ok {
        ChargeManyWorth(first.credits, first.balance, price, n - 1);
      }
    }
  }

  /** With no credits and a positive price, a balance pays for exactly
   *  `balance / price` messages. */
  lemma {:induction false} BalancePaysFor(balance: int, price: int, n: nat)
    requires balance >= 0 && price > 0
    ensures ChargeMany(0, balance, price, n).ok <==> n * price <= balance
    decreases n
  {
    if n > 0 {
      if balance >= price {
        BalancePaysFor(balance - price, price, n - 1);
      }
    }
  }

  /** Every message with id `id` gets `status`; the others stay. */
  function WithStatus(msgs: seq<Message>, id: string, status: Status): (r: seq<Message>)
    ensures |r| == |msgs|
    ensures forall i :: 0 <= i < |msgs| ==>
              r[i] == if msgs[i].id == id then msgs[i].(status := status) else msgs[i]
  {
    seq(|msgs|, i requires 0 <= i < |msgs| => if msgs[i].id == id then msgs[i].(status := status) else msgs[i])
  }

  /** When the last message's id is fresh, a status change by id touches
   *  only that message. */
  lemma WithStatusOnlyLast(msgs: seq<Message>, m: Message, status: Status)
    requires forall i :: 0 <= i < |msgs| ==> msgs[i].id != m.id
    ensures WithStatus(msgs + [m], m.id, status) == msgs + [m.(status := status)]
  {
    var r := WithStatus(msgs + [m], m.id, status);
    assert forall i :: 0 <= i < |msgs| ==> r[i] == msgs[i];
  }

  /** A day, in milliseconds. */
  const DayMillis := 24 * 60 * 60 * 1000

  class ChatRoom {
    const expertName: string
    const price: int
    var messages: seq<Message>
    var inputText: string
    var balance: int
    var loading: bool
    var remainingCredits: int
    var isSending: bool

    /** Credits and balance are never negative. */
    predicate Valid()
      reads this
    {
      remainingCredits >= 0 && balance >= 0
    }

    /** The screen as it mounts: no messages, 100000 coins, two free
     *  credits, loading. */
    constructor (expertName: string, price: int)
      ensures Valid()
      ensures this.expertName == expertName && this.price == price
      ensures messages == [] && inputText == "" && balance == 100000 && loading
      ensures remainingCredits == 2 && !isSending
    {
      this.expertName := expertName;
      this.price := price;
      messages := [];
      inputText := "";
      balance := 100000;
      loading := true;
      remainingCredits := 2;
      isSending := false;
    }

    /** The history has loaded: the expert's greeting, dated a day before
     *  `now`, is the only message. */
    method HistoryLoaded(now: int, greeting: string)
      modifies this
      ensures messages == [Message("1", greeting, ExpertSide, now - DayMillis, Read, true)] && !loading
      ensures inputText == old(inputText) && balance == old(balance) && remainingCredits == old(remainingCredits)
      ensures isSending == old(isSending)
    {
      messages := [Message("1", greeting, ExpertSide, now - DayMillis, Read, true)];
      loading := false;
    }

    /** `checkAndChargeFee`. */
    method CheckAndChargeFee() returns (ok: bool)
      requires Valid()
      modifies this
      ensures Valid()
      ensures ok == ChargeFor(old(remainingCredits), old(balance), price).ok
      ensures remainingCredits == ChargeFor(old(remainingCredits), old(balance), price).credits
      ensures balance == ChargeFor(old(remainingCredits), old(balance), price).balance
      ensures messages == old(messages) && inputText == old(inputText) && isSending == old(isSending)
      ensures loading == old(loading)
    {
      if remainingCredits > 0 {
        remainingCredits := remainingCredits - 1;
        ok := true;
      } else if balance >= price {
        balance := balance - price;
        ok := true;
      } else {
        ok := false;
      }
    }

    /** `handleSendMessage`, up to its first timer: a blank input does
     *  nothing; otherwise the fee is charged, and only when it is paid the
     *  trimmed text is appended as a `sending` user message whose id is
     *  the clock's reading, and the input is cleared.  Returns the new
     *  message's id. */
    method SendMessage(now: nat) returns (sent: Option<string>)
      requires Valid()
      modifies this
      ensures Valid()
      ensures IsBlank(old(inputText)) ==>
        sent.None? && messages == old(messages) && inputText == old(inputText)
        && balance == old(balance) && remainingCredits == old(remainingCredits) && isSending == old(isSending)
      ensures !IsBlank(old(inputText)) ==>
        var c := ChargeFor(old(remainingCredits), old(balance), price);
        remainingCredits == c.credits && balance == c.balance
        && (!c.ok ==> sent.None? && messages == old(messages) && inputText == old(inputText) && isSending == old(isSending))
        && (c.ok ==> sent == Some(NatToString(now)) && inputText == "" && isSending
                     && messages == old(messages) + [Message(NatToString(now), Trim(old(inputText)), UserSide, now, Sending, true)])
      ensures loading == old(loading)
    {
      if IsBlank(inputText) {
        return None;
      }
      var paid := CheckAndChargeFee();
      if !paid {
        return None;
      }
      isSending := true;
      var m := Message(NatToString(now), Trim(inputText), UserSide, now, Sending, true);
      messages := messages + [m];
      inputText := "";
      sent := Some(m.id);
    }

    /** The first timer: every message with the sent id becomes `sent`. */
    method MessageDelivered(id: string)
      modifies this
      ensures messages == WithStatus(old(messages), id, Sent)
      ensures inputText == old(inputText) && balance == old(balance) && remainingCredits == old(remainingCredits)
      ensures isSending == old(isSending) && loading == old(loading)
    {
      messages := WithStatus(messages, id, Sent);
    }

    /** The second timer: the sent message becomes `read` and the expert's
     *  reply, with id one past the clock's reading, is appended. */
    method ExpertReplied(id: string, now: nat, reply: string)
      modifies this
      ensures messages == WithStatus(old(messages), id, Read) + [Message(NatToString(now + 1), reply, ExpertSide, now, Sent, true)]
      ensures !isSending
      ensures inputText == old(inputText) && balance == old(balance) && remainingCredits == old(remainingCredits)
      ensures loading == old(loading)
    {
      messages := WithStatus(messages, id, Read);
      messages := messages + [Message(NatToString(now + 1), reply, ExpertSide, now, Sent, true)];
      isSending := false;
    }
  }

  /** A full exchange whose clock reading is a fresh id leaves the earlier
   *  messages as they were, the user's message `read`, and one expert reply
   *  after it. */
  lemma ExchangeAppendsTwo(before: seq<Message>, m: Message, reply: Message)
    requires forall i :: 0 <= i < |before| ==> before[i].id != m.id
    requires m.status == Sending
    ensures WithStatus(WithStatus(before + [m], m.id, Sent), m.id, Read) + [reply]
            == before + [m.(status := Read), reply]
  {
    WithStatusOnlyLast(before, m, Sent);
    WithStatusOnlyLast(before, m.(status := Sent), Read);
  }
}

=== FILE: coin_stats.dfy ===
/**
 * `CoinStats`: the dashboard page with the coin totals and a paged table
 * of recent ledger rows.  A fetch keeps the previous figures when it
 * fails; the table shows one page, cut out with `Array.prototype.slice`.
 * The one-minute refresh interval is modelled as calls to the fetch; the
 * clock is a parameter.
 */
module CoinStats {
  import opened Common
  import opened CoinTransactionEntity
  import UserService

  /** The response body as the page reads it; `recentTransactions` may be
   *  missing from it. */
  datatype Answer = Answer(totalCoins: int, totalDeposits: int, totalWithdrawals: int, usersWithCoins: nat,
                           recentTransactions: Option<seq<UserService.JoinedTransaction>>)

  /** What `getTotalSystemCoins` sends: the list is always there (an empty
   *  array is truthy). */
  function FromServer(s: UserService.CoinStats): (a: Answer)
    ensures a.recentTransactions == Some(s.recentTransactions)
  {
    Answer(s.totalCoins, s.totalDeposits, s.totalWithdrawals, s.usersWithCoins, Some(s.recentTransactions))
  }

  /** The table's user cell: the joined user's full name, else its e-mail,
   *  else its phone number (the first that is non-empty), else the bare
   *  `userId`. */
  datatype UserCell = Named(text: string) | IdOnly(id: nat)

  function UserCellOf(t: UserService.JoinedTransaction): (c: UserCell)
    ensures t.user.Some? && Truthy(t.user.value.fullName) ==> c == Named(t.user.value.fullName.value)
    ensures c.Named? ==>
              (c.text != "" && t.user.Some?
               && (Some(c.text) == t.user.value.fullName || Some(c.text) == t.user.value.email
                   || Some(c.text) == t.user.value.phoneNumber))
    ensures c.IdOnly? <==> t.user.None? || (!Truthy(t.user.value.fullName) && !Truthy(t.user.value.email)
                                            && !Truthy(t.user.value.phoneNumber))
    ensures c.IdOnly? ==> c.id == t.row.userId
  {
    match t.user
    case None => IdOnly(t.row.userId)
    case Some(u) =>
      if Truthy(u.fullName) then Named(u.fullName.value)
      else if Truthy(u.email) then Named(u.email.value)
      else if Truthy(u.phoneNumber) then Named(u.phoneNumber.value)
      else IdOnly(t.row.userId)
  }

  /** Sending each joined user in its public view changes no cell of the
   *  table: the page needs none of the withheld columns. */
  lemma PublicViewKeepsUserCells(s: seq<UserService.JoinedTransaction>)
    ensures var p := UserService.PublicJoined(s);
            |p| == |s| && forall i :: 0 <= i < |s| ==> UserCellOf(p[i]) == UserCellOf(s[i]) && p[i].row == s[i].row
  {
  }

  /** An index argument of `slice`: a negative one counts from the end,
   *  and the result is kept within `0..n`. */
  function SliceIndex(i: int, n: nat): (k: nat)
    ensures k <= n
    ensures 0 <= i <= n ==> k == i
    ensures i > n ==> k == n
  {
    if i < 0 then (if n + i < 0 then 0 else n + i) else if i > n then n else i
  }

  /** `s.slice(start, end)`. */
  function JsSlice<T>(s: seq<T>, start: int, end: int): (r: seq<T>)
    ensures |r| <= |s|
  {
    var a, b := SliceIndex(start, |s|), SliceIndex(end, |s|);
    if a < b then s[a..b] else []
  }

  /** The rows the table shows. */
  function PageRows<T>(rows: seq<T>, page: nat, rowsPerPage: nat): seq<T>
  {
    JsSlice(rows, page * rowsPerPage, page * rowsPerPage + rowsPerPage)
  }

  /** A page holds at most `rowsPerPage` rows, and they are the rows from
   *  index `page * rowsPerPage` on, in order. */
  lemma PageRowsAre<T>(rows: seq<T>, page: nat, rowsPerPage: nat)
    ensures var r := PageRows(rows, page, rowsPerPage);
            |r| <= rowsPerPage
            && (forall i :: 0 <= i < |r| ==> page * rowsPerPage + i < |rows| && r[i] == rows[page * rowsPerPage + i])
            && (page * rowsPerPage + rowsPerPage <= |rows| ==> |r| == rowsPerPage)
            && (page * rowsPerPage >= |rows| ==> r == [])
  {
  }

  /** Every row is shown on exactly one page: row `j` on page
   *  `j / rowsPerPage`, at position `j % rowsPerPage`. */
  lemma EveryRowOnItsPage<T>(rows: seq<T>, rowsPerPage: nat, j: nat)
    requires rowsPerPage > 0 && j < |rows|
    ensures var r := PageRows(rows, j / rowsPerPage, rowsPerPage);
            j % rowsPerPage < |r| && r[j % rowsPerPage] == rows[j]
    ensures forall page: nat :: page != j / rowsPerPage ==>
              !(page * rowsPerPage <= j < page * rowsPerPage + rowsPerPage)
  {
    var page, off := j / rowsPerPage, j % rowsPerPage;
    var start := page * rowsPerPage;
    assert start + off == j;
    var r := PageRows(rows, page, rowsPerPage);
    var end := SliceIndex(start + rowsPerPage, |rows|);
    assert start < end;
    assert r == rows[start..end];
    assert r[off] == rows[start + off];
    forall p: nat | p != page
      ensures !(p * rowsPerPage <= j < p * rowsPerPage + rowsPerPage)
    {
      if p < page {
        MulLe(p + 1, page, rowsPerPage);
        MulSucc(p, rowsPerPage);
      } else {
        MulLe(page + 1, p, rowsPerPage);
        MulSucc(page, rowsPerPage);
      }
    }
  }

  lemma MulSucc(a: nat, c: nat)
    ensures (a + 1) * c == a * c + c
  {
  }

  lemma MulLe(a: nat, b: nat, c: nat)
    requires a <= b
    ensures a * c <= b * c
  {
    assert b * c == a * c + (b - a) * c;
  }

  class CoinStatsPage {
    var coinStats: Option<Answer>
    var recentTransactions: seq<UserService.JoinedTransaction>
    var loading: bool
    var refreshing: bool
    var hasError: bool
    var page: nat
    var rowsPerPage: nat
    var lastRefreshed: int

    /** The page as it mounts: loading, ten rows a page, first page. */
    constructor (now: int)
      ensures coinStats.None? && recentTransactions == [] && loading && !refreshing && !hasError
      ensures page == 0 && rowsPerPage == 10 && lastRefreshed == now
    {
      coinStats := None;
      recentTransactions := [];
      loading := true;
      refreshing := false;
      hasError := false;
      page := 0;
      rowsPerPage := 10;
      lastRefreshed := now;
    }

    /** The rows on screen. */
    function Shown(): seq<UserService.JoinedTransaction>
      reads this
    {
      PageRows(recentTransactions, page, rowsPerPage)
    }

    /** `fetchCoinStats`: an answer replaces the figures, replaces the
     *  table only when it lists transactions, clears the error and
     *  records `now`; a failure sets the error and keeps everything else.
     *  Loading and refreshing are both over afterwards. */
    method FetchCoinStats(isRefresh: bool, response: Option<Answer>, now: int)
      modifies this
      ensures !loading && !refreshing
      ensures response.Some? ==>
        coinStats == response && !hasError && lastRefreshed == now
        && recentTransactions == (if response.value.recentTransactions.Some?
                                  then response.value.recentTransactions.value else old(recentTransactions))
      ensures response.None? ==>
        hasError && coinStats == old(coinStats) && recentTransactions == old(recentTransactions)
        && lastRefreshed == old(lastRefreshed)
      ensures page == old(page) && rowsPerPage == old(rowsPerPage)
    {
      if isRefresh {
        refreshing := true;
      } else {
        loading := true;
      }
      if response.Some? {
        coinStats := response;
        if response.value.recentTransactions.Some? {
          recentTransactions := response.value.recentTransactions.value;
        }
        hasError := false;
        lastRefreshed := now;
      } else {
        hasError := true;
      }
      loading := false;
      refreshing := false;
    }

    /** `handleChangePage`. */
    method HandleChangePage(newPage: nat)
      modifies this
      ensures page == newPage && rowsPerPage == old(rowsPerPage)
      ensures recentTransactions == old(recentTransactions) && coinStats == old(coinStats)
    {
      page := newPage;
    }

    /** `handleChangeRowsPerPage`, with the parsed number of rows: the
     *  table goes back to its first page, which shows the first rows. */
    method HandleChangeRowsPerPage(rows: nat)
      modifies this
      ensures rowsPerPage == rows && page == 0
      ensures Shown() == recentTransactions[..if rows < |recentTransactions| then rows else |recentTransactions|]
      ensures recentTransactions == old(recentTransactions) && coinStats == old(coinStats)
    {
      rowsPerPage := rows;
      page := 0;
    }
  }

  /** A successful fetch of what the server sends always replaces the
   *  table with the server's newest rows: a witness of the contract of
   *  `CoinStatsPage.FetchCoinStats` applied to `FromServer`, whose list is
   *  never missing. */
  method ServerAnswerReplacesTable(s: UserService.CoinStats, now: int) returns (shownAll: seq<UserService.JoinedTransaction>)
    ensures shownAll == s.recentTransactions
  {
    var p := new CoinStatsPage(now);
    p.FetchCoinStats(true, Some(FromServer(s)), now);
    shownAll := p.recentTransactions;
  }
}

=== FILE: coin_transaction_entity.dfy ===
/**
 * The `coin_transactions` table and the arithmetic over it that the ledger
 * invariant is stated in.
 */
module CoinTransactionEntity {
  import opened Common

  datatype TransactionType = Deposit | Withdraw

  /** A row of `coin_transactions`; `kind` is the `type` column, `createdAt`
   *  the insertion time (a counter that grows with every insert). */
  datatype CoinTransaction = CoinTransaction(
    id: nat,
    userId: nat,
    amount: int,
    kind: TransactionType,
    note: Option<string>,
    performedBy: Option<string>,
    createdAt: nat)

  /** What a row contributes to its user's balance: a deposit adds its
   *  amount, a withdrawal subtracts it. */
  function SignedAmount(t: CoinTransaction): (v: int)
    ensures t.kind == Deposit ==> v == t.amount
    ensures t.kind == Withdraw ==> v == -t.amount
  {
    match t.kind
    case Deposit => t.amount
    case Withdraw => -t.amount
  }

  /** The balance the rows of user `u` account for. */
  function Net(rows: seq<CoinTransaction>, u: nat): int
  {
    if rows == [] then 0
    else Net(rows[..|rows| - 1], u) + (if rows[|rows| - 1].userId == u then SignedAmount(rows[|rows| - 1]) else 0)
  }

  /** `SUM(amount) WHERE type = kind`, 0 when no row matches. */
  function Total(rows: seq<CoinTransaction>, kind: TransactionType): int
  {
    if rows == [] then 0
    else Total(rows[..|rows| - 1], kind) + (if rows[|rows| - 1].kind == kind then rows[|rows| - 1].amount else 0)
  }

  /** The rows with `user_id = u`, in table order. */
  function RowsOf(rows: seq<CoinTransaction>, u: nat): (r: seq<CoinTransaction>)
    ensures |r| <= |rows|
    ensures forall t :: t in r <==> t in rows && t.userId == u
  {
    if rows == [] then []
    else RowsOf(rows[..|rows| - 1], u) + (if rows[|rows| - 1].userId == u then [rows[|rows| - 1]] else [])
  }

  /** The rows with `user_id <> u`: what `DELETE ... WHERE user_id = u` keeps. */
  function RowsNotOf(rows: seq<CoinTransaction>, u: nat): (r: seq<CoinTransaction>)
    ensures |r| <= |rows|
    ensures forall t :: t in r <==> t in rows && t.userId != u
  {
    if rows == [] then []
    else RowsNotOf(rows[..|rows| - 1], u) + (if rows[|rows| - 1].userId != u then [rows[|rows| - 1]] else [])
  }

  /** Appending one row changes only its own user's net balance, by its
   *  signed amount. */
  lemma {:induction false} NetAppend(rows: seq<CoinTransaction>, t: CoinTransaction, u: nat)
    ensures Net(rows + [t], u) == Net(rows, u) + (if t.userId == u then SignedAmount(t) else 0)
  {
    assert (rows + [t])[..|rows|] == rows;
  }

  lemma {:induction false} TotalAppend(rows: seq<CoinTransaction>, t: CoinTransaction, k: TransactionType)
    ensures Total(rows + [t], k) == Total(rows, k) + (if t.kind == k then t.amount else 0)
  {
    assert (rows + [t])[..|rows|] == rows;
  }

  /** Deleting a user's rows zeroes that user's net balance and leaves every
   *  other user's untouched. */
  lemma {:induction false} NetRowsNotOf(rows: seq<CoinTransaction>, u: nat, v: nat)
    ensures Net(RowsNotOf(rows, u), v) == if u == v then 0 else Net(rows, v)
  {
    if rows != [] {
      var front, last := rows[..|rows| - 1], rows[|rows| - 1];
      assert rows == front + [last];
      NetRowsNotOf(front, u, v);
      NetAppend(front, last, v);
      if last.userId != u {
        NetAppend(RowsNotOf(front, u), last, v);
      } else {
        assert RowsNotOf(rows, u) == RowsNotOf(front, u) + [];
        assert RowsNotOf(front, u) + [] == RowsNotOf(front, u);
      }
    }
  }

  /** A user's net balance is determined by that user's rows alone. */
  lemma {:induction false} NetRowsOf(rows: seq<CoinTransaction>, u: nat)
    ensures Net(RowsOf(rows, u), u) == Net(rows, u)
  {
    if rows != [] {
      var front, last := rows[..|rows| - 1], rows[|rows| - 1];
      assert rows == front + [last];
      NetRowsOf(front, u);
      NetAppend(front, last, u);
      if last.userId == u {
        NetAppend(RowsOf(front, u), last, u);
      } else {
        assert RowsOf(rows, u) == RowsOf(front, u) + [];
        assert RowsOf(front, u) + [] == RowsOf(front, u);
      }
    }
  }

  /** A user none of whose rows exist has net balance 0. */
  lemma {:induction false} NetNoRows(rows: seq<CoinTransaction>, u: nat)
    requires forall i :: 0 <= i < |rows| ==> rows[i].userId != u
    ensures Net(rows, u) == 0
  {
    if rows != [] {
      NetNoRows(rows[..|rows| - 1], u);
    }
  }
}

=== FILE: common.dfy ===
/**
 * Shared vocabulary of the model: optional values (JavaScript's
 * `undefined`/`null`), the HTTP exceptions that the NestJS services throw,
 * and the few JavaScript string semantics the code relies on (truthiness,
 * `String.prototype.trim`, the `/^[0-9]{10}$/` phone pattern).
 */
module Common {

  datatype Option<T> = None | Some(value: T)

  /** The NestJS exceptions thrown by the services and guards.  `InternalError`
   *  stands for an error that is not an HttpException (a failed database
   *  constraint, a library throwing), which Nest answers with status 500. */
  datatype HttpError = BadRequest | Unauthorized | Forbidden | NotFound | Conflict | InternalError

  datatype Result<T> = Ok(value: T) | Err(error: HttpError)

  /** Why a form field is refused, as the screens' error messages say it;
   *  `Clear` when it is not. */
  datatype Reason = Clear | Required | Malformed | NeedsPhone | TooShort | Mismatch

  /** How a request from a page ends: it succeeds, or it fails, with the
   *  server's `message` when the response carries one. */
  datatype Outcome = Succeeded | Failed(message: Option<string>)

  /** What the admin pages' create forms show as their error: a missing
   *  identifier, a missing password, or a failed request. */
  datatype SubmitError = NoIdentifier | NoPassword | RequestFailed(message: Option<string>)

  /** JavaScript truthiness of an optional string: `undefined`, `null` and `''`
   *  are falsy, every other string is truthy. */
  predicate Truthy(s: Option<string>)
  {
    s.Some? && s.value != ""
  }

  /** `s || fallback` on an optional string. */
  function OrElse(s: Option<string>, fallback: string): (r: string)
    ensures Truthy(s) ==> r == s.value
    ensures !Truthy(s) ==> r == fallback
  {
    if Truthy(s) then s.value else fallback
  }

  /** `s || undefined`: an empty string becomes absent. */
  function NonEmpty(s: string): (r: Option<string>)
    ensures r.None? <==> s == ""
    ensures r.Some? ==> r.value == s
  {
    if s == "" then None else Some(s)
  }

  predicate IsDigit(c: char)
  {
    '0' <= c <= '9'
  }

  /** The regular expression `/^[0-9]{10}$/`. */
  predicate IsTenDigits(s: string)
  {
    |s| == 10 && forall i :: 0 <= i < |s| ==> IsDigit(s[i])
  }

  /** The characters `String.prototype.trim` removes: the ECMAScript
   *  WhiteSpace and LineTerminator code points. */
  predicate IsJsWhitespace(c: char)
  {
    var n := c as int;
    n == 0x09 || n == 0x0A || n == 0x0B || n == 0x0C || n == 0x0D || n == 0x20
    || n == 0xA0 || n == 0x1680 || (0x2000 <= n <= 0x200A)
    || n == 0x2028 || n == 0x2029 || n == 0x202F || n == 0x205F || n == 0x3000
    || n == 0xFEFF
  }

  /** Drops leading whitespace; the result is a suffix of `s` that does not
   *  start with whitespace, and everything dropped was whitespace. */
  function TrimStart(s: string): (r: string)
    ensures |r| <= |s| && r == s[|s| - |r|..]
    ensures r == [] || !IsJsWhitespace(r[0])
    ensures forall i :: 0 <= i < |s| - |r| ==> IsJsWhitespace(s[i])
  {
    if s != [] && IsJsWhitespace(s[0]) then TrimStart(s[1..]) else s
  }

  /** Drops trailing whitespace; the result is a prefix of `s` that does not
   *  end with whitespace, and everything dropped was whitespace. */
  function TrimEnd(s: string): (r: string)
    ensures |r| <= |s| && r == s[..|r|]
    ensures r == [] || !IsJsWhitespace(r[|r| - 1])
    ensures forall i :: |r| <= i < |s| ==> IsJsWhitespace(s[i])
  {
    if s != [] && IsJsWhitespace(s[|s| - 1]) then TrimEnd(s[..|s| - 1]) else s
  }

  /** `s.trim()`. */
  function Trim(s: string): string
  {
    TrimEnd(TrimStart(s))
  }

  /** `!s.trim()`: nothing but whitespace; `BlankIffTrimEmpty` ties this
   *  to the trimmed string being empty. */
  predicate IsBlank(s: string)
  {
    s == [] || (IsJsWhitespace(s[0]) && IsBlank(s[1..]))
  }

  /** A string is blank exactly when every character is whitespace. */
  lemma {:induction false} BlankIffAllWhitespace(s: string)
    ensures IsBlank(s) <==> forall i :: 0 <= i < |s| ==> IsJsWhitespace(s[i])
  {
    if s != [] {
      BlankIffAllWhitespace(s[1..]);
      assert forall i :: 1 <= i < |s| ==> s[i] == s[1..][i - 1];
    }
  }

  /** Blank strings are exactly those that trim to nothing. */
  lemma BlankIffTrimEmpty(s: string)
    ensures IsBlank(s) <==> Trim(s) == ""
  {
    BlankIffAllWhitespace(s);
    var t := TrimStart(s);
    if !(forall i :: 0 <= i < |s| ==> IsJsWhitespace(s[i])) {
      var k :| 0 <= k < |s| && !IsJsWhitespace(s[k]);
      assert t != [] && !IsJsWhitespace(t[0]);
      assert TrimEnd(t)[0] == t[0];
    }
  }

  /** The characters of a decimal numeral. */
  predicate AllDigits(s: string)
  {
    forall i :: 0 <= i < |s| ==> IsDigit(s[i])
  }

  function DigitChar(d: nat): (c: char)
    requires d < 10
    ensures IsDigit(c)
  {
    (48 + d) as char
  }

  function DigitValue(c: char): (d: nat)
    requires IsDigit(c)
    ensures d < 10
  {
    c as int - 48
  }

  /** `String(n)` for a non-negative integer: its decimal numeral, without
   *  leading zeros. */
  function NatToString(n: nat): (s: string)
    ensures |s| >= 1 && AllDigits(s)
    ensures s[0] == '0' ==> n == 0
    decreases n
  {
    if n < 10 then [DigitChar(n)] else NatToString(n / 10) + [DigitChar(n % 10)]
  }

  /** The value of a decimal numeral. */
  function ParseNat(s: string): nat
    requires AllDigits(s)
  {
    if s == [] then 0 else ParseNat(s[..|s| - 1]) * 10 + DigitValue(s[|s| - 1])
  }

  /** Reading back a printed number gives the number. */
  lemma {:induction false} ParseNatToString(n: nat)
    ensures ParseNat(NatToString(n)) == n
    decreases n
  {
    var s := NatToString(n);
    if n >= 10 {
      ParseNatToString(n / 10);
      assert s[..|s| - 1] == NatToString(n / 10);
    }
  }

  /** `ParseIntPipe`: an optional minus sign and decimal digits give an
   *  integer; anything else is refused with BadRequest. */
  function ParseIntPipe(s: string): (r: Result<int>)
    ensures r.Err? ==> r.error == BadRequest
    ensures r.Ok? && r.value > 0 ==> s != "" && AllDigits(s) && r.value == ParseNat(s)
    ensures s != "" && AllDigits(s) ==> r == Ok(ParseNat(s))
  {
    if s != "" && AllDigits(s) then Ok(ParseNat(s))
    else if |s| >= 2 && s[0] == '-' && AllDigits(s[1..]) then Ok(0 - ParseNat(s[1..]) as int)
    else Err(BadRequest)
  }

  /** A printed id goes through the pipe unchanged. */
  lemma ParseIntPipeReadsIds(n: nat)
    ensures ParseIntPipe(NatToString(n)) == Ok(n)
  {
    ParseNatToString(n);
  }

  /** The reverse of a sequence (a query's `ORDER BY ... DESC` over rows
   *  stored in ascending order). */
  function Reverse<T>(s: seq<T>): (r: seq<T>)
    ensures |r| == |s|
    ensures forall i :: 0 <= i < |s| ==> r[i] == s[|s| - 1 - i]
  {
    if s == [] then [] else Reverse(s[1..]) + [s[0]]
  }

  /** Reversing keeps exactly the same elements. */
  lemma ReverseMembers<T>(s: seq<T>)
    ensures forall t :: t in Reverse(s) <==> t in s
  {
    var r := Reverse(s);
    forall t | t in s ensures t in r {
      var k :| 0 <= k < |s| && s[k] == t;
      assert r[|s| - 1 - k] == t;
    }
  }

  function Abs(x: int): (r: nat)
    ensures r == x || r == -x
  {
    if x < 0 then -x else x
  }
}

=== FILE: create_admin_dto.dfy ===
/**
 * `CreateAdminDto`: every field optional, each checked only when present.
 */
module CreateAdminDto {
  import opened Common

  datatype CreateAdminDto = CreateAdminDto(email: Option<string>, phoneNumber: Option<string>, password: Option<string>, fullName: Option<string>)

  function Validate(d: CreateAdminDto, isEmail: string -> bool): (ok: bool)
    ensures ok && d.email.Some? ==> isEmail(d.email.value)
    ensures ok && d.phoneNumber.Some? ==> IsTenDigits(d.phoneNumber.value)
    ensures ok && d.password.Some? ==> |d.password.value| >= 8
  {
    (d.email.Some? ==> isEmail(d.email.value))
    && (d.phoneNumber.Some? ==> IsTenDigits(d.phoneNumber.value))
    && (d.password.Some? ==> |d.password.value| >= 8)
  }

  /** `fullName` carries no rule beyond its type. */
  lemma FullNameUnchecked(d: CreateAdminDto, isEmail: string -> bool)
    ensures Validate(d, isEmail) == Validate(d.(fullName := None), isEmail)
  {
  }

  /** The DTO alone requires no identifier; the controller does. */
  lemma EmptyBodyPasses(isEmail: string -> bool)
    ensures Validate(CreateAdminDto(None, None, None, None), isEmail)
  {
  }
}

=== FILE: create_user_dto.dfy ===
/**
 * `CreateUserDto`, the sign-up body, and the conditional field checks the
 * validation pipe applies to it.  A property is checked only when it is
 * present (`@IsOptional`) and its `@ValidateIf` condition holds; the e-mail
 * and ISO 8601 tests of class-validator are parameters.
 */
module CreateUserDto {
  import opened Common
  import opened UserEntity

  datatype CreateUserDto = CreateUserDto(
    fullName: Option<string>,
    phoneNumber: Option<string>,
    email: Option<string>,
    password: Option<string>,
    dateOfBirth: Option<string>,
    gender: Option<Gender>,
    authProvider: Option<AuthProvider>)

  /** `plainToInstance`: the class initialiser gives `authProvider` the value
   *  `local` when the body leaves it out. */
  function Transform(d: CreateUserDto): (t: CreateUserDto)
    ensures t.authProvider.Some?
    ensures d.authProvider.Some? ==> t == d
    ensures d.authProvider.None? ==> t == d.(authProvider := Some(Local))
  {
    if d.authProvider.Some? then d else d.(authProvider := Some(Local))
  }

  /** The phone rule runs when a phone is present and either no truthy e-mail
   *  is given or the phone itself is truthy. */
  predicate PhoneChecked(d: CreateUserDto)
  {
    d.phoneNumber.Some? && (!Truthy(d.email) || Truthy(d.phoneNumber))
  }

  predicate EmailChecked(d: CreateUserDto)
  {
    d.email.Some? && (!Truthy(d.phoneNumber) || Truthy(d.email))
  }

  predicate PasswordChecked(d: CreateUserDto)
  {
    d.password.Some? && d.authProvider != Some(Google)
  }

  function Validate(d: CreateUserDto, isEmail: string -> bool, isIso8601: string -> bool): (ok: bool)
    ensures ok && Truthy(d.phoneNumber) ==> IsTenDigits(d.phoneNumber.value)
    ensures ok && Truthy(d.email) ==> isEmail(d.email.value)
    ensures ok && d.password.Some? && d.authProvider != Some(Google) ==> |d.password.value| >= 8
    ensures ok && d.dateOfBirth.Some? ==> isIso8601(d.dateOfBirth.value)
  {
    (PhoneChecked(d) ==> IsTenDigits(d.phoneNumber.value))
    && (EmailChecked(d) ==> isEmail(d.email.value))
    && (PasswordChecked(d) ==> |d.password.value| >= 8)
    && (d.dateOfBirth.Some? ==> isIso8601(d.dateOfBirth.value))
  }

  /** A Google sign-up's password is never checked. */
  lemma GooglePasswordUnchecked(d: CreateUserDto, isEmail: string -> bool, isIso8601: string -> bool)
    requires d.authProvider == Some(Google)
    ensures Validate(d, isEmail, isIso8601) == Validate(d.(password := Some("")), isEmail, isIso8601)
  {
  }

  /** The DTO does not itself demand an identifier: a body with neither
   *  e-mail nor phone passes, and it is the service that refuses it. */
  lemma NoIdentifierPasses(isEmail: string -> bool, isIso8601: string -> bool)
    ensures Validate(CreateUserDto(None, None, None, None, None, None, Some(Local)), isEmail, isIso8601)
  {
  }

  /** An empty phone string next to a truthy e-mail escapes the phone rule,
   *  so `''` can reach the service as a phone number. */
  lemma EmptyPhoneBesideEmailPasses(e: string, isEmail: string -> bool, isIso8601: string -> bool)
    requires e != "" && isEmail(e)
    ensures Validate(CreateUserDto(None, Some(""), Some(e), None, None, None, Some(Local)), isEmail, isIso8601)
  {
  }
}

=== FILE: dashboard.dfy ===
/**
 * `Dashboard`: the admin layout's notification menu.  Every action first
 * calls the server and changes the local list only when that call
 * succeeds; a failure is logged and leaves the menu as it was.  Marking
 * one notification or deleting one also asks for the unread count again,
 * which is the separate step `FetchUnreadCount`.
 */
module Dashboard {
  import opened Common
  import opened NotificationEntity

  /** `notifications.map(n => n.id === id ? {...n, isRead: true} : n)`. */
  function MarkedRead(ns: seq<Notification>, id: nat): (r: seq<Notification>)
    ensures |r| == |ns|
  {
    if ns == [] then []
    else [if ns[0].id == id then ns[0].(isRead := true) else ns[0]] + MarkedRead(ns[1..], id)
  }

  /** `notifications.map(n => ({...n, isRead: true}))`. */
  function AllRead(ns: seq<Notification>): (r: seq<Notification>)
    ensures |r| == |ns|
  {
    if ns == [] then [] else [ns[0].(isRead := true)] + AllRead(ns[1..])
  }

  /** `notifications.filter(n => n.id !== id)`. */
  function Without(ns: seq<Notification>, id: nat): (r: seq<Notification>)
    ensures |r| <= |ns|
  {
    if ns == [] then []
    else if ns[0].id == id then Without(ns[1..], id)
    else [ns[0]] + Without(ns[1..], id)
  }

  /** How many notifications in the list are unread. */
  function UnreadIn(ns: seq<Notification>): nat
  {
    if ns == [] then 0 else (if ns[0].isRead then 0 else 1) + UnreadIn(ns[1..])
  }

  /** Marking one notification read changes only `isRead`, and only on the
   *  notifications with that id, which all end up read. */
  lemma {:induction false} MarkedReadOnlyThatId(ns: seq<Notification>, id: nat)
    ensures var r := MarkedRead(ns, id);
            forall i :: 0 <= i < |ns| ==>
              r[i].(isRead := ns[i].isRead) == ns[i]
              && (ns[i].id == id ==> r[i].isRead)
              && (ns[i].id != id ==> r[i] == ns[i])
  {
    if ns != [] {
      MarkedReadOnlyThatId(ns[1..], id);
    }
  }

  /** Marking one read never raises the unread count, and lowers it when
   *  that notification was unread. */
  lemma {:induction false} MarkedReadUnread(ns: seq<Notification>, id: nat)
    ensures UnreadIn(MarkedRead(ns, id)) <= UnreadIn(ns)
    ensures (exists i :: 0 <= i < |ns| && ns[i].id == id && !ns[i].isRead) ==> UnreadIn(MarkedRead(ns, id)) < UnreadIn(ns)
  {
    if ns != [] {
      MarkedReadUnread(ns[1..], id);
      var r := MarkedRead(ns, id);
      assert r[1..] == MarkedRead(ns[1..], id);
      if exists i :: 0 <= i < |ns| && ns[i].id == id && !ns[i].isRead {
        var i :| 0 <= i < |ns| && ns[i].id == id && !ns[i].isRead;
        if i > 0 {
          assert ns[1..][i - 1] == ns[i];
        }
      }
    }
  }

  /** After marking all, nothing is unread, as the zero the page shows says;
   *  only `isRead` changed. */
  lemma {:induction false} AllReadNoneUnread(ns: seq<Notification>)
    ensures UnreadIn(AllRead(ns)) == 0
    ensures forall i :: 0 <= i < |ns| ==> AllRead(ns)[i] == ns[i].(isRead := true)
  {
    if ns != [] {
      AllReadNoneUnread(ns[1..]);
      assert AllRead(ns)[1..] == AllRead(ns[1..]);
    }
  }

  /** Deleting removes exactly the notifications with that id and keeps the
   *  others. */
  lemma {:induction false} WithoutMembers(ns: seq<Notification>, id: nat)
    ensures forall n :: n in Without(ns, id) <==> n in ns && n.id != id
  {
    if ns != [] {
      WithoutMembers(ns[1..], id);
      assert ns == [ns[0]] + ns[1..];
    }
  }

  /** Deleting twice is deleting once, and deleting never raises the unread
   *  count. */
  lemma {:induction false} WithoutIdempotent(ns: seq<Notification>, id: nat)
    ensures Without(Without(ns, id), id) == Without(ns, id)
    ensures UnreadIn(Without(ns, id)) <= UnreadIn(ns)
  {
    if ns != [] {
      WithoutIdempotent(ns[1..], id);
    }
  }

  class Dashboard {
    var notifications: seq<Notification>
    var unreadCount: int
    var loadingNotifications: bool

    constructor ()
      ensures notifications == [] && unreadCount == 0 && !loadingNotifications
    {
      notifications := [];
      unreadCount := 0;
      loadingNotifications := false;
    }

    /** `fetchUnreadCount`: the count is replaced only by a received answer. */
    method FetchUnreadCount(response: Option<int>)
      modifies this
      ensures response.Some? ==> unreadCount == response.value
      ensures response.None? ==> unreadCount == old(unreadCount)
      ensures notifications == old(notifications) && loadingNotifications == old(loadingNotifications)
    {
      if response.Some? {
        unreadCount := response.value;
      }
    }

    /** `fetchNotifications`: the list is replaced only by a received answer;
     *  loading is over afterwards either way. */
    method FetchNotifications(response: Option<seq<Notification>>)
      modifies this
      ensures response.Some? ==> notifications == response.value
      ensures response.None? ==> notifications == old(notifications)
      ensures !loadingNotifications && unreadCount == old(unreadCount)
    {
      loadingNotifications := true;
      if response.Some? {
        notifications := response.value;
      }
      loadingNotifications := false;
    }

    /** `markNotificationAsRead`; answers whether the count is asked for
     *  again. */
    method MarkNotificationAsRead(id: nat, apiOk: bool) returns (refreshCount: bool)
      modifies this
      ensures apiOk ==> notifications == MarkedRead(old(notifications), id)
      ensures !apiOk ==> notifications == old(notifications)
      ensures refreshCount == apiOk
      ensures unreadCount == old(unreadCount) && loadingNotifications == old(loadingNotifications)
    {
      if !apiOk {
        return false;
      }
      notifications := MarkedRead(notifications, id);
      refreshCount := true;
    }

    /** `markAllAsRead`. */
    method MarkAllAsRead(apiOk: bool)
      modifies this
      ensures apiOk ==> notifications == AllRead(old(notifications)) && unreadCount == 0
      ensures !apiOk ==> notifications == old(notifications) && unreadCount == old(unreadCount)
      ensures loadingNotifications == old(loadingNotifications)
    {
      if apiOk {
        notifications := AllRead(notifications);
        unreadCount := 0;
      }
    }

    /** `deleteNotification`; answers whether the count is asked for
     *  again. */
    method DeleteNotification(id: nat, apiOk: bool) returns (refreshCount: bool)
      modifies this
      ensures apiOk ==> notifications == Without(old(notifications), id)
      ensures !apiOk ==> notifications == old(notifications)
      ensures refreshCount == apiOk
      ensures unreadCount == old(unreadCount) && loadingNotifications == old(loadingNotifications)
    {
      if !apiOk {
        return false;
      }
      notifications := Without(notifications, id);
      refreshCount := true;
    }

    /** `clearAllNotifications`. */
    method ClearAllNotifications(apiOk: bool)
      modifies this
      ensures apiOk ==> notifications == [] && unreadCount == 0
      ensures !apiOk ==> notifications == old(notifications) && unreadCount == old(unreadCount)
      ensures loadingNotifications == old(loadingNotifications)
    {
      if apiOk {
        notifications := [];
        unreadCount := 0;
      }
    }
  }
}

=== FILE: jwt.dfy ===
/**
 * JSON Web Tokens (RFC 7519) as the `@nestjs/jwt` service issues and checks
 * them, treated as uninterpreted: a token is either one this server signed,
 * carrying its payload, its issue time and its lifetime in seconds, or any
 * other string.  Signing and signature checking are not modelled; a `Signed`
 * token can only come from `Sign`.
 */
module Jwt {
  import opened Common

  /** The claims the auth service puts in every token.  `role` is the string
   *  form of the user's role (`'user'` or `'admin'`), as it travels in JSON. */
  datatype Payload = Payload(email: Option<string>, phoneNumber: Option<string>, sub: nat, role: string)

  datatype Token = Signed(payload: Payload, issuedAt: int, lifetime: nat) | Foreign(raw: string)

  /** `expiresIn: '7d'`, in seconds. */
  const RefreshLifetime: nat := 7 * 24 * 60 * 60

  /** `jwtService.sign(payload, { expiresIn })` at time `now` (seconds). */
  function Sign(p: Payload, now: int, lifetime: nat): (t: Token)
    ensures t.Signed? && t.payload == p
  {
    Signed(p, now, lifetime)
  }

  /** `jwtService.verify(token)` at time `now`: a token this server signed is
   *  accepted until its `exp` claim (`iat + lifetime`) is reached; anything
   *  else fails, which the callers turn into Unauthorized. */
  function Verify(t: Token, now: int): (r: Result<Payload>)
    ensures r.Ok? <==> t.Signed? && now < t.issuedAt + t.lifetime
    ensures r.Ok? ==> r.value == t.payload
    ensures r.Err? ==> r.error == Unauthorized
  {
    if t.Signed? && now < t.issuedAt + t.lifetime then Ok(t.payload) else Err(Unauthorized)
  }
}

=== FILE: jwt_strategy.dfy ===
/**
 * `JwtStrategy.validate`: after passport has checked a bearer token's
 * signature and expiry, the stored user is loaded by the token's `sub` and
 * the token's e-mail, phone number and role are laid over it.  The result
 * is `request.user`, which every guard and controller reads.
 */
module JwtStrategy {
  import opened Common
  import opened UserEntity
  import Jwt
  import US = UserService

  /** `request.user`: the stored row (without its password) with the
   *  token's claims spread over it. */
  datatype RequestUser = RequestUser(profile: User, email: Option<string>, phoneNumber: Option<string>, role: string)
  {
    /** `req.user.id`. */
    function Id(): nat
    {
      profile.id
    }
  }

  /** `validate(payload)`: Unauthorized when no user has the id `sub`;
   *  otherwise the stored row with the claimed e-mail, phone and role. */
  function Validate(service: US.UserService, p: Jwt.Payload): (r: Result<RequestUser>)
    reads service
    ensures r.Ok? <==> p.sub in service.users
    ensures r.Ok? ==> r.value.profile == WithoutPassword(service.users[p.sub])
    ensures r.Ok? ==> r.value.email == p.email && r.value.phoneNumber == p.phoneNumber && r.value.role == p.role
    ensures r.Err? ==> r.error == Unauthorized
  {
    match service.FindOne(p.sub)
    case Ok(u) => Ok(RequestUser(u, p.email, p.phoneNumber, p.role))
    case Err(_) => Err(Unauthorized)
  }

  /** `JwtAuthGuard`: a bearer token must be present and verify at `now`,
   *  and its user must still exist. */
  function Authenticate(service: US.UserService, bearer: Option<Jwt.Token>, now: int): (r: Result<RequestUser>)
    reads service
    ensures r.Ok? <==> bearer.Some? && Jwt.Verify(bearer.value, now).Ok? && bearer.value.payload.sub in service.users
    ensures r.Ok? ==> r.value.role == bearer.value.payload.role
    ensures r.Err? ==> r.error == Unauthorized
  {
    if bearer.None? then Err(Unauthorized)
    else match Jwt.Verify(bearer.value, now)
      case Err(e) => Err(e)
      case Ok(p) => Validate(service, p)
  }

  /** The role a request carries is the one written into its token: the
   *  stored role plays no part. */
  lemma {:induction false} RoleComesFromToken(service: US.UserService, p: Jwt.Payload, issuedAt: int, lifetime: nat, now: int)
    requires p.sub in service.users && now < issuedAt + lifetime
    ensures Authenticate(service, Some(Jwt.Signed(p, issuedAt, lifetime)), now).Ok?
    ensures Authenticate(service, Some(Jwt.Signed(p, issuedAt, lifetime)), now).value.role == p.role
  {
    assert Jwt.Verify(Jwt.Signed(p, issuedAt, lifetime), now).Ok?;
  }
}

=== FILE: login_dto.dfy ===
/**
 * `LoginDto`: an e-mail or a phone number, and a password with no length
 * rule.  Each identifier is checked only when the other one is falsy.
 */
module LoginDto {
  import opened Common

  datatype LoginDto = LoginDto(email: Option<string>, phoneNumber: Option<string>, password: string)

  function Validate(d: LoginDto, isEmail: string -> bool): (ok: bool)
    ensures ok ==> Truthy(d.email) || Truthy(d.phoneNumber)
    ensures ok ==> d.password != ""
    ensures ok && !Truthy(d.phoneNumber) ==> isEmail(d.email.value)
    ensures ok && !Truthy(d.email) ==> IsTenDigits(d.phoneNumber.value)
    ensures Truthy(d.email) && Truthy(d.phoneNumber) ==> (ok <==> d.password != "")
  {
    (!Truthy(d.phoneNumber) ==> Truthy(d.email) && isEmail(d.email.value))
    && (!Truthy(d.email) ==> Truthy(d.phoneNumber) && IsTenDigits(d.phoneNumber.value))
    && d.password != ""
  }

  /** A one-character password is acceptable at login. */
  lemma ShortPasswordAccepted(phone: string)
    requires IsTenDigits(phone)
    ensures Validate(LoginDto(None, Some(phone), "x"), _ => false)
  {
  }
}

=== FILE: login_screen.dfy ===
/**
 * `LoginScreen`: the phone-and-password form of the app.  A valid form
 * turns loading on and schedules a timer that turns it off and goes home;
 * no request is made.  The timer is modelled as the step it triggers.
 */
module LoginScreen {
  import opened Common

  datatype Errors = Errors(phoneNumber: Reason, password: Reason)

  const NoErrors := Errors(Clear, Clear)

  /** The checks of `validateInputs`: the phone is required and must be ten
   *  digits; the password is required. */
  function FormErrors(phone: string, password: string): (e: Errors)
    ensures e.phoneNumber == Clear <==> IsTenDigits(phone)
    ensures e.phoneNumber == Required <==> phone == ""
    ensures e.password == Clear <==> password != ""
    ensures e == NoErrors <==> IsTenDigits(phone) && password != ""
  {
    Errors(if phone == "" then Required else if !IsTenDigits(phone) then Malformed else Clear,
           if password == "" then Required else Clear)
  }

  /** A password of any length is accepted, one character included. */
  lemma AnyPasswordLengthAccepted(phone: string, c: char)
    requires IsTenDigits(phone)
    ensures FormErrors(phone, [c]) == NoErrors
  {
  }

  class LoginScreen {
    var phoneNumber: string
    var password: string
    var errors: Errors
    var isLoading: bool

    constructor ()
      ensures phoneNumber == "" && password == "" && errors == NoErrors && !isLoading
    {
      phoneNumber, password := "", "";
      errors := NoErrors;
      isLoading := false;
    }

    /** `validateInputs`: records the errors and answers whether both
     *  fields are clear. */
    method ValidateInputs() returns (valid: bool)
      modifies this
      ensures errors == FormErrors(phoneNumber, password)
      ensures valid <==> IsTenDigits(phoneNumber) && password != ""
      ensures phoneNumber == old(phoneNumber) && password == old(password) && isLoading == old(isLoading)
    {
      errors := FormErrors(phoneNumber, password);
      valid := errors == NoErrors;
    }

    /** `handleLogin`: only a valid form turns loading on and schedules the
     *  timer; an invalid one changes nothing but the errors. */
    method HandleLogin() returns (scheduled: bool)
      modifies this
      ensures errors == FormErrors(phoneNumber, password)
      ensures scheduled <==> IsTenDigits(phoneNumber) && password != ""
      ensures scheduled ==> isLoading
      ensures !scheduled ==> isLoading == old(isLoading)
      ensures phoneNumber == old(phoneNumber) && password == old(password)
    {
      scheduled := ValidateInputs();
      if scheduled {
        isLoading := true;
      }
    }

    /** The scheduled timer: loading ends and the app goes home with an
     *  empty name, which it returns. */
    method LoginTimerFired() returns (homeName: string)
      modifies this
      ensures !isLoading && homeName == ""
      ensures phoneNumber == old(phoneNumber) && password == old(password) && errors == old(errors)
    {
      isLoading := false;
      homeName := "";
    }
  }

  /** Navigation happens only through the timer, and the timer is set only
   *  for a valid form: starting from an idle screen, an invalid form leaves
   *  loading off and schedules nothing.  A witness of the contracts of
   *  `LoginScreen.ValidateInputs` and `LoginScreen.HandleLogin` from the
   *  state the constructor establishes. */
  method InvalidFormStaysIdle(phone: string) returns (scheduled: bool, loading: bool)
    requires !IsTenDigits(phone)
    ensures !scheduled && !loading
  {
    var screen := new LoginScreen();
    screen.phoneNumber := phone;
    screen.password := "secret";
    scheduled := screen.HandleLogin();
    loading := screen.isLoading;
  }
}

=== FILE: notification_controller.dfy ===
/**
 * `NotificationController`: the `/notifications` routes.  Creating a
 * notification is for admins; the `me` routes act on the caller's own
 * inbox; a single notification may be read, updated or deleted by its
 * owner or by a caller whose token claims the role `admin`.
 */
module NotificationController {
  import opened Common
  import opened NotificationEntity
  import opened JwtStrategy
  import NS = NotificationService
  import US = UserService
  import UC = UserController

  /** The owner-or-admin rule of `findOne`, `update` and `remove`. */
  predicate MayAccess(n: Notification, caller: RequestUser)
  {
    n.userId == caller.Id() || caller.role == "admin"
  }

  class NotificationController {
    const inbox: NS.NotificationService
    const users: US.UserService

    constructor (inbox: NS.NotificationService, users: US.UserService)
      ensures this.inbox == inbox && this.users == users
    {
      this.inbox := inbox;
      this.users := users;
    }

    /** `POST /notifications`, behind `JwtAuthGuard` and `AdminGuard`: a
     *  request without a verified token is Unauthorized, one whose token
     *  does not claim the role `admin` is Forbidden, and the addressee must
     *  exist. */
    method Create(dto: NS.CreateNotificationDto, caller: Option<RequestUser>) returns (r: Result<Notification>)
      requires inbox.Valid()
      modifies inbox
      ensures inbox.Valid()
      ensures caller.None? ==> r == Err(Unauthorized) && inbox.rows == old(inbox.rows)
      ensures caller.Some? && caller.value.role != "admin" ==> r == Err(Forbidden) && inbox.rows == old(inbox.rows)
      ensures caller.Some? && caller.value.role == "admin" && dto.userId !in users.users ==>
        r == Err(NotFound) && inbox.rows == old(inbox.rows)
      ensures caller.Some? && caller.value.role == "admin" && dto.userId in users.users ==>
        r.Ok? && inbox.rows == old(inbox.rows) + [r.value] && r.value.userId == dto.userId
    {
      var guards := [UC.JwtAuth, UC.AdminOnly];
      assert guards[1..] == [UC.AdminOnly];
      var allowed := UC.RunGuards(guards, caller);
      if caller.Some? {
        assert allowed == UC.RunGuards([UC.AdminOnly], caller);
      }
      if allowed.Err? {
        return Err(allowed.error);
      }
      r := inbox.Create(dto, users.users.Keys);
    }

    /** `GET /notifications/me`: exactly the caller's notifications. */
    function FindMine(caller: RequestUser): (r: seq<Notification>)
      reads inbox
      requires inbox.Valid()
      ensures forall t :: t in r <==> t in inbox.rows && t.userId == caller.Id()
      ensures NS.NewestFirst(r)
    {
      inbox.FindAllForUser(caller.Id())
    }

    /** `GET /notifications/me/unread-count`. */
    function CountMyUnread(caller: RequestUser): (n: nat)
      reads inbox
      ensures n == 0 <==> forall i :: 0 <= i < |inbox.rows| && inbox.rows[i].userId == caller.Id() ==> inbox.rows[i].isRead
    {
      inbox.CountUnreadForUser(caller.Id())
    }

    /** `PATCH /notifications/me/mark-all-read`: nobody else's rows change. */
    method MarkAllMineRead(caller: RequestUser)
      requires inbox.Valid()
      modifies inbox
      ensures inbox.Valid() && |inbox.rows| == |old(inbox.rows)|
      ensures forall i :: 0 <= i < |inbox.rows| && old(inbox.rows)[i].userId != caller.Id() ==> inbox.rows[i] == old(inbox.rows)[i]
      ensures CountMyUnread(caller) == 0
    {
      inbox.MarkAllAsRead(caller.Id());
    }

    /** `DELETE /notifications/me`: only the caller's rows go. */
    method RemoveAllMine(caller: RequestUser)
      requires inbox.Valid()
      modifies inbox
      ensures inbox.Valid()
      ensures forall t :: t in inbox.rows <==> t in old(inbox.rows) && t.userId != caller.Id()
    {
      inbox.RemoveAllForUser(caller.Id());
    }

    /** `GET /notifications/:id`: a bad id is BadRequest, a missing row
     *  NotFound, and only then is ownership checked. */
    function FindOne(id: string, caller: RequestUser): (r: Result<Notification>)
      reads inbox
      ensures ParseIntPipe(id).Err? ==> r == Err(BadRequest)
      ensures r.Ok? ==> r.value in inbox.rows && MayAccess(r.value, caller) && ParseIntPipe(id) == Ok(r.value.id)
      ensures ParseIntPipe(id).Ok? && ParseIntPipe(id).value >= 0 ==>
        var found := inbox.FindOne(ParseIntPipe(id).value);
        r == if found.Err? then Err(NotFound) else if MayAccess(found.value, caller) then found else Err(Forbidden)
    {
      match ParseIntPipe(id)
      case Err(e) => Err(e)
      case Ok(k) =>
        if k < 0 then Err(NotFound)
        else match inbox.FindOne(k)
          case Err(e) => Err(e)
          case Ok(n) => if MayAccess(n, caller) then Ok(n) else Err(Forbidden)
    }

    /** `PATCH /notifications/:id`: the same checks, then `update`. */
    method Update(id: string, dto: NS.UpdateNotificationDto, caller: RequestUser) returns (r: Result<Notification>)
      requires inbox.Valid()
      modifies inbox
      ensures inbox.Valid()
      ensures old(FindOne(id, caller)).Err? ==> r == old(FindOne(id, caller)) && inbox.rows == old(inbox.rows)
      ensures old(FindOne(id, caller)).Ok? ==>
        var k := NS.IndexOfId(old(inbox.rows), old(FindOne(id, caller)).value.id).value;
        var was := old(inbox.rows)[k];
        inbox.rows == old(inbox.rows)[k := was.(isRead := if dto.isRead.Some? then dto.isRead.value else was.isRead)]
        && r == Ok(inbox.rows[k])
    {
      var found := FindOne(id, caller);
      if found.Err? {
        return found;
      }
      r := inbox.Update(found.value.id, dto);
    }

    /** `DELETE /notifications/:id`: the same checks, then `remove`. */
    method Remove(id: string, caller: RequestUser) returns (r: Result<()>)
      requires inbox.Valid()
      modifies inbox
      ensures inbox.Valid()
      ensures old(FindOne(id, caller)).Err? ==> r == Err(old(FindOne(id, caller)).error) && inbox.rows == old(inbox.rows)
      ensures old(FindOne(id, caller)).Ok? ==>
        r == Ok(()) && forall t :: t in inbox.rows <==> t in old(inbox.rows) && t.id != old(FindOne(id, caller)).value.id
    {
      var found := FindOne(id, caller);
      if found.Err? {
        return Err(found.error);
      }
      r := inbox.Remove(found.value.id);
    }

    /** A caller whose token does not claim `admin` can neither see, change
     *  nor delete a notification addressed to someone else; an admin can. */
    lemma OnlyOwnerOrAdmin(id: string, caller: RequestUser)
      requires ParseIntPipe(id).Ok? && ParseIntPipe(id).value >= 0
      requires inbox.FindOne(ParseIntPipe(id).value).Ok?
      ensures var n := inbox.FindOne(ParseIntPipe(id).value).value;
              FindOne(id, caller).Ok? <==> n.userId == caller.Id() || caller.role == "admin"
      ensures var n := inbox.FindOne(ParseIntPipe(id).value).value;
              FindOne(id, caller).Err? ==> FindOne(id, caller).error == Forbidden
    {
    }
  }
}

=== FILE: notification_entity.dfy ===
/**
 * The `notifications` table.
 */
module NotificationEntity {

  datatype NotificationType = System | Coin | User | Announcement

  /** A row of `notifications`; `kind` is the `type` column and `createdAt`
   *  the insertion time (a counter that grows with every insert). */
  datatype Notification = Notification(
    id: nat,
    userId: nat,
    title: string,
    content: string,
    kind: NotificationType,
    isRead: bool,
    createdAt: nat)

  const DefaultType: NotificationType := System
  const DefaultIsRead: bool := false
}

=== FILE: notification_service.dfy ===
/**
 * `NotificationService`: the per-user notification inbox over the
 * `notifications` table.  The table is a sequence of rows in insertion
 * order; ids and creation times come from counters that only grow.
 */
module NotificationService {
  import opened Common
  import opened NotificationEntity

  datatype CreateNotificationDto = CreateNotificationDto(userId: nat, title: string, content: string, kind: Option<NotificationType>)

  /** `isRead` is the only field an update may carry. */
  datatype UpdateNotificationDto = UpdateNotificationDto(isRead: Option<bool>)

  /** Rows in insertion order: ids and creation times strictly increase. */
  ghost predicate InsertionOrdered(rows: seq<Notification>)
  {
    forall i, j :: 0 <= i < j < |rows| ==> rows[i].id < rows[j].id && rows[i].createdAt < rows[j].createdAt
  }

  /** `ORDER BY createdAt DESC`. */
  predicate NewestFirst(s: seq<Notification>)
  {
    forall i, j :: 0 <= i < j < |s| ==> s[i].createdAt > s[j].createdAt
  }

  /** `WHERE user_id = u`, in table order. */
  function OfUser(rows: seq<Notification>, u: nat): (r: seq<Notification>)
    ensures |r| <= |rows|
    ensures forall t :: t in r ==> t in rows && t.userId == u
    ensures forall t :: t in rows && t.userId == u ==> t in r
  {
    if rows == [] then []
    else OfUser(rows[..|rows| - 1], u) + (if rows[|rows| - 1].userId == u then [rows[|rows| - 1]] else [])
  }

  /** `WHERE user_id <> u`: what deleting `u`'s notifications keeps. */
  function NotOfUser(rows: seq<Notification>, u: nat): (r: seq<Notification>)
    ensures |r| <= |rows|
    ensures forall t :: t in r <==> t in rows && t.userId != u
  {
    if rows == [] then []
    else NotOfUser(rows[..|rows| - 1], u) + (if rows[|rows| - 1].userId != u then [rows[|rows| - 1]] else [])
  }

  /** `COUNT(*) WHERE user_id = u AND is_read = false`. */
  function CountUnread(rows: seq<Notification>, u: nat): (n: nat)
    ensures n <= |rows|
    ensures n == 0 <==> forall i :: 0 <= i < |rows| && rows[i].userId == u ==> rows[i].isRead
  {
    if rows == [] then 0
    else CountUnread(rows[..|rows| - 1], u) + (if rows[|rows| - 1].userId == u && !rows[|rows| - 1].isRead then 1 else 0)
  }

  /** The position of the row with primary key `id`. */
  function IndexOfId(rows: seq<Notification>, id: nat): (r: Option<nat>)
    ensures r.Some? ==> r.value < |rows| && rows[r.value].id == id
    ensures r.None? ==> forall i :: 0 <= i < |rows| ==> rows[i].id != id
  {
    if rows == [] then None
    else if rows[|rows| - 1].id == id then Some(|rows| - 1)
    else IndexOfId(rows[..|rows| - 1], id)
  }

  /** Rows in insertion order: all but the last are in order and older
   *  than the last. */
  lemma InsertionSplit(rows: seq<Notification>)
    requires rows != [] && InsertionOrdered(rows)
    ensures InsertionOrdered(rows[..|rows| - 1])
    ensures forall t :: t in rows[..|rows| - 1] ==> t.id < rows[|rows| - 1].id && t.createdAt < rows[|rows| - 1].createdAt
  {
    var front := rows[..|rows| - 1];
    forall t | t in front ensures t.id < rows[|rows| - 1].id && t.createdAt < rows[|rows| - 1].createdAt {
      var k :| 0 <= k < |front| && front[k] == t;
      assert rows[k] == t;
    }
  }

  /** A row newer than every row of an ordered list extends it in order. */
  lemma InsertionExtend(rows: seq<Notification>, t: Notification)
    requires InsertionOrdered(rows)
    requires forall x :: x in rows ==> x.id < t.id && x.createdAt < t.createdAt
    ensures InsertionOrdered(rows + [t])
  {
    var out := rows + [t];
    forall i, j | 0 <= i < j < |out| ensures out[i].id < out[j].id && out[i].createdAt < out[j].createdAt {
      assert out[i] == rows[i];
      if j < |rows| {
        assert out[j] == rows[j];
      }
    }
  }

  /** Keeping a subsequence of the rows keeps them in insertion order. */
  lemma {:induction false} OfUserOrdered(rows: seq<Notification>, u: nat)
    requires InsertionOrdered(rows)
    ensures InsertionOrdered(OfUser(rows, u))
  {
    if rows != [] {
      var front, last := rows[..|rows| - 1], rows[|rows| - 1];
      assert rows == front + [last];
      InsertionSplit(rows);
      OfUserOrdered(front, u);
      if last.userId == u {
        InsertionExtend(OfUser(front, u), last);
      }
    }
  }

  /** Rows stored in insertion order come out newest first once reversed. */
  lemma ReversedIsNewestFirst(s: seq<Notification>)
    requires InsertionOrdered(s)
    ensures NewestFirst(Reverse(s))
  {
    var r := Reverse(s);
    forall i, j | 0 <= i < j < |r| ensures r[i].createdAt > r[j].createdAt {
      assert r[i] == s[|s| - 1 - i] && r[j] == s[|s| - 1 - j];
    }
  }

  /** Title and content of a notification. */
  datatype Message = Message(title: string, content: string)

  /** The wording for `amount` coins added, with the admin's note. */
  function ReceivedMessage(amount: nat, note: string): Message
  {
    Message("Bạn đã nhận được " + NatToString(amount) + " coin",
            "Admin đã thêm " + NatToString(amount) + " coin vào tài khoản của bạn. Ghi chú: " + note)
  }

  /** The wording for `amount` coins deducted, with the admin's note. */
  function DeductedMessage(amount: nat, note: string): Message
  {
    Message(NatToString(amount) + " coin đã bị trừ từ tài khoản của bạn",
            "Admin đã trừ " + NatToString(amount) + " coin từ tài khoản của bạn. Ghi chú: " + note)
  }

  /** `createCoinNotification`'s choice of wording: only a strictly positive
   *  amount reads as received; zero and negative amounts read as deducted,
   *  with the absolute value. */
  function CoinMessage(amount: int, note: string): (m: Message)
    ensures amount > 0 ==> m == ReceivedMessage(amount, note)
    ensures amount <= 0 ==> m == DeductedMessage(Abs(amount), note)
  {
    if amount > 0 then ReceivedMessage(amount, note) else DeductedMessage(Abs(amount), note)
  }

  /** The two wordings can always be told apart by their titles: a received
   *  title starts with a letter, a deducted one with a digit. */
  lemma WordingsDiffer(a: nat, b: nat, note1: string, note2: string)
    ensures ReceivedMessage(a, note1).title != DeductedMessage(b, note2).title
  {
    var d := DeductedMessage(b, note2).title;
    assert d[0] == NatToString(b)[0];
    assert IsDigit(d[0]);
  }

  /** A zero adjustment is announced as a deduction of 0 coins. */
  lemma ZeroAmountReadsAsDeduction(note: string)
    ensures CoinMessage(0, note).title != ReceivedMessage(0, note).title
  {
    WordingsDiffer(0, 0, note, note);
  }

  class NotificationService {
    var rows: seq<Notification>
    var nextId: nat
    var clock: nat

    ghost predicate Valid()
      reads this
    {
      InsertionOrdered(rows)
      && forall i :: 0 <= i < |rows| ==> rows[i].id < nextId && rows[i].createdAt < clock
    }

    constructor ()
      ensures Valid() && rows == []
    {
      rows := [];
      nextId := 1;
      clock := 0;
    }

    /** Saves a new row with the next id and the current time. */
    method Insert(userId: nat, title: string, content: string, kind: NotificationType) returns (n: Notification)
      requires Valid()
      modifies this
      ensures Valid()
      ensures n == Notification(old(nextId), userId, title, content, kind, false, old(clock))
      ensures rows == old(rows) + [n]
    {
      n := Notification(nextId, userId, title, content, kind, false, clock);
      rows := rows + [n];
      nextId := nextId + 1;
      clock := clock + 1;
    }

    /** `create`: the user must exist (`userIds` are the ids in `users`);
     *  the row starts unread and its type defaults to `system`. */
    method Create(dto: CreateNotificationDto, userIds: set<nat>) returns (r: Result<Notification>)
      requires Valid()
      modifies this
      ensures Valid()
      ensures dto.userId !in userIds ==> r == Err(NotFound) && rows == old(rows)
      ensures dto.userId in userIds ==> r.Ok? && rows == old(rows) + [r.value]
      ensures r.Ok? ==> r.value.userId == dto.userId && r.value.title == dto.title && r.value.content == dto.content
                        && !r.value.isRead && r.value.kind == (if dto.kind.Some? then dto.kind.value else System)
    {
      if dto.userId !in userIds {
        return Err(NotFound);
      }
      var n := Insert(dto.userId, dto.title, dto.content, if dto.kind.Some? then dto.kind.value else DefaultType);
      r := Ok(n);
    }

    /** `createCoinNotification`: an unread `coin` notification whose wording
     *  follows the sign of `amount`.  The user is not looked up. */
    method CreateCoinNotification(userId: nat, amount: int, note: string) returns (n: Notification)
      requires Valid()
      modifies this
      ensures Valid()
      ensures rows == old(rows) + [n]
      ensures n.userId == userId && n.kind == Coin && !n.isRead
      ensures Message(n.title, n.content) == CoinMessage(amount, note)
    {
      var m := CoinMessage(amount, note);
      n := Insert(userId, m.title, m.content, Coin);
    }

    /** `findAllForUser`: exactly that user's notifications, newest first. */
    function FindAllForUser(u: nat): (r: seq<Notification>)
      reads this
      requires Valid()
      ensures forall t :: t in r ==> t in rows && t.userId == u
      ensures forall t :: t in rows && t.userId == u ==> t in r
      ensures NewestFirst(r)
    {
      OfUserOrdered(rows, u);
      ReversedIsNewestFirst(OfUser(rows, u));
      ReverseMembers(OfUser(rows, u));
      Reverse(OfUser(rows, u))
    }

    /** `countUnreadForUser`. */
    function CountUnreadForUser(u: nat): (n: nat)
      reads this
      ensures n == 0 <==> forall i :: 0 <= i < |rows| && rows[i].userId == u ==> rows[i].isRead
    {
      CountUnread(rows, u)
    }

    /** `findOne`. */
    function FindOne(id: nat): (r: Result<Notification>)
      reads this
      ensures r.Ok? ==> r.value in rows && r.value.id == id
      ensures r.Err? ==> r.error == NotFound && forall i :: 0 <= i < |rows| ==> rows[i].id != id
    {
      match IndexOfId(rows, id)
      case None => Err(NotFound)
      case Some(k) => Ok(rows[k])
    }

    /** `update`: only `isRead` can change, and only when it is supplied. */
    method Update(id: nat, dto: UpdateNotificationDto) returns (r: Result<Notification>)
      requires Valid()
      modifies this
      ensures Valid() && nextId == old(nextId) && clock == old(clock)
      ensures old(FindOne(id)).Err? ==> r == Err(NotFound) && rows == old(rows)
      ensures old(FindOne(id)).Ok? ==>
        var k := IndexOfId(old(rows), id).value;
        rows == old(rows)[k := old(rows)[k].(isRead := if dto.isRead.Some? then dto.isRead.value else old(rows)[k].isRead)]
        && r == Ok(rows[k])
    {
      var k := IndexOfId(rows, id);
      if k.None? {
        return Err(NotFound);
      }
      var n := rows[k.value];
      if dto.isRead.Some? {
        n := n.(isRead := dto.isRead.value);
      }
      rows := rows[k.value := n];
      r := Ok(n);
    }

    /** `markAllAsRead`: the user's unread rows become read; no other row
     *  changes, and the user has nothing unread afterwards. */
    method MarkAllAsRead(u: nat)
      requires Valid()
      modifies this
      ensures Valid() && nextId == old(nextId) && clock == old(clock)
      ensures |rows| == |old(rows)|
      ensures forall i :: 0 <= i < |rows| ==>
        rows[i] == if old(rows)[i].userId == u then old(rows)[i].(isRead := true) else old(rows)[i]
      ensures CountUnreadForUser(u) == 0
    {
      var done: seq<Notification> := [];
      var i := 0;
      while i < |rows|
        invariant 0 <= i <= |rows| && |done| == i
        invariant forall j :: 0 <= j < i ==>
          done[j] == if rows[j].userId == u then rows[j].(isRead := true) else rows[j]
      {
        var n := rows[i];
        done := done + [if n.userId == u && !n.isRead then n.(isRead := true) else n];
        i := i + 1;
      }
      rows := done;
    }

    /** `remove`: deleting a missing id is NotFound. */
    method Remove(id: nat) returns (r: Result<()>)
      requires Valid()
      modifies this
      ensures Valid() && nextId == old(nextId) && clock == old(clock)
      ensures old(FindOne(id)).Err? ==> r == Err(NotFound) && rows == old(rows)
      ensures old(FindOne(id)).Ok? ==> r == Ok(()) && forall t :: t in rows <==> t in old(rows) && t.id != id
    {
      var k := IndexOfId(rows, id);
      if k.None? {
        return Err(NotFound);
      }
      var i := k.value;
      RemoveAtKeeps(rows, i);
      rows := rows[..i] + rows[i + 1..];
      r := Ok(());
    }

    /** `removeAllForUser`: deletes exactly that user's notifications. */
    method RemoveAllForUser(u: nat)
      requires Valid()
      modifies this
      ensures Valid() && nextId == old(nextId) && clock == old(clock)
      ensures rows == NotOfUser(old(rows), u)
      ensures FindAllForUser(u) == []
    {
      RemovalKeepsValid(rows, u, nextId, clock);
      rows := NotOfUser(rows, u);
    }
  }

  /** What deleting a user's rows leaves is a valid table without that
   *  user's rows. */
  lemma RemovalKeepsValid(rows: seq<Notification>, u: nat, nextId: nat, clock: int)
    requires InsertionOrdered(rows)
    requires forall i :: 0 <= i < |rows| ==> rows[i].id < nextId && rows[i].createdAt < clock
    ensures InsertionOrdered(NotOfUser(rows, u)) && OfUser(NotOfUser(rows, u), u) == []
    ensures forall i :: 0 <= i < |NotOfUser(rows, u)| ==> NotOfUser(rows, u)[i].id < nextId && NotOfUser(rows, u)[i].createdAt < clock
  {
    NotOfUserOrdered(rows, u);
    NotOfUserHasNone(rows, u);
    NotOfUserBounded(rows, u, nextId, clock);
  }

  /** Deleting rows keeps every remaining id and creation time below the
   *  bounds the whole table was below. */
  lemma NotOfUserBounded(rows: seq<Notification>, u: nat, nextId: nat, clock: int)
    requires forall i :: 0 <= i < |rows| ==> rows[i].id < nextId && rows[i].createdAt < clock
    ensures var r := NotOfUser(rows, u);
            forall i :: 0 <= i < |r| ==> r[i].id < nextId && r[i].createdAt < clock
  {
    var r := NotOfUser(rows, u);
    forall i | 0 <= i < |r|
      ensures r[i].id < nextId && r[i].createdAt < clock
    {
      assert r[i] in r;
      var k :| 0 <= k < |rows| && rows[k] == r[i];
    }
  }

  /** Deleting the row at position `i` keeps the other rows, in order. */
  lemma RemoveAtKeeps(rows: seq<Notification>, i: nat)
    requires i < |rows| && InsertionOrdered(rows)
    ensures InsertionOrdered(rows[..i] + rows[i + 1..])
    ensures forall t :: t in rows[..i] + rows[i + 1..] <==> t in rows && t.id != rows[i].id
  {
    var r := rows[..i] + rows[i + 1..];
    assert forall j :: 0 <= j < |r| ==> r[j] == rows[if j < i then j else j + 1];
    forall t | t in rows ensures t in r <==> t.id != rows[i].id {
      var j :| 0 <= j < |rows| && rows[j] == t;
      if j < i {
        assert r[j] == t;
      } else if j > i {
        assert r[j - 1] == t;
      }
    }
  }

  /** After the delete, the user has no notification left. */
  lemma NotOfUserHasNone(rows: seq<Notification>, u: nat)
    ensures OfUser(NotOfUser(rows, u), u) == []
  {
    var kept := NotOfUser(rows, u);
    assert forall i :: 0 <= i < |kept| ==> kept[i] in kept;
    NoneOfUser(kept, u);
  }

  lemma {:induction false} NoneOfUser(s: seq<Notification>, u: nat)
    requires forall i :: 0 <= i < |s| ==> s[i].userId != u
    ensures OfUser(s, u) == []
  {
    if s != [] {
      NoneOfUser(s[..|s| - 1], u);
    }
  }

  lemma {:induction false} NotOfUserOrdered(rows: seq<Notification>, u: nat)
    requires InsertionOrdered(rows)
    ensures InsertionOrdered(NotOfUser(rows, u))
  {
    if rows != [] {
      var front, last := rows[..|rows| - 1], rows[|rows| - 1];
      assert rows == front + [last];
      InsertionSplit(rows);
      NotOfUserOrdered(front, u);
      if last.userId != u {
        InsertionExtend(NotOfUser(front, u), last);
      }
    }
  }
}

=== FILE: register_screen.dfy ===
/**
 * `RegisterScreen`: the sign-up form of the app.  It checks the phone
 * number, the password and its confirmation, and only then posts the
 * sign-up body to `/auth/signup`: the generated display name, the phone,
 * the password and the `local` provider.  The name generator is random and
 * its result is a parameter; storing the returned tokens is left out.
 */
module RegisterScreen {
  import opened Common
  import opened UserEntity
  import CreateUserDto

  /** The shortest password the form itself accepts. */
  const FormMinPassword := 6

  /** The shortest password the server's sign-up body accepts. */
  const ServerMinPassword := 8

  datatype Errors = Errors(phoneNumber: Reason, password: Reason, confirmPassword: Reason)

  const NoErrors := Errors(Clear, Clear, Clear)

  /** The three checks of `validateInputs`, with the password's minimum
   *  length as a parameter: a phone is required and must be ten digits, a
   *  password is required and must be long enough, and the confirmation is
   *  required and must equal the password. */
  function FormErrors(phone: string, password: string, confirm: string, minLength: nat): (e: Errors)
    ensures e.phoneNumber == Clear <==> IsTenDigits(phone)
    ensures e.password == Clear <==> password != "" && |password| >= minLength
    ensures e.confirmPassword == Clear <==> confirm != "" && confirm == password
    ensures e.phoneNumber == Required <==> phone == ""
    ensures e.password == Required <==> password == ""
    ensures e.confirmPassword == Required <==> confirm == ""
  {
    Errors(if phone == "" then Required else if !IsTenDigits(phone) then Malformed else Clear,
           if password == "" then Required else if |password| < minLength then TooShort else Clear,
           if confirm == "" then Required else if password != confirm then Mismatch else Clear)
  }

  /** The form as written passes exactly when the phone has ten digits, the
   *  password has at least six characters and the confirmation repeats it. */
  lemma FormPassesIff(phone: string, password: string, confirm: string)
    ensures FormErrors(phone, password, confirm, FormMinPassword) == NoErrors
            <==> IsTenDigits(phone) && |password| >= FormMinPassword && confirm == password
  {
  }

  /** The body `handleRegister` posts. */
  function SignupBody(funnyName: string, phone: string, password: string): (d: CreateUserDto.CreateUserDto)
    ensures d.authProvider == Some(Local) && d.email.None?
    ensures d.fullName == Some(funnyName) && d.phoneNumber == Some(phone) && d.password == Some(password)
  {
    CreateUserDto.CreateUserDto(Some(funnyName), Some(phone), None, Some(password), None, None, Some(Local))
  }

  /** The form as written lets a six-character password through, and the
   *  server's validation then refuses the body it sends. */
  lemma ShortPasswordPassesForm(funnyName: string, isEmail: string -> bool, isIso8601: string -> bool)
    ensures FormErrors("0123456789", "123456", "123456", FormMinPassword) == NoErrors
    ensures !CreateUserDto.Validate(SignupBody(funnyName, "0123456789", "123456"), isEmail, isIso8601)
  {
    assert IsTenDigits("0123456789");
  }

  /** The check as evidently intended: the same rules with the server's
   *  minimum. */
  function IntendedFormErrors(phone: string, password: string, confirm: string): (e: Errors)
    ensures e == NoErrors <==> IsTenDigits(phone) && |password| >= ServerMinPassword && confirm == password
  {
    FormErrors(phone, password, confirm, ServerMinPassword)
  }

  /** Every body the intended check lets through passes the server's
   *  validation, whatever its e-mail and date tests are. */
  lemma IntendedFormAcceptedByServer(funnyName: string, phone: string, password: string, confirm: string,
                                     isEmail: string -> bool, isIso8601: string -> bool)
    requires IntendedFormErrors(phone, password, confirm) == NoErrors
    ensures CreateUserDto.Validate(SignupBody(funnyName, phone, password), isEmail, isIso8601)
  {
  }

  class RegisterScreen {
    var phoneNumber: string
    var password: string
    var confirmPassword: string
    var funnyName: string
    var errors: Errors
    var isLoading: bool

    /** The form as it mounts; the name is the generator's pick. */
    constructor (generatedName: string)
      ensures phoneNumber == "" && password == "" && confirmPassword == ""
      ensures funnyName == generatedName && errors == NoErrors && !isLoading
    {
      phoneNumber, password, confirmPassword := "", "", "";
      funnyName := generatedName;
      errors := NoErrors;
      isLoading := false;
    }

    /** `validateInputs`: records the errors and answers whether there are
     *  none. */
    method ValidateInputs() returns (valid: bool)
      modifies this
      ensures errors == FormErrors(phoneNumber, password, confirmPassword, FormMinPassword)
      ensures valid <==> IsTenDigits(phoneNumber) && |password| >= FormMinPassword && confirmPassword == password
      ensures phoneNumber == old(phoneNumber) && password == old(password) && confirmPassword == old(confirmPassword)
      ensures funnyName == old(funnyName) && isLoading == old(isLoading)
    {
      errors := FormErrors(phoneNumber, password, confirmPassword, FormMinPassword);
      FormPassesIff(phoneNumber, password, confirmPassword);
      valid := errors == NoErrors;
    }

    /** `handleRegister`: a valid form posts the sign-up body; `apiOk` is
     *  the server's answer, and only a success leads home.  Loading is
     *  over afterwards either way. */
    method HandleRegister(apiOk: bool) returns (sent: Option<CreateUserDto.CreateUserDto>, registered: bool)
      modifies this
      ensures errors == FormErrors(phoneNumber, password, confirmPassword, FormMinPassword)
      ensures sent.Some? <==> errors == NoErrors
      ensures sent.Some? ==> sent.value == SignupBody(funnyName, phoneNumber, password)
      ensures registered <==> sent.Some? && apiOk
      ensures sent.None? ==> isLoading == old(isLoading)
      ensures sent.Some? ==> !isLoading
      ensures phoneNumber == old(phoneNumber) && password == old(password) && confirmPassword == old(confirmPassword)
      ensures funnyName == old(funnyName)
    {
      var valid := ValidateInputs();
      if !valid {
        return None, false;
      }
      isLoading := true;
      sent := Some(SignupBody(funnyName, phoneNumber, password));
      registered := apiOk;
      isLoading := false;
    }
  }
}

=== FILE: reset_password_dto.dfy ===
/**
 * `ResetPasswordDto`: an e-mail or a phone number, and the new password.
 * Each identifier is checked only when the other one is falsy.
 */
module ResetPasswordDto {
  import opened Common

  datatype ResetPasswordDto = ResetPasswordDto(email: Option<string>, phoneNumber: Option<string>, newPassword: string)

  /** `@ValidateIf(o => !o.phoneNumber) @IsEmail() @IsNotEmpty()` on the
   *  e-mail, the mirror image on the phone, and `@MinLength(8)` on the new
   *  password. */
  function Validate(d: ResetPasswordDto, isEmail: string -> bool): (ok: bool)
    ensures ok ==> Truthy(d.email) || Truthy(d.phoneNumber)
    ensures ok ==> |d.newPassword| >= 8
    ensures ok && !Truthy(d.phoneNumber) ==> isEmail(d.email.value)
    ensures ok && !Truthy(d.email) ==> IsTenDigits(d.phoneNumber.value)
    ensures Truthy(d.email) && Truthy(d.phoneNumber) ==> (ok <==> |d.newPassword| >= 8)
  {
    (!Truthy(d.phoneNumber) ==> Truthy(d.email) && isEmail(d.email.value))
    && (!Truthy(d.email) ==> Truthy(d.phoneNumber) && IsTenDigits(d.phoneNumber.value))
    && |d.newPassword| >= 8
  }

  /** With both identifiers present neither is format-checked: a malformed
   *  phone number passes next to a malformed e-mail. */
  lemma BothPresentSkipsFormats(isEmail: string -> bool)
    requires !isEmail("x")
    ensures Validate(ResetPasswordDto(Some("x"), Some("1"), "12345678"), isEmail)
  {
  }
}

=== FILE: settings_screen.dfy ===
/**
 * `SettingsScreen`: the profile form of the app.  Validation checks the
 * name, the e-mail (present, well formed, and only with a phone number on
 * the account), the address and, when the password is being changed, the
 * three password fields; it also pulls a future date of birth back to the
 * present.  Saving sends only what differs from the copy of the user kept
 * in storage.  Fields the server sent as `null` are `None`; calling
 * `trim()` on one of them throws.
 */
module SettingsScreen {
  import opened Common
  import opened ApiService

  /** A JavaScript `Date`: its time value and the day `toISOString()`
   *  starts with. */
  datatype Date = Date(time: int, isoDay: string)

  datatype Profile = Profile(id: nat, fullName: Option<string>, phoneNumber: Option<string>, email: Option<string>,
                             dateOfBirth: Option<Date>, gender: Option<string>, avatar: Option<string>,
                             address: Option<string>, coinBalance: int)

  datatype Errors = Errors(fullName: Reason, email: Reason, address: Reason,
                           oldPassword: Reason, newPassword: Reason, confirmNewPassword: Reason)

  const NoErrors := Errors(Clear, Clear, Clear, Clear, Clear, Clear)

  /** A part of an address: non-empty, without whitespace or `@`. */
  ghost predicate EmailPart(s: string)
  {
    |s| > 0 && forall k :: 0 <= k < |s| ==> s[k] != '@' && !IsJsWhitespace(s[k])
  }

  /** `/^[^\s@]+@[^\s@]+\.[^\s@]+$/`, as the pattern reads: a part, `@`, a
   *  part, a dot, a part. */
  ghost predicate EmailPattern(s: string)
  {
    exists i, j :: 0 <= i < j < |s| && s[i] == '@' && s[j] == '.'
                   && EmailPart(s[..i]) && EmailPart(s[i + 1..j]) && EmailPart(s[j + 1..])
  }

  /** The position of the first `@`. */
  function FirstAt(s: string): (r: Option<nat>)
    ensures r.Some? ==> r.value < |s| && s[r.value] == '@' && '@' !in s[..r.value]
    ensures r.None? ==> '@' !in s
  {
    if s == [] then None
    else if s[0] == '@' then Some(0)
    else match FirstAt(s[1..])
      case None => None
      case Some(i) => assert s[..i + 1] == [s[0]] + s[1..][..i]; Some(i + 1)
  }

  /** No whitespace and no `@`. */
  predicate Clean(s: string)
  {
    s == [] || (s[0] != '@' && !IsJsWhitespace(s[0]) && Clean(s[1..]))
  }

  lemma {:induction false} CleanIff(s: string)
    ensures Clean(s) <==> forall k :: 0 <= k < |s| ==> s[k] != '@' && !IsJsWhitespace(s[k])
  {
    if s != [] {
      CleanIff(s[1..]);
      assert forall k :: 1 <= k < |s| ==> s[k] == s[1..][k - 1];
    }
  }

  /** The matcher: everything before the first `@` is a non-empty clean
   *  part, and everything after it is clean with a dot that is neither its
   *  first nor its last character. */
  predicate IsValidEmail(s: string)
  {
    var at := FirstAt(s);
    at.Some? && at.value > 0 && Clean(s[..at.value])
    && var rest := s[at.value + 1..];
       Clean(rest) && |rest| >= 3 && '.' in rest[1..|rest| - 1]
  }

  /** Every string the matcher accepts matches the pattern. */
  lemma MatcherImpliesPattern(s: string)
    requires IsValidEmail(s)
    ensures EmailPattern(s)
  {
    var i := FirstAt(s).value;
    var rest := s[i + 1..];
    CleanIff(s[..i]);
    CleanIff(rest);
    var m :| 0 <= m < |rest[1..|rest| - 1]| && rest[1..|rest| - 1][m] == '.';
    var j := i + 2 + m;
    assert s[j] == rest[m + 1];
    assert s[i + 1..j] == rest[..m + 1];
    assert s[j + 1..] == rest[m + 2..];
    assert EmailPart(s[..i]) && EmailPart(s[i + 1..j]) && EmailPart(s[j + 1..]);
  }

  lemma PartIsClean(x: string)
    requires EmailPart(x)
    ensures Clean(x) && x != []
  {
    CleanIff(x);
  }

  lemma {:induction false} CleanConcat(a: string, b: string)
    requires Clean(a) && Clean(b)
    ensures Clean(a + b)
  {
    if a != [] {
      assert (a + b)[0] == a[0] && (a + b)[1..] == a[1..] + b;
      CleanConcat(a[1..], b);
    } else {
      assert a + b == b;
    }
  }

  /** What follows the `@` in a matching address: clean, with a dot
   *  strictly inside. */
  lemma AroundDot(x: string, y: string)
    requires EmailPart(x) && EmailPart(y)
    ensures var r := x + ['.'] + y;
            Clean(r) && |r| >= 3 && '.' in r[1..|r| - 1]
  {
    PartIsClean(x);
    PartIsClean(y);
    assert Clean(['.']);
    CleanConcat(x, ['.']);
    CleanConcat(x + ['.'], y);
    var r := x + ['.'] + y;
    assert r[1..|r| - 1][|x| - 1] == '.';
  }

  /** Every string the pattern matches, the matcher accepts. */
  lemma PatternImpliesMatcher(s: string)
    requires EmailPattern(s)
    ensures IsValidEmail(s)
  {
    var i, j :| 0 <= i < j < |s| && s[i] == '@' && s[j] == '.'
                && EmailPart(s[..i]) && EmailPart(s[i + 1..j]) && EmailPart(s[j + 1..]);
    PatternAt(s, i, j);
  }

  /** A match with its `@` at `i` and its dot at `j` is accepted. */
  lemma PatternAt(s: string, i: nat, j: nat)
    requires i < j < |s| && s[i] == '@' && s[j] == '.'
    requires EmailPart(s[..i]) && EmailPart(s[i + 1..j]) && EmailPart(s[j + 1..])
    ensures IsValidEmail(s)
  {
    PartIsClean(s[..i]);
    CleanIff(s[..i]);
    FirstAtIs(s, i);
    var rest := s[i + 1..];
    assert rest == s[i + 1..j] + ['.'] + s[j + 1..];
    AroundDot(s[i + 1..j], s[j + 1..]);
  }

  /** The matcher accepts exactly the strings the pattern matches. */
  lemma EmailMatchesPattern(s: string)
    ensures IsValidEmail(s) <==> EmailPattern(s)
  {
    if IsValidEmail(s) {
      MatcherImpliesPattern(s);
    }
    if EmailPattern(s) {
      PatternImpliesMatcher(s);
    }
  }

  /** The first `@` is the one with none before it. */
  lemma FirstAtIs(s: string, i: nat)
    requires i < |s| && s[i] == '@' && '@' !in s[..i]
    ensures FirstAt(s) == Some(i)
  {
    assert s[i] in s;
  }

  /** The e-mail check, in the order the form applies it. */
  function EmailReason(email: string, phoneNumber: Option<string>): (r: Reason)
    ensures r == Clear <==> !IsBlank(email) && IsValidEmail(email) && Truthy(phoneNumber)
  {
    if IsBlank(email) then Required
    else if !IsValidEmail(email) then Malformed
    else if !Truthy(phoneNumber) then NeedsPhone
    else Clear
  }

  /** What `validateInputs` reports for a form whose text fields are
   *  present. */
  function ErrorsFor(fullName: string, email: string, phoneNumber: Option<string>, address: string,
                     changePassword: bool, oldPassword: string, newPassword: string, confirm: string): Errors
  {
    Errors(if IsBlank(fullName) then Required else Clear,
           EmailReason(email, phoneNumber),
           if IsBlank(address) then Required else Clear,
           if changePassword && IsBlank(oldPassword) then Required else Clear,
           if !changePassword then Clear else if IsBlank(newPassword) then Required
           else if |newPassword| < 8 then TooShort else Clear,
           if !changePassword then Clear else if IsBlank(confirm) then Required
           else if newPassword != confirm then Mismatch else Clear)
  }

  /** The form passes exactly when the name and address are not blank, the
   *  e-mail is well formed on an account with a phone number, and a
   *  password change has a non-blank current password and a new password
   *  of at least eight characters, confirmed. */
  lemma NoErrorsIff(fullName: string, email: string, phoneNumber: Option<string>, address: string,
                    changePassword: bool, oldPassword: string, newPassword: string, confirm: string)
    ensures ErrorsFor(fullName, email, phoneNumber, address, changePassword, oldPassword, newPassword, confirm) == NoErrors
            <==> !IsBlank(fullName) && !IsBlank(address) && !IsBlank(email) && IsValidEmail(email) && Truthy(phoneNumber)
                 && (changePassword ==> !IsBlank(oldPassword) && !IsBlank(newPassword) && |newPassword| >= 8
                                        && newPassword == confirm)
  {
    if changePassword && !IsBlank(newPassword) && newPassword == confirm {
      assert !IsBlank(confirm);
    }
  }

  /** `null` or a string, as sent in JSON. */
  function JsOf(s: Option<string>): (v: JsValue)
    ensures v.Null? || v.Str?
  {
    if s.Some? then Str(s.value) else Null
  }

  /** `date ? date.toISOString().split('T')[0] : null`. */
  function DayOf(d: Option<Date>): (v: JsValue)
    ensures v.Null? || v.Str?
  {
    if d.Some? then Str(d.value.isoDay) else Null
  }

  /** The keys the screen may send. */
  const SentKeys := {FullName, Email, Gender, Address, Avatar, DateOfBirth, OldPassword, NewPassword}

  /** Whether the password pair goes: changing, and all three typed. */
  predicate SendsPasswords(changePassword: bool, oldPassword: string, newPassword: string, confirm: string)
  {
    changePassword && oldPassword != "" && newPassword != "" && confirm != ""
  }

  /** Key by key, the body `handleUpdateProfile` builds: against a
   *  stored copy, a field goes only when it differs from the copy's;
   *  without one, every field goes, an absent e-mail, address or avatar as
   *  `''`.  The password pair goes when changing and all three are typed. */
  function PayloadField(p: Profile, stored: Option<Profile>, changePassword: bool,
                        oldPassword: string, newPassword: string, confirm: string, k: Key): Option<JsValue>
  {
    match k
    case FullName =>
      if stored.None? || p.fullName != stored.value.fullName then Some(JsOf(p.fullName)) else None
    case Email =>
      if stored.None? then Some(Str(OrElse(p.email, "")))
      else if p.email != stored.value.email then Some(JsOf(p.email)) else None
    case Gender =>
      if stored.None? || p.gender != stored.value.gender then Some(JsOf(p.gender)) else None
    case Address =>
      if stored.None? then Some(Str(OrElse(p.address, "")))
      else if p.address != stored.value.address then Some(JsOf(p.address)) else None
    case Avatar =>
      if stored.None? then Some(Str(OrElse(p.avatar, "")))
      else if p.avatar != stored.value.avatar then Some(JsOf(p.avatar)) else None
    case DateOfBirth =>
      if stored.None? || DayOf(p.dateOfBirth) != DayOf(stored.value.dateOfBirth) then Some(DayOf(p.dateOfBirth)) else None
    case OldPassword =>
      if SendsPasswords(changePassword, oldPassword, newPassword, confirm) then Some(Str(oldPassword)) else None
    case NewPassword =>
      if SendsPasswords(changePassword, oldPassword, newPassword, confirm) then Some(Str(newPassword)) else None
    case _ => None
  }

  /** The body itself. */
  function UpdatePayload(p: Profile, stored: Option<Profile>, changePassword: bool,
                         oldPassword: string, newPassword: string, confirm: string): (d: Dict)
    ensures d.Keys <= SentKeys
    ensures forall k :: Lookup(d, k) == PayloadField(p, stored, changePassword, oldPassword, newPassword, confirm, k)
  {
    map k | k in SentKeys && PayloadField(p, stored, changePassword, oldPassword, newPassword, confirm, k).Some?
      :: PayloadField(p, stored, changePassword, oldPassword, newPassword, confirm, k).value
  }

  /** Against a stored copy, every field sent other than the password
   *  pair carries a value the copy does not have; the pair goes exactly
   *  when changing with all three typed; only `null` and strings are
   *  sent. */
  lemma OnlyDifferencesSent(p: Profile, s: Profile, changePassword: bool,
                            oldPassword: string, newPassword: string, confirm: string, k: Key)
    ensures var v := PayloadField(p, Some(s), changePassword, oldPassword, newPassword, confirm, k);
            (v.Some? ==> v.value.Str? || v.value.Null?)
            && (v.Some? && k == FullName ==> v.value != JsOf(s.fullName))
            && (v.Some? && k == Email ==> v.value != JsOf(s.email))
            && (v.Some? && k == Gender ==> v.value != JsOf(s.gender))
            && (v.Some? && k == Address ==> v.value != JsOf(s.address))
            && (v.Some? && k == Avatar ==> v.value != JsOf(s.avatar))
            && (v.Some? && k == DateOfBirth ==> v.value != DayOf(s.dateOfBirth))
            && ((k == OldPassword || k == NewPassword) ==> (v.Some? <==> SendsPasswords(changePassword, oldPassword, newPassword, confirm)))
  {
  }

  /** Without a stored copy all six profile fields go. */
  lemma NoCopySendsAll(p: Profile, changePassword: bool, oldPassword: string, newPassword: string, confirm: string)
    ensures {FullName, Email, Gender, Address, Avatar, DateOfBirth}
            <= UpdatePayload(p, None, changePassword, oldPassword, newPassword, confirm).Keys
  {
    var d := UpdatePayload(p, None, changePassword, oldPassword, newPassword, confirm);
    assert Lookup(d, FullName).Some? && Lookup(d, Email).Some? && Lookup(d, Gender).Some?;
    assert Lookup(d, Address).Some? && Lookup(d, Avatar).Some? && Lookup(d, DateOfBirth).Some?;
  }

  /** The client's own cleaning in `updateUserProfile` passes the body on
   *  unchanged except for the avatar, and for the date unless it is a
   *  `YYYY-MM-DD` day. */
  lemma PayloadSurvivesCleaning(p: Profile, stored: Option<Profile>, changePassword: bool,
                                oldPassword: string, newPassword: string, confirm: string, k: Key)
    requires k != Avatar
    requires k == DateOfBirth && p.dateOfBirth.Some? ==> |p.dateOfBirth.value.isoDay| == 10 && HasDatePrefix(p.dateOfBirth.value.isoDay)
    ensures var d := UpdatePayload(p, stored, changePassword, oldPassword, newPassword, confirm);
            ProfileField(d, k) == Lookup(d, k)
  {
    var d := UpdatePayload(p, stored, changePassword, oldPassword, newPassword, confirm);
    if k == OldPassword || k == NewPassword {
      PasswordPairSent(p, stored, changePassword, oldPassword, newPassword, confirm);
    } else {
      var v := PayloadField(p, stored, changePassword, oldPassword, newPassword, confirm, k);
      assert Lookup(d, k) == v;
      if k == DateOfBirth && DateOfBirth in d && p.dateOfBirth.Some? {
        assert d[DateOfBirth].s[..10] == d[DateOfBirth].s;
      }
    }
  }

  /** The form sends both passwords as strings or neither. */
  lemma PasswordPairSent(p: Profile, stored: Option<Profile>, changePassword: bool,
                         oldPassword: string, newPassword: string, confirm: string)
    ensures !BadPasswordPair(UpdatePayload(p, stored, changePassword, oldPassword, newPassword, confirm))
  {
    var d := UpdatePayload(p, stored, changePassword, oldPassword, newPassword, confirm);
    assert Lookup(d, OldPassword) == PayloadField(p, stored, changePassword, oldPassword, newPassword, confirm, OldPassword);
    assert Lookup(d, NewPassword) == PayloadField(p, stored, changePassword, oldPassword, newPassword, confirm, NewPassword);
  }

  /** A future date of birth is pulled back to `now`. */
  function ClampBirth(p: Profile, now: Date): (q: Profile)
    ensures q.dateOfBirth.Some? ==> q.dateOfBirth.value.time <= now.time || q.dateOfBirth == p.dateOfBirth
    ensures q.dateOfBirth.Some? && q.dateOfBirth.value.time > now.time ==> q == p
    ensures q.(dateOfBirth := p.dateOfBirth) == p
  {
    if p.dateOfBirth.Some? && p.dateOfBirth.value.time > now.time then p.(dateOfBirth := Some(now)) else p
  }

  class SettingsScreen {
    var userData: Profile
    var oldPassword: string
    var newPassword: string
    var confirmNewPassword: string
    var changePassword: bool
    var errors: Errors
    var isLoading: bool

    /** The form as it mounts, before the user is fetched. */
    constructor (now: Date)
      ensures userData == Profile(0, Some(""), Some(""), Some(""), Some(now), Some("male"), Some(""), Some(""), 0)
      ensures errors == NoErrors && !changePassword && !isLoading
      ensures oldPassword == "" && newPassword == "" && confirmNewPassword == ""
    {
      userData := Profile(0, Some(""), Some(""), Some(""), Some(now), Some("male"), Some(""), Some(""), 0);
      oldPassword, newPassword, confirmNewPassword := "", "", "";
      changePassword := false;
      errors := NoErrors;
      isLoading := false;
    }

    /** `validateInputs`.  A `null` name, e-mail or address makes `trim()`
     *  throw before anything is recorded (`None`).  Otherwise the errors
     *  are replaced by what `ErrorsFor` reports, a date of birth after
     *  `now` becomes `now`, and the answer is whether nothing was
     *  reported. */
    method ValidateInputs(now: Date) returns (valid: Option<bool>)
      modifies this
      ensures old(userData.fullName).None? || old(userData.email).None? || old(userData.address).None? ==>
                valid.None? && userData == old(userData) && errors == old(errors)
      ensures old(userData.fullName).Some? && old(userData.email).Some? && old(userData.address).Some? ==>
                errors == ErrorsFor(old(userData.fullName).value, old(userData.email).value, old(userData.phoneNumber),
                                    old(userData.address).value, changePassword, oldPassword, newPassword, confirmNewPassword)
                && valid == Some(errors == NoErrors) && userData == ClampBirth(old(userData), now)
      ensures isLoading == old(isLoading)
      ensures oldPassword == old(oldPassword) && newPassword == old(newPassword)
      ensures confirmNewPassword == old(confirmNewPassword) && changePassword == old(changePassword)
    {
      if userData.fullName.None? || userData.email.None? || userData.address.None? {
        return None;
      }
      userData := ClampBirth(userData, now);
      errors := ErrorsFor(userData.fullName.value, userData.email.value, userData.phoneNumber, userData.address.value,
                          changePassword, oldPassword, newPassword, confirmNewPassword);
      valid := Some(errors == NoErrors);
    }

    /** `handleUpdateProfile`: a valid form builds the body; an empty body
     *  sends nothing; otherwise the body is sent and, on success, the
     *  freshly fetched user replaces the form's (a missing date of birth
     *  becoming `now`).  A form that fails validation, or whose `trim()`
     *  throws, leaves the loading flag as it was. */
    method UpdateProfile(now: Date, stored: Option<Profile>, apiOk: bool, refetched: Profile)
      returns (sent: Option<Dict>)
      modifies this
      ensures old(userData.fullName).None? || old(userData.email).None? || old(userData.address).None? ==>
        sent.None? && userData == old(userData) && errors == old(errors) && isLoading == old(isLoading)
      ensures old(userData.fullName).Some? && old(userData.email).Some? && old(userData.address).Some? ==>
        var form := ClampBirth(old(userData), now);
        var body := UpdatePayload(form, stored, changePassword, oldPassword, newPassword, confirmNewPassword);
        errors == ErrorsFor(form.fullName.value, form.email.value, form.phoneNumber, form.address.value,
                            changePassword, oldPassword, newPassword, confirmNewPassword)
        && (sent.Some? <==> errors == NoErrors && body != map[])
        && (sent.Some? ==> sent.value == body)
        && (errors != NoErrors ==> isLoading == old(isLoading) && userData == form)
        && (errors == NoErrors ==> !isLoading)
        && (errors == NoErrors ==>
              userData == if body != map[] && apiOk && form.id != 0 then Refetched(refetched, now) else form)
      ensures oldPassword == old(oldPassword) && newPassword == old(newPassword)
      ensures confirmNewPassword == old(confirmNewPassword) && changePassword == old(changePassword)
    {
      var valid := ValidateInputs(now);
      if valid != Some(true) {
        return None;
      }
      isLoading := true;
      var body := UpdatePayload(userData, stored, changePassword, oldPassword, newPassword, confirmNewPassword);
      if body == map[] {
        isLoading := false;
        return None;
      }
      sent := Some(body);
      if apiOk && userData.id != 0 {
        userData := Refetched(refetched, now);
      }
      isLoading := false;
    }
  }

  /** The profile the screen shows after a save: the refetched user, with
   *  `now` standing in for a missing date of birth. */
  function Refetched(p: Profile, now: Date): (r: Profile)
    ensures r.dateOfBirth.Some?
    ensures r.(dateOfBirth := p.dateOfBirth) == p
    ensures p.dateOfBirth.Some? ==> r == p
  {
    p.(dateOfBirth := if p.dateOfBirth.Some? then p.dateOfBirth else Some(now))
  }

  /** Against a stored copy equal to the form, with no password change,
   *  nothing is sent. */
  lemma UnchangedFormSendsNothing(p: Profile, oldPassword: string, newPassword: string, confirm: string)
    ensures UpdatePayload(p, Some(p), false, oldPassword, newPassword, confirm) == map[]
  {
    var d := UpdatePayload(p, Some(p), false, oldPassword, newPassword, confirm);
    forall k ensures k !in d {
      assert Lookup(d, k).None?;
    }
  }
}

=== FILE: update_profile_dto.dfy ===
/**
 * `UpdateProfileDto`: every field is optional and checked only when
 * present.
 */
module UpdateProfileDto {
  import opened Common
  import opened UserEntity

  datatype UpdateProfileDto = UpdateProfileDto(
    fullName: Option<string>,
    email: Option<string>,
    dateOfBirth: Option<string>,
    gender: Option<Gender>,
    avatar: Option<string>,
    avatarUrl: Option<string>,
    address: Option<string>,
    oldPassword: Option<string>,
    newPassword: Option<string>)

  const Empty := UpdateProfileDto(None, None, None, None, None, None, None, None, None)

  function Validate(d: UpdateProfileDto, isEmail: string -> bool, isIso8601: string -> bool): (ok: bool)
    ensures ok && d.email.Some? ==> isEmail(d.email.value)
    ensures ok && d.dateOfBirth.Some? ==> isIso8601(d.dateOfBirth.value)
    ensures ok && d.newPassword.Some? ==> |d.newPassword.value| >= 8
  {
    (d.email.Some? ==> isEmail(d.email.value))
    && (d.dateOfBirth.Some? ==> isIso8601(d.dateOfBirth.value))
    && (d.newPassword.Some? ==> |d.newPassword.value| >= 8)
  }

  /** Name, avatar, avatar URL, address, old password and gender carry no
   *  rule beyond their types. */
  lemma OnlyThreeFieldsChecked(d: UpdateProfileDto, isEmail: string -> bool, isIso8601: string -> bool)
    ensures Validate(d, isEmail, isIso8601) ==
      Validate(d.(fullName := None, avatar := None, avatarUrl := None, address := None, oldPassword := None, gender := None), isEmail, isIso8601)
  {
  }

  /** An empty body is a valid update; so is a one-character old password. */
  lemma EmptyAndShortOldPasswordPass(isEmail: string -> bool, isIso8601: string -> bool)
    ensures Validate(Empty, isEmail, isIso8601)
    ensures Validate(Empty.(oldPassword := Some("x")), isEmail, isIso8601)
  {
  }
}

=== FILE: upload_service.dfy ===
/**
 * `UploadService`: the public URL of an uploaded file and the avatar
 * column write that follows an upload.  The upload directory itself and
 * the file system are outside the model; the `BASE_URL` environment
 * variable is a constructor parameter.
 */
module UploadService {
  import opened Common
  import opened UserEntity
  import US = UserService

  const DefaultBaseUrl := "http://localhost:3000"
  const UploadsPath := "/uploads/"

  class UploadService {
    const users: US.UserService
    /** `process.env.BASE_URL`. */
    const baseUrlEnv: Option<string>

    constructor (users: US.UserService, baseUrlEnv: Option<string>)
      ensures this.users == users && this.baseUrlEnv == baseUrlEnv
    {
      this.users := users;
      this.baseUrlEnv := baseUrlEnv;
    }

    /** The base every URL starts with: the environment's value when it is
     *  set and non-empty, else the local default. */
    function BaseUrl(): (b: string)
      ensures Truthy(baseUrlEnv) ==> b == baseUrlEnv.value
      ensures !Truthy(baseUrlEnv) ==> b == DefaultBaseUrl
    {
      OrElse(baseUrlEnv, DefaultBaseUrl)
    }

    /** `getFileUrl`: the base, then `/uploads/`, then the file name. */
    function GetFileUrl(filename: string): (url: string)
      ensures |url| == |BaseUrl()| + |UploadsPath| + |filename|
      ensures url[..|BaseUrl()|] == BaseUrl()
      ensures url[|BaseUrl()|..|BaseUrl()| + |UploadsPath|] == UploadsPath
      ensures url[|BaseUrl()| + |UploadsPath|..] == filename
    {
      BaseUrl() + UploadsPath + filename
    }

    /** The file name can be read back from its URL, so distinct files get
     *  distinct URLs. */
    lemma FileUrlInjective(f: string, g: string)
      requires GetFileUrl(f) == GetFileUrl(g)
      ensures f == g
    {
      var n := |BaseUrl()| + |UploadsPath|;
      assert f == GetFileUrl(f)[n..];
    }

    /** `removeOldAvatar`: its body is empty, so it changes nothing. */
    method RemoveOldAvatar(url: string)
    {
    }

    /** `updateUserAvatar`: `UPDATE users SET avatar = url WHERE id =
     *  userId`.  A missing id matches no row and is not reported. */
    method UpdateUserAvatar(userId: nat, avatarUrl: string)
      requires users.Valid()
      modifies users
      ensures users.Valid() && users.transactions == old(users.transactions)
      ensures userId !in old(users.users) ==> users.users == old(users.users)
      ensures userId in old(users.users) ==>
        users.users == old(users.users)[userId := old(users.users)[userId].(avatar := Some(avatarUrl))]
    {
      if userId in users.users {
        var u := users.users[userId].(avatar := Some(avatarUrl));
        US.WriteKeepsConsistent(users.users, users.transactions, users.nextUserId, users.nextTxId, users.clock, u);
        users.users := users.users[userId := u];
      }
    }
  }
}

=== FILE: user_controller.dfy ===
/**
 * `UserController`: which guards each route carries, the self-only delete
 * rule, the identity check and empty-string defaults of create-admin, and
 * where a coin adjustment takes its target and its actor from.
 */
module UserController {
  import opened Common
  import opened UserEntity
  import opened CoinTransactionEntity
  import opened AdjustCoinDto
  import opened CreateAdminDto
  import opened JwtStrategy
  import opened AdminGuard
  import US = UserService

  /** The routes of `/users`. */
  datatype Route =
    | ListUsers | MyProfile | UserStatsRoute | ByPhone | OneUser | UpdateProfileRoute | RemoveSelf
    | ResetPasswordRoute | MyTransactions
    | AdminRemove | AdminRole | CreateAdmin | AdjustCoins | AdminTransactions | CoinStatsRoute

  datatype Guard = JwtAuth | AdminOnly

  /** The path of each route below `/users`. */
  function PathOf(r: Route): string
  {
    match r
    case ListUsers => ""
    case MyProfile => "me/profile"
    case UserStatsRoute => "stats"
    case ByPhone => "phone/:phoneNumber"
    case OneUser => ":id"
    case UpdateProfileRoute => "profile"
    case RemoveSelf => ":id"
    case ResetPasswordRoute => "reset-password"
    case MyTransactions => "me/coins/transactions"
    case AdminRemove => "admin/:id"
    case AdminRole => "admin/:id/role"
    case CreateAdmin => "admin/create-admin"
    case AdjustCoins => "admin/:id/coins"
    case AdminTransactions => "admin/:id/coins/transactions"
    case CoinStatsRoute => "admin/stats/coins"
  }

  /** The `@UseGuards` list of each route, in order. */
  function GuardsOf(r: Route): seq<Guard>
  {
    match r
    case ResetPasswordRoute => []
    case AdminRemove => [JwtAuth, AdminOnly]
    case AdminRole => [JwtAuth, AdminOnly]
    case CreateAdmin => [JwtAuth, AdminOnly]
    case AdjustCoins => [JwtAuth, AdminOnly]
    case AdminTransactions => [JwtAuth, AdminOnly]
    case CoinStatsRoute => [JwtAuth, AdminOnly]
    case _ => [JwtAuth]
  }

  predicate IsAdminPath(p: string)
  {
    |p| >= 6 && p[..6] == "admin/"
  }

  /** Exactly the routes under `admin/` carry both guards; every other route
   *  but the password reset carries the JWT guard alone. */
  lemma AdminPathsCarryBothGuards(r: Route)
    ensures IsAdminPath(PathOf(r)) <==> GuardsOf(r) == [JwtAuth, AdminOnly]
    ensures !IsAdminPath(PathOf(r)) && r != ResetPasswordRoute ==> GuardsOf(r) == [JwtAuth]
  {
    match r
    case ListUsers =>
    case MyProfile => assert PathOf(r)[0] != 'a';
    case UserStatsRoute =>
    case ByPhone => assert PathOf(r)[0] != 'a';
    case OneUser =>
    case UpdateProfileRoute => assert PathOf(r)[0] != 'a';
    case RemoveSelf =>
    case ResetPasswordRoute => assert PathOf(r)[0] != 'a';
    case MyTransactions => assert PathOf(r)[0] != 'a';
    case _ => assert PathOf(r)[..6] == "admin/";
  }

  /** The guards run in order; the first refusal answers. */
  function RunGuards(guards: seq<Guard>, user: Option<RequestUser>): (r: Result<()>)
    ensures r.Ok? <==> (JwtAuth in guards ==> user.Some?) && (AdminOnly in guards ==> CanActivate(user).Ok?)
    ensures r.Err? ==> r.error == Unauthorized || r.error == Forbidden
  {
    if guards == [] then Ok(())
    else match guards[0]
      case JwtAuth => if user.None? then Err(Unauthorized) else RunGuards(guards[1..], user)
      case AdminOnly => if CanActivate(user).Err? then Err(Forbidden) else RunGuards(guards[1..], user)
  }

  /** An admin route lets a request through exactly when it carries a
   *  verified token whose role claim is `admin`; the user statistics need
   *  only a verified token. */
  lemma AdminRouteAccess(r: Route, user: Option<RequestUser>)
    requires IsAdminPath(PathOf(r))
    ensures RunGuards(GuardsOf(r), user).Ok? <==> user.Some? && user.value.role == "admin"
    ensures user.None? ==> RunGuards(GuardsOf(r), user) == Err(Unauthorized)
  {
    AdminPathsCarryBothGuards(r);
  }

  /** `+id` on a path segment: a decimal numeral gives its value; anything
   *  else is NaN, which matches no row. */
  function NumericId(s: string): (r: Option<nat>)
    ensures r.Some? <==> s != "" && AllDigits(s)
    ensures r.Some? ==> r.value == ParseNat(s)
  {
    if s != "" && AllDigits(s) then Some(ParseNat(s)) else None
  }

  class UserController {
    const service: US.UserService

    constructor (service: US.UserService)
      ensures this.service == service
    {
      this.service := service;
    }

    /** `DELETE /users/:id`: a user may delete only their own account, and
     *  only while no ledger row or notification refers to it. */
    method Remove(id: string, caller: RequestUser) returns (r: Result<()>)
      requires service.Valid()
      modifies service
      ensures service.Valid() && service.transactions == old(service.transactions)
      ensures ParseIntPipe(id).Err? ==> r == Err(BadRequest) && service.users == old(service.users)
      ensures ParseIntPipe(id).Ok? && ParseIntPipe(id).value != caller.Id() ==> r == Err(Forbidden) && service.users == old(service.users)
      ensures ParseIntPipe(id) == Ok(caller.Id()) ==>
        if caller.Id() !in old(service.users) then r == Err(NotFound) && service.users == old(service.users)
        else if old(service.Referenced(caller.Id())) then r == Err(InternalError) && service.users == old(service.users)
        else r == Ok(()) && service.users == old(service.users) - {caller.Id()}
    {
      var parsed := ParseIntPipe(id);
      if parsed.Err? {
        return Err(BadRequest);
      }
      if caller.Id() != parsed.value {
        return Err(Forbidden);
      }
      r := service.Remove(caller.Id());
    }

    /** `POST /users/admin/create-admin`: an e-mail or a phone number is
     *  required; a missing field reaches the service as the empty string. */
    method CreateOrPromoteAdmin(dto: CreateAdminDto) returns (r: Result<User>)
      requires service.Valid()
      modifies service
      ensures service.Valid() && service.transactions == old(service.transactions)
      ensures !Truthy(dto.email) && !Truthy(dto.phoneNumber) ==> r == Err(BadRequest) && service.users == old(service.users)
      ensures Truthy(dto.email) || Truthy(dto.phoneNumber) ==>
        var email, phone := OrElse(dto.email, ""), OrElse(dto.phoneNumber, "");
        old(service.AdminLookup(email, phone)).None? && OrElse(dto.password, "") != "" && r.Ok? ==>
          service.users == old(service.users)[old(service.nextUserId) :=
            US.AdminRow(old(service.nextUserId), email, phone, OrElse(dto.password, ""))]
      ensures Truthy(dto.email) || Truthy(dto.phoneNumber) ==>
        var email, phone := OrElse(dto.email, ""), OrElse(dto.phoneNumber, "");
        old(service.AdminLookup(email, phone)).Some? ==>
          var k := old(service.AdminLookup(email, phone)).value;
          service.users == old(service.users)[k := US.Promoted(old(service.users)[k], OrElse(dto.password, ""))] && r.Ok?
    {
      if !Truthy(dto.email) && !Truthy(dto.phoneNumber) {
        return Err(BadRequest);
      }
      r := service.CreateOrPromoteAdmin(OrElse(dto.email, ""), OrElse(dto.phoneNumber, ""), OrElse(dto.password, ""));
    }

    /** `PATCH /users/admin/:id/coins`: the target is the path's id and the
     *  actor is always the caller; a path that is not a number finds no
     *  user. */
    method AdjustUserCoins(id: string, dto: AdjustCoinDto, caller: RequestUser, notifyFails: bool) returns (r: Result<User>)
      requires service.Valid() && service.inbox.Valid()
      modifies service, service.inbox
      ensures service.Valid() && service.inbox.Valid()
      ensures NumericId(id).None? ==> r == Err(NotFound) && service.users == old(service.users)
                                      && service.transactions == old(service.transactions)
      ensures NumericId(id).Some? && r.Ok? ==>
        caller.Id() in old(service.users) && |service.transactions| == |old(service.transactions)| + 1
        && var row := service.transactions[|old(service.transactions)|];
           row.userId == NumericId(id).value
           && row.performedBy == Some(US.PerformedBy(old(service.users)[caller.Id()]))
      ensures (NumericId(id).Some? && NumericId(id).value in old(service.users)
               && caller.Id() in old(service.users) && old(service.users)[caller.Id()].role != Admin) ==> r == Err(Forbidden)
      ensures (NumericId(id).Some? && NumericId(id).value in old(service.users)
               && caller.Id() in old(service.users) && old(service.users)[caller.Id()].role == Admin
               && old(service.users)[NumericId(id).value].coinBalance + dto.amount >= 0) ==> r.Ok?
    {
      var target := NumericId(id);
      if target.None? {
        return Err(NotFound);
      }
      r := service.AdjustUserCoins(target.value, dto, caller.Id(), notifyFails);
    }

    /** `GET /users/admin/:id/coins/transactions`. */
    function UserTransactions(id: string): (r: Result<seq<CoinTransaction>>)
      reads service
      requires service.Valid()
      ensures NumericId(id).None? ==> r == Err(NotFound)
      ensures NumericId(id).Some? ==> r == service.GetUserCoinTransactions(NumericId(id).value)
    {
      match NumericId(id)
      case None => Err(NotFound)
      case Some(k) => service.GetUserCoinTransactions(k)
    }
  }
}

=== FILE: user_entity.dfy ===
/**
 * The `users` table: the `User` entity, its enums and column defaults, and
 * the `checkRequiredFields` insert hook.
 */
module UserEntity {
  import opened Common
  import Jwt

  datatype Gender = Male | Female | Other

  datatype AuthProvider = Local | Google

  /** `Regular` is the enum value `'user'`, `Admin` is `'admin'`. */
  datatype UserRole = Regular | Admin

  /** The string the role is stored and transmitted as. */
  function RoleName(r: UserRole): (s: string)
    ensures s == "admin" <==> r == Admin
  {
    match r
    case Regular => "user"
    case Admin => "admin"
  }

  /** bcrypt is uninterpreted: a hash remembers what it hashes, so that two
   *  hashes compare equal only for the same plain text. */
  datatype PasswordHash = Bcrypt(plain: string)

  /** `bcrypt.compare(plain, hash)`. */
  predicate BcryptMatches(plain: string, h: PasswordHash)
  {
    h == Bcrypt(plain)
  }

  /** A row of `users`.  `None` is SQL NULL; `createdAt`/`updatedAt` are not
   *  modelled. */
  datatype User = User(
    id: nat,
    fullName: Option<string>,
    phoneNumber: Option<string>,
    email: Option<string>,
    password: Option<PasswordHash>,
    dateOfBirth: Option<string>,
    gender: Option<Gender>,
    avatar: Option<string>,
    authProvider: AuthProvider,
    role: UserRole,
    address: Option<string>,
    coinBalance: int,
    refreshToken: Option<Jwt.Token>)

  const DefaultGender: Gender := Other
  const DefaultProvider: AuthProvider := Local
  const DefaultRole: UserRole := Regular
  const DefaultCoinBalance: int := 0

  /** `repository.create({...})` followed by the insert: every column the
   *  caller leaves undefined takes its declared default, nullable columns
   *  without a default become NULL. */
  function NewUser(id: nat, fullName: Option<string>, phoneNumber: Option<string>, email: Option<string>,
                   password: Option<PasswordHash>, dateOfBirth: Option<string>, gender: Option<Gender>,
                   provider: Option<AuthProvider>, role: Option<UserRole>): (u: User)
    ensures u.id == id && u.coinBalance == 0
    ensures u.gender == if gender.Some? then gender else Some(Other)
    ensures u.authProvider == if provider.Some? then provider.value else Local
    ensures u.role == if role.Some? then role.value else Regular
    ensures u.avatar.None? && u.address.None? && u.refreshToken.None?
    ensures u.fullName == fullName && u.phoneNumber == phoneNumber && u.email == email
    ensures u.password == password && u.dateOfBirth == dateOfBirth
  {
    User(id, fullName, phoneNumber, email, password, dateOfBirth,
         if gender.Some? then gender else Some(DefaultGender),
         None,
         if provider.Some? then provider.value else DefaultProvider,
         if role.Some? then role.value else DefaultRole,
         None, DefaultCoinBalance, None)
  }

  /** The `@BeforeInsert` hook: a row needs a truthy email or phone number. */
  function CheckRequiredFields(u: User): (r: Result<()>)
    ensures r.Err? <==> !Truthy(u.email) && !Truthy(u.phoneNumber)
    ensures r.Err? ==> r.error == BadRequest
  {
    if !Truthy(u.email) && !Truthy(u.phoneNumber) then Err(BadRequest) else Ok(())
  }

  /** Two rows that the unique indexes on `email` and `phone_number` cannot
   *  both hold: they share a non-NULL email or a non-NULL phone number. */
  predicate SharesIdentity(a: User, b: User)
  {
    (a.email.Some? && a.email == b.email) || (a.phoneNumber.Some? && a.phoneNumber == b.phoneNumber)
  }

  /** `const { password, ...result } = user`. */
  function WithoutPassword(u: User): (r: User)
    ensures r.password.None?
    ensures r.(password := u.password) == u
  {
    u.(password := None)
  }
}

=== FILE: user_list.dfy ===
/**
 * `UserList`, the admin dashboard's user table: the edit dialog and the
 * change set it sends, the coin dialog, deletion, role change and password
 * reset, and how each successful request updates the local list.  Every
 * request's outcome is a parameter; a failed request only sets the error.
 */
module UserList {
  import opened Common
  import opened AdjustCoinDto
  import RP = ResetPasswordDto

  /** A user as the list holds it; `None` is `null` or absent.  Dates are
   *  the `yyyy-MM-dd` day they denote. */
  datatype Row = Row(id: nat, fullName: Option<string>, email: Option<string>, phoneNumber: Option<string>,
                     gender: Option<string>, dateOfBirth: Option<string>, role: string,
                     authProvider: Option<string>, coinBalance: int)

  /** The edit dialog's fields, all strings. */
  datatype EditForm = EditForm(fullName: string, email: string, phoneNumber: string, gender: string,
                               dateOfBirth: string, password: string, role: string, authProvider: string)

  /** The change set of a save.  For the nullable fields the inner `None`
   *  is an explicit `null`. */
  datatype Patch = Patch(fullName: Option<string>, email: Option<Option<string>>, phoneNumber: Option<Option<string>>,
                         gender: Option<string>, dateOfBirth: Option<Option<string>>, password: Option<string>,
                         role: Option<string>)

  const NoChanges := Patch(None, None, None, None, None, None, None)

  /** The form the edit dialog opens with: each missing field as `''`, an
   *  empty password, role `user` and provider `local` by default. */
  function OpenForm(u: Row): (f: EditForm)
    ensures f.password == ""
    ensures Truthy(u.fullName) ==> f.fullName == u.fullName.value
    ensures !Truthy(u.email) ==> f.email == ""
  {
    EditForm(OrElse(u.fullName, ""), OrElse(u.email, ""), OrElse(u.phoneNumber, ""), OrElse(u.gender, ""),
             OrElse(u.dateOfBirth, ""), "", if u.role != "" then u.role else "user", OrElse(u.authProvider, "local"))
  }

  /** `handleSaveUserChanges`' change set, as written: each field is
   *  compared with the selected user's stored value (so `''` differs from
   *  `null`), except the date, which is compared with its `''`-defaulted
   *  form; a cleared e-mail, phone or date goes as `null`; the password
   *  goes whenever it is non-empty. */
  function EditDiff(f: EditForm, u: Row): (p: Patch)
    ensures p.password.Some? <==> f.password != ""
    ensures p.email == Some(None) <==> f.email == "" && u.email != Some("")
    ensures p.phoneNumber == Some(None) <==> f.phoneNumber == "" && u.phoneNumber != Some("")
    ensures p.dateOfBirth == Some(None) <==> f.dateOfBirth == "" && Truthy(u.dateOfBirth)
    ensures p.email.Some? && p.email.value.Some? ==> p.email.value == Some(f.email) && f.email != ""
    ensures p.role.Some? <==> f.role != u.role
  {
    Patch(if Some(f.fullName) != u.fullName then Some(f.fullName) else None,
          if Some(f.email) != u.email then Some(NonEmpty(f.email)) else None,
          if Some(f.phoneNumber) != u.phoneNumber then Some(NonEmpty(f.phoneNumber)) else None,
          if Some(f.gender) != u.gender then Some(f.gender) else None,
          if f.dateOfBirth != OrElse(u.dateOfBirth, "") then Some(NonEmpty(f.dateOfBirth)) else None,
          if f.password != "" then Some(f.password) else None,
          if f.role != u.role then Some(f.role) else None)
  }

  /** The change set as evidently intended: each field against the value
   *  the dialog opened with. */
  function IntendedDiff(f: EditForm, u: Row): Patch
  {
    var start := OpenForm(u);
    Patch(if f.fullName != start.fullName then Some(f.fullName) else None,
          if f.email != start.email then Some(NonEmpty(f.email)) else None,
          if f.phoneNumber != start.phoneNumber then Some(NonEmpty(f.phoneNumber)) else None,
          if f.gender != start.gender then Some(f.gender) else None,
          if f.dateOfBirth != start.dateOfBirth then Some(NonEmpty(f.dateOfBirth)) else None,
          if f.password != "" then Some(f.password) else None,
          if f.role != start.role then Some(f.role) else None)
  }

  /** The intended change set is empty exactly when the admin typed no
   *  password and left every sent field as it opened. */
  lemma IntendedDiffEmptyIffUntouched(f: EditForm, u: Row)
    ensures IntendedDiff(f, u) == NoChanges <==>
              f.(authProvider := "") == OpenForm(u).(authProvider := "")
  {
    var start := OpenForm(u);
    if IntendedDiff(f, u) == NoChanges {
      assert f.fullName == start.fullName && f.email == start.email && f.phoneNumber == start.phoneNumber;
      assert f.gender == start.gender && f.dateOfBirth == start.dateOfBirth && f.role == start.role;
    }
  }

  /** As written, a user whose name is `null` cannot be saved unedited:
   *  opening and saving at once sends `fullName: ''`. */
  lemma UnchangedFormStillSends(u: Row)
    requires u.fullName.None?
    ensures EditDiff(OpenForm(u), u) != NoChanges
    ensures EditDiff(OpenForm(u), u).fullName == Some("")
    ensures IntendedDiff(OpenForm(u), u) == NoChanges
  {
    IntendedDiffEmptyIffUntouched(OpenForm(u), u);
  }

  /** The two change sets agree on a user whose every text field is
   *  filled in. */
  lemma DiffsAgreeOnCompleteRows(f: EditForm, u: Row)
    requires Truthy(u.fullName) && Truthy(u.email) && Truthy(u.phoneNumber) && Truthy(u.gender) && u.role != ""
    ensures EditDiff(f, u) == IntendedDiff(f, u)
  {
  }

  /** The row the list shows after a save: the selected user with the
   *  change set laid over it, except that the date of birth is replaced
   *  only by a non-empty new date, so a cleared date still shows the old
   *  one. */
  function ApplyPatch(u: Row, p: Patch): (r: Row)
    ensures r.id == u.id && r.coinBalance == u.coinBalance && r.authProvider == u.authProvider
    ensures r.fullName == if p.fullName.Some? then p.fullName else u.fullName
    ensures r.email == if p.email.Some? then p.email.value else u.email
    ensures r.dateOfBirth == if p.dateOfBirth.Some? && Truthy(p.dateOfBirth.value) then p.dateOfBirth.value else u.dateOfBirth
    ensures r.role == if p.role.Some? then p.role.value else u.role
    ensures r.phoneNumber == if p.phoneNumber.Some? then p.phoneNumber.value else u.phoneNumber
    ensures r.gender == if p.gender.Some? then p.gender else u.gender
  {
    u.(fullName := if p.fullName.Some? then p.fullName else u.fullName,
       email := if p.email.Some? then p.email.value else u.email,
       phoneNumber := if p.phoneNumber.Some? then p.phoneNumber.value else u.phoneNumber,
       gender := if p.gender.Some? then p.gender else u.gender,
       dateOfBirth := if p.dateOfBirth.Some? && Truthy(p.dateOfBirth.value) then p.dateOfBirth.value else u.dateOfBirth,
       role := if p.role.Some? then p.role.value else u.role)
  }

  /** `users.map(user => user.id === id ? f(user) : user)`. */
  function UpdateWhere(users: seq<Row>, id: nat, f: Row -> Row): (r: seq<Row>)
    ensures |r| == |users|
    ensures forall i :: 0 <= i < |users| ==> r[i] == if users[i].id == id then f(users[i]) else users[i]
  {
    seq(|users|, i requires 0 <= i < |users| => if users[i].id == id then f(users[i]) else users[i])
  }

  /** `users.filter(user => user.id !== id)`. */
  function WithoutId(users: seq<Row>, id: nat): (r: seq<Row>)
    ensures |r| <= |users|
  {
    if users == [] then []
    else (if users[0].id != id then [users[0]] else []) + WithoutId(users[1..], id)
  }

  /** The filter keeps exactly the rows with another id. */
  lemma {:induction false} WithoutIdMembers(users: seq<Row>, id: nat)
    ensures forall u :: u in WithoutId(users, id) <==> u in users && u.id != id
    decreases |users|
  {
    if users != [] {
      WithoutIdMembers(users[1..], id);
      assert users == [users[0]] + users[1..];
    }
  }

  /** No two rows share an id. */
  predicate IdsDistinct(users: seq<Row>)
  {
    forall i, j :: 0 <= i < j < |users| ==> users[i].id != users[j].id
  }

  /** With distinct ids, deleting the row at `k` leaves the list with that
   *  one row cut out, in order. */
  lemma {:induction false} WithoutIdCutsOne(users: seq<Row>, k: nat)
    requires IdsDistinct(users) && k < |users|
    ensures WithoutId(users, users[k].id) == users[..k] + users[k + 1..]
    decreases |users|
  {
    var id := users[k].id;
    var rest := users[1..];
    assert IdsDistinct(rest) by {
      forall i, j | 0 <= i < j < |rest| ensures rest[i].id != rest[j].id {
        assert rest[i] == users[i + 1] && rest[j] == users[j + 1];
      }
    }
    if k == 0 {
      forall i | 0 <= i < |rest| ensures rest[i].id != id {
        assert rest[i] == users[i + 1];
      }
      WithoutIdAbsent(rest, id);
      assert WithoutId(users, id) == rest;
    } else {
      assert users[0].id != id;
      assert rest[k - 1] == users[k];
      WithoutIdCutsOne(rest, k - 1);
      assert WithoutId(users, id) == [users[0]] + (rest[..k - 1] + rest[k..]);
      assert rest[..k - 1] == users[1..k] && rest[k..] == users[k + 1..];
      assert users[..k] == [users[0]] + users[1..k];
    }
  }

  /** Deleting an id no row has changes nothing. */
  lemma {:induction false} WithoutIdAbsent(users: seq<Row>, id: nat)
    requires forall i :: 0 <= i < |users| ==> users[i].id != id
    ensures WithoutId(users, id) == users
    decreases |users|
  {
    if users != [] {
      WithoutIdAbsent(users[1..], id);
    }
  }

  /** The coin dialog's confirm button is disabled for a zero amount, an
   *  empty note, a pending request, or a withdrawal that would take the
   *  shown balance (`0` when none is selected) below zero. */
  predicate CoinConfirmDisabled(amount: int, note: string, loading: bool, selected: Option<Row>)
  {
    var balance := if selected.Some? then selected.value.coinBalance else 0;
    amount == 0 || note == "" || loading || (amount < 0 && balance + amount < 0)
  }

  /** An enabled confirm button never asks the server to overdraw the
   *  shown balance, and for a non-zero amount, a note and no pending
   *  request, overdrawing is the only reason it is disabled. */
  lemma CoinConfirmMatchesOverdraftRule(amount: int, note: string, loading: bool, u: Row)
    requires u.coinBalance >= 0
    ensures !CoinConfirmDisabled(amount, note, loading, Some(u)) ==> u.coinBalance + amount >= 0
    ensures amount != 0 && note != "" && !loading ==>
              (CoinConfirmDisabled(amount, note, loading, Some(u)) <==> u.coinBalance + amount < 0)
  {
  }

  /** The button lets through a one- or two-character note, which the
   *  server's body check refuses. */
  lemma ShortNoteEnabledButRefused(u: Row)
    requires u.coinBalance >= 0
    ensures !CoinConfirmDisabled(5, "ok", false, Some(u))
    ensures !Validate(AdjustCoinDto(5, "ok"))
  {
  }

  /** The reset body: the e-mail if truthy, the phone number if truthy,
   *  and the new password. */
  function ResetBodyFor(u: Row, newPassword: string): (d: RP.ResetPasswordDto)
    ensures d.newPassword == newPassword
    ensures Truthy(d.email) <==> Truthy(u.email)
    ensures Truthy(d.phoneNumber) <==> Truthy(u.phoneNumber)
  {
    RP.ResetPasswordDto(if Truthy(u.email) then u.email else None,
                     if Truthy(u.phoneNumber) then u.phoneNumber else None,
                     newPassword)
  }

  /** The dialog checks only that the new password is non-empty, so the
   *  server decides: a user with both identifiers is reset exactly when the
   *  password has eight characters, and a user with neither never is. */
  lemma ResetBodyAgainstServer(u: Row, newPassword: string, isEmail: string -> bool)
    ensures Truthy(u.email) && Truthy(u.phoneNumber) ==>
              (RP.Validate(ResetBodyFor(u, newPassword), isEmail) <==> |newPassword| >= 8)
    ensures !Truthy(u.email) && !Truthy(u.phoneNumber) ==> !RP.Validate(ResetBodyFor(u, newPassword), isEmail)
  {
  }

  datatype Dialog = Closed | DeleteDialog | RoleDialog | ResetDialog | EditDialog | CoinDialog

  class UserListPage {
    var users: seq<Row>
    var selected: Option<Row>
    var dialog: Dialog
    var form: EditForm
    var selectedRole: string
    var newPassword: string
    var coinAmount: int
    var coinNote: string
    var coinLoading: bool
    var saveLoading: bool
    var error: bool

    constructor ()
      ensures users == [] && selected.None? && dialog == Closed && !error
      ensures coinAmount == 0 && coinNote == "" && !coinLoading && !saveLoading
    {
      users := [];
      selected := None;
      dialog := Closed;
      form := EditForm("", "", "", "", "", "", "", "");
      selectedRole := "";
      newPassword := "";
      coinAmount := 0;
      coinNote := "";
      coinLoading := false;
      saveLoading := false;
      error := false;
    }

    /** `fetchUsers`: the response replaces the list; a failure keeps it
     *  and sets the error. */
    method FetchUsers(response: Option<seq<Row>>)
      modifies this
      ensures response.Some? ==> users == response.value && !error
      ensures response.None? ==> users == old(users) && error
      ensures selected == old(selected) && dialog == old(dialog)
    {
      if response.Some? {
        users := response.value;
        error := false;
      } else {
        error := true;
      }
    }

    method OpenEditDialog(u: Row)
      modifies this
      ensures selected == Some(u) && form == OpenForm(u) && dialog == EditDialog
      ensures users == old(users) && error == old(error)
    {
      selected := Some(u);
      form := OpenForm(u);
      dialog := EditDialog;
    }

    method OpenCoinDialog(u: Row)
      modifies this
      ensures selected == Some(u) && coinAmount == 0 && coinNote == "" && dialog == CoinDialog
      ensures users == old(users) && error == old(error)
    {
      selected := Some(u);
      coinAmount := 0;
      coinNote := "";
      dialog := CoinDialog;
    }

    /** `handleSaveUserChanges`: with no user selected it returns before
     *  touching any state; with no change nothing is sent and the
     *  dialog closes; otherwise the change set is sent and, when the
     *  request succeeds, the selected user's rows are replaced by the
     *  patched user and the dialog closes. */
    method SaveUserChanges(apiOk: bool) returns (sent: Option<Patch>)
      modifies this
      ensures old(selected).None? ==>
        sent.None? && users == old(users) && dialog == old(dialog) && selected == old(selected)
        && saveLoading == old(saveLoading) && error == old(error)
      ensures old(selected).Some? ==> !saveLoading
      ensures old(selected).Some? ==>
        var u := old(selected).value;
        var p := EditDiff(old(form), u);
        (p == NoChanges ==> sent.None? && users == old(users) && dialog == Closed && selected.None?)
        && (p != NoChanges ==> sent == Some(p))
        && (p != NoChanges && apiOk ==>
              users == UpdateWhere(old(users), u.id, _ => ApplyPatch(u, p)) && dialog == Closed && selected.None?)
        && (p != NoChanges && !apiOk ==> users == old(users) && error && dialog == old(dialog))
    {
      if selected.None? {
        return None;
      }
      var u := selected.value;
      var p := EditDiff(form, u);
      if p == NoChanges {
        CloseEditDialog();
        return None;
      }
      sent := Some(p);
      if apiOk {
        users := UpdateWhere(users, u.id, _ => ApplyPatch(u, p));
        CloseEditDialog();
      } else {
        error := true;
      }
      saveLoading := false;
    }

    method CloseEditDialog()
      modifies this
      ensures dialog == Closed && selected.None? && !saveLoading
      ensures users == old(users) && error == old(error)
    {
      dialog := Closed;
      selected := None;
      form := EditForm("", "", "", "", "", "", "", "");
      saveLoading := false;
    }

    /** `handleAdjustCoin`: needs a selected user and a note.  On success
     *  every row with the user's id takes the balance the server returned,
     *  and the dialog closes and resets. */
    method AdjustCoin(serverBalance: Option<int>) returns (sent: Option<AdjustCoinDto>)
      modifies this
      ensures old(selected).None? || old(coinNote) == "" ==>
        sent.None? && users == old(users) && dialog == old(dialog) && error == old(error)
      ensures old(selected).Some? && old(coinNote) != "" ==>
        sent == Some(AdjustCoinDto(old(coinAmount), old(coinNote)))
        && (serverBalance.Some? ==>
              users == UpdateWhere(old(users), old(selected).value.id, (u: Row) => u.(coinBalance := serverBalance.value))
              && dialog == Closed && selected.None? && coinAmount == 0 && coinNote == "")
        && (serverBalance.None? ==> users == old(users) && error)
        && !coinLoading
    {
      if selected.None? || coinNote == "" {
        return None;
      }
      coinLoading := true;
      sent := Some(AdjustCoinDto(coinAmount, coinNote));
      if serverBalance.Some? {
        var b := serverBalance.value;
        users := UpdateWhere(users, selected.value.id, (u: Row) => u.(coinBalance := b));
        dialog := Closed;
        selected := None;
        coinAmount := 0;
        coinNote := "";
      } else {
        error := true;
      }
      coinLoading := false;
    }

    /** `handleDeleteUser`: on success the selected user's rows leave the
     *  list and the dialog closes. `apiOk` is false also when the server
     *  refuses a user that ledger rows or notifications still refer to. */
    method DeleteUser(apiOk: bool)
      modifies this
      ensures old(selected).Some? && apiOk ==>
        users == WithoutId(old(users), old(selected).value.id) && dialog == Closed && selected.None?
      ensures old(selected).Some? && !apiOk ==> users == old(users) && error
      ensures old(selected).None? ==> users == old(users) && error == old(error)
    {
      if selected.None? {
        return;
      }
      if apiOk {
        users := WithoutId(users, selected.value.id);
        dialog := Closed;
        selected := None;
      } else {
        error := true;
      }
    }

    /** `handleUpdateRole`: on success only the role of the selected
     *  user's rows changes. */
    method UpdateRole(apiOk: bool)
      modifies this
      ensures old(selected).Some? && apiOk ==>
        users == UpdateWhere(old(users), old(selected).value.id, (u: Row) => u.(role := old(selectedRole)))
        && dialog == Closed && selected.None? && selectedRole == ""
      ensures old(selected).Some? && !apiOk ==> users == old(users) && error
      ensures old(selected).None? ==> users == old(users) && error == old(error)
    {
      if selected.None? {
        return;
      }
      if apiOk {
        var role := selectedRole;
        users := UpdateWhere(users, selected.value.id, (u: Row) => u.(role := role));
        dialog := Closed;
        selected := None;
        selectedRole := "";
      } else {
        error := true;
      }
    }

    /** `handleResetPassword`: needs a selected user and a non-empty
     *  password; the list never changes. */
    method ResetPassword(apiOk: bool) returns (sent: Option<RP.ResetPasswordDto>)
      modifies this
      ensures users == old(users)
      ensures old(selected).None? || old(newPassword) == "" ==> sent.None? && error == old(error)
      ensures old(selected).Some? && old(newPassword) != "" ==>
        sent == Some(ResetBodyFor(old(selected).value, old(newPassword)))
        && (apiOk ==> !error && dialog == Closed && selected.None? && newPassword == "")
        && (!apiOk ==> error)
    {
      if selected.None? || newPassword == "" {
        return None;
      }
      sent := Some(ResetBodyFor(selected.value, newPassword));
      if apiOk {
        dialog := Closed;
        selected := None;
        newPassword := "";
        error := false;
      } else {
        error := true;
      }
    }
  }

  /** After a successful adjustment, the adjusted user's rows carry the
   *  server's balance and nothing else about any row changes. */
  lemma AdjustTouchesOnlyBalance(users: seq<Row>, id: nat, b: int)
    ensures var r := UpdateWhere(users, id, (u: Row) => u.(coinBalance := b));
            forall i :: 0 <= i < |users| ==>
              r[i].(coinBalance := 0) == users[i].(coinBalance := 0)
              && r[i].coinBalance == if users[i].id == id then b else users[i].coinBalance
  {
  }
}

=== FILE: user_service.dfy ===
/**
 * `UserService`: the `users` table and the `coin_transactions` ledger, and
 * every service operation that reads or writes them.  Each call is one
 * atomic step: it either applies completely or, on any error, leaves both
 * tables as they were (the services' query-runner transactions and
 * single-statement writes).
 *
 * The invariant `Valid()` is the ledger property the coin operations keep:
 * every user's `coinBalance` is the sum of that user's signed ledger rows
 * and is never negative.  Besides, ids are below the next auto-increment
 * value, the unique indexes on e-mail and phone hold, and ledger rows are
 * stored in the order of their creation times.
 */
module UserService {
  import opened Common
  import opened UserEntity
  import opened CoinTransactionEntity
  import opened AdjustCoinDto
  import opened CreateUserDto
  import opened ResetPasswordDto
  import opened UpdateProfileDto
  import Jwt
  import NS = NotificationService
  import NE = NotificationEntity

  /** The fields `update` reads from its body (`UpdateUserDto`). */
  datatype UpdateUserDto = UpdateUserDto(
    fullName: Option<string>,
    email: Option<string>,
    phoneNumber: Option<string>,
    gender: Option<Gender>,
    dateOfBirth: Option<string>,
    password: Option<string>)

  /** `UpdateUserSimpleDto`; the whitelisting pipe strips every other key. */
  datatype UpdateUserSimpleDto = UpdateUserSimpleDto(
    fullName: Option<string>,
    email: Option<string>,
    gender: Option<Gender>,
    avatar: Option<string>,
    address: Option<string>)

  datatype UserStats = UserStats(total: nat, admins: nat, users: nat)

  /** A ledger row with its `user` relation loaded by `leftJoinAndSelect`:
   *  the whole stored user row, or null when no user has that id. */
  datatype JoinedTransaction = JoinedTransaction(row: CoinTransaction, user: Option<User>)

  datatype CoinStats = CoinStats(
    totalCoins: int,
    totalDeposits: int,
    totalWithdrawals: int,
    usersWithCoins: nat,
    recentTransactions: seq<JoinedTransaction>)

  /** How many rows `getTotalSystemCoins` lists. */
  const RecentLimit: nat := 20

  /** The ledger's `performedBy`: the admin's e-mail, or `admin-<id>` when
   *  the e-mail is empty or NULL. */
  function PerformedBy(admin: User): (s: string)
    ensures Truthy(admin.email) ==> s == admin.email.value
    ensures !Truthy(admin.email) ==> s == "admin-" + NatToString(admin.id)
    ensures s != ""
  {
    OrElse(admin.email, "admin-" + NatToString(admin.id))
  }

  /** The ledger row type chosen for a signed amount: zero counts as a
   *  deposit. */
  function KindFor(amount: int): (k: TransactionType)
    ensures k == Deposit <==> amount >= 0
  {
    if amount >= 0 then Deposit else Withdraw
  }

  /** A row written for `amount` contributes exactly `amount` to its user's
   *  balance: the absolute value with the sign carried by the type. */
  lemma SignedRowAmount(t: CoinTransaction, amount: int)
    requires t.amount == Abs(amount) && t.kind == KindFor(amount)
    ensures SignedAmount(t) == amount
  {
  }

  /** Rows in insertion order: creation times strictly increase. */
  ghost predicate ChronologicalRows(rows: seq<CoinTransaction>)
  {
    forall i, j :: 0 <= i < j < |rows| ==> rows[i].createdAt < rows[j].createdAt
  }

  /** The invariant of the two tables: ids below the next auto-increment
   *  value, balances equal to the ledger and never negative, the unique
   *  indexes respected, every ledger row pointing at an existing user (the
   *  `user_id` foreign key, which SQLite enforces), ledger rows in creation
   *  order. */
  ghost predicate Consistent(users: map<nat, User>, rows: seq<CoinTransaction>, nextUserId: nat, nextTxId: nat, clock: nat)
  {
    (forall id :: id in users ==> users[id].id == id && id < nextUserId)
    && (forall id :: id in users ==> users[id].coinBalance == Net(rows, id) && users[id].coinBalance >= 0)
    && (forall a, b :: a in users && b in users && a != b ==> !SharesIdentity(users[a], users[b]))
    && (forall i :: 0 <= i < |rows| ==>
          rows[i].userId in users && rows[i].userId < nextUserId && rows[i].id < nextTxId && rows[i].createdAt < clock && rows[i].amount >= 0)
    && ChronologicalRows(rows)
  }

  /** Deleting a user together with all of the user's ledger rows keeps
   *  the tables consistent and leaves no row of that user. */
  lemma DeleteKeepsConsistent(users: map<nat, User>, rows: seq<CoinTransaction>, nextUserId: nat, nextTxId: nat, clock: nat, id: nat)
    requires Consistent(users, rows, nextUserId, nextTxId, clock)
    ensures Consistent(users - {id}, RowsNotOf(rows, id), nextUserId, nextTxId, clock)
    ensures RowsOf(RowsNotOf(rows, id), id) == []
  {
    var kept, left := RowsNotOf(rows, id), users - {id};
    forall v | v in left
      ensures left[v].coinBalance == Net(kept, v)
    {
      NetRowsNotOf(rows, id, v);
    }
    forall i | 0 <= i < |kept|
      ensures kept[i].userId in left && kept[i].userId < nextUserId && kept[i].id < nextTxId
              && kept[i].createdAt < clock && kept[i].amount >= 0
    {
      assert kept[i] in kept;
      var k :| 0 <= k < |rows| && rows[k] == kept[i];
    }
    RowsNotOfKeeps(rows, id);
    NoRowsOfLeft(rows, id);
  }

  /** Writing one ledger row for `amount` together with the balance it
   *  implies keeps the tables consistent. */
  lemma AdjustKeepsConsistent(users: map<nat, User>, rows: seq<CoinTransaction>, nextUserId: nat, nextTxId: nat, clock: nat,
                              row: CoinTransaction, amount: int)
    requires Consistent(users, rows, nextUserId, nextTxId, clock)
    requires row.userId in users && users[row.userId].coinBalance + amount >= 0
    requires row.id == nextTxId && row.createdAt == clock && row.amount == Abs(amount) && row.kind == KindFor(amount)
    ensures Consistent(users[row.userId := users[row.userId].(coinBalance := users[row.userId].coinBalance + amount)],
                       rows + [row], nextUserId, nextTxId + 1, clock + 1)
  {
    var users' := users[row.userId := users[row.userId].(coinBalance := users[row.userId].coinBalance + amount)];
    AdjustedBalances(users, rows, nextUserId, nextTxId, clock, row, amount, users');
    BalanceChangeKeepsIdentities(users, rows, nextUserId, nextTxId, clock, row.userId, users[row.userId].coinBalance + amount, users');
    AppendedRowBounded(users, rows, nextUserId, nextTxId, clock, row, users');
    ChronologicalExtend(rows, row);
    ConsistentIntro(users', rows + [row], nextUserId, nextTxId + 1, clock + 1);
  }

  /** `Consistent` from its five parts. */
  lemma ConsistentIntro(users: map<nat, User>, rows: seq<CoinTransaction>, nextUserId: nat, nextTxId: nat, clock: nat)
    requires forall id :: id in users ==> users[id].id == id && id < nextUserId
    requires forall id :: id in users ==> users[id].coinBalance == Net(rows, id) && users[id].coinBalance >= 0
    requires forall a, b :: a in users && b in users && a != b ==> !SharesIdentity(users[a], users[b])
    requires forall i :: 0 <= i < |rows| ==>
               rows[i].userId in users && rows[i].userId < nextUserId && rows[i].id < nextTxId && rows[i].createdAt < clock && rows[i].amount >= 0
    requires ChronologicalRows(rows)
    ensures Consistent(users, rows, nextUserId, nextTxId, clock)
  {
  }

  /** After the row for `amount` is written and the balance moved by
   *  `amount`, every balance is still its ledger sum. */
  lemma AdjustedBalances(users: map<nat, User>, rows: seq<CoinTransaction>, nextUserId: nat, nextTxId: nat, clock: nat,
                         row: CoinTransaction, amount: int, users': map<nat, User>)
    requires Consistent(users, rows, nextUserId, nextTxId, clock)
    requires row.userId in users && users[row.userId].coinBalance + amount >= 0
    requires row.amount == Abs(amount) && row.kind == KindFor(amount)
    requires users' == users[row.userId := users[row.userId].(coinBalance := users[row.userId].coinBalance + amount)]
    ensures forall id :: id in users' ==> users'[id].coinBalance == Net(rows + [row], id) && users'[id].coinBalance >= 0
  {
    forall id | id in users'
      ensures users'[id].coinBalance == Net(rows + [row], id) && users'[id].coinBalance >= 0
    {
      NetAppend(rows, row, id);
      SignedRowAmount(row, amount);
    }
  }

  /** Changing one user's balance touches no id, e-mail or phone number. */
  lemma BalanceChangeKeepsIdentities(users: map<nat, User>, rows: seq<CoinTransaction>, nextUserId: nat, nextTxId: nat, clock: nat,
                                     k: nat, c: int, users': map<nat, User>)
    requires Consistent(users, rows, nextUserId, nextTxId, clock)
    requires k in users
    requires users' == users[k := users[k].(coinBalance := c)]
    ensures forall id :: id in users' ==> users'[id].id == id && id < nextUserId
    ensures forall a, b :: a in users' && b in users' && a != b ==> !SharesIdentity(users'[a], users'[b])
  {
    assert forall a :: a in users' ==> users'[a].email == users[a].email && users'[a].phoneNumber == users[a].phoneNumber;
  }

  /** The row bounds survive appending a row written now for an existing
   *  user, whatever the balances become. */
  lemma AppendedRowBounded(users: map<nat, User>, rows: seq<CoinTransaction>, nextUserId: nat, nextTxId: nat, clock: nat,
                           row: CoinTransaction, users': map<nat, User>)
    requires Consistent(users, rows, nextUserId, nextTxId, clock)
    requires row.userId in users && row.id == nextTxId && row.createdAt == clock && row.amount >= 0
    requires users'.Keys == users.Keys
    ensures forall x :: x in rows ==> x.createdAt < row.createdAt
    ensures forall i :: 0 <= i < |rows + [row]| ==>
              (rows + [row])[i].userId in users' && (rows + [row])[i].userId < nextUserId && (rows + [row])[i].id < nextTxId + 1
              && (rows + [row])[i].createdAt < clock + 1 && (rows + [row])[i].amount >= 0
  {
    forall i | 0 <= i < |rows + [row]|
      ensures (rows + [row])[i].userId in users' && (rows + [row])[i].userId < nextUserId && (rows + [row])[i].id < nextTxId + 1
              && (rows + [row])[i].createdAt < clock + 1 && (rows + [row])[i].amount >= 0
    {
      if i < |rows| {
        assert (rows + [row])[i] == rows[i];
      }
    }
  }

  /** `ORDER BY createdAt DESC`. */
  predicate NewestFirst(s: seq<CoinTransaction>)
  {
    forall i, j :: 0 <= i < j < |s| ==> s[i].createdAt > s[j].createdAt
  }

  /** A row as it should be shown to other users: without the password hash
   *  and without the stored refresh token. */
  function PublicView(u: User): (v: User)
    ensures v.password.None? && v.refreshToken.None?
    ensures v.(password := u.password, refreshToken := u.refreshToken) == u
  {
    u.(password := None, refreshToken := None)
  }

  /** `LEFT JOIN users ON users.id = user_id` over `rows`, row by row. */
  function JoinUsers(users: map<nat, User>, rows: seq<CoinTransaction>): (r: seq<JoinedTransaction>)
    ensures |r| == |rows|
    ensures forall i :: 0 <= i < |rows| ==>
              (r[i].row == rows[i] && r[i].user == if rows[i].userId in users then Some(users[rows[i].userId]) else None)
  {
    if rows == [] then []
    else JoinUsers(users, rows[..|rows| - 1])
         + [JoinedTransaction(rows[|rows| - 1], if rows[|rows| - 1].userId in users then Some(users[rows[|rows| - 1].userId]) else None)]
  }

  /** The at most `limit` newest rows, newest first, with their users
   *  joined. */
  function NewestJoined(users: map<nat, User>, rows: seq<CoinTransaction>, limit: nat): (r: seq<JoinedTransaction>)
    requires ChronologicalRows(rows) && forall i :: 0 <= i < |rows| ==> rows[i].userId in users
    ensures |r| == if |rows| < limit then |rows| else limit
    ensures forall i :: 0 <= i < |r| ==>
              (r[i].row == rows[|rows| - 1 - i] && r[i].row.userId in users && r[i].user == Some(users[r[i].row.userId]))
    ensures forall i, j :: 0 <= i < j < |r| ==> r[i].row.createdAt > r[j].row.createdAt
    ensures forall i, j :: 0 <= i < |r| && 0 <= j < |rows| - |r| ==> rows[j].createdAt < r[i].row.createdAt
  {
    var n := if |rows| < limit then |rows| else limit;
    var r := JoinUsers(users, Reverse(rows)[..n]);
    assert forall i :: 0 <= i < n ==> r[i].row == Reverse(rows)[i];
    r
  }

  /** Each joined user replaced by its public view. */
  function PublicJoined(s: seq<JoinedTransaction>): (r: seq<JoinedTransaction>)
    ensures |r| == |s|
    ensures forall i :: 0 <= i < |s| ==>
              r[i].row == s[i].row && r[i].user == (if s[i].user.Some? then Some(PublicView(s[i].user.value)) else None)
  {
    if s == [] then []
    else [s[0].(user := if s[0].user.Some? then Some(PublicView(s[0].user.value)) else None)] + PublicJoined(s[1..])
  }

  function PublicRows(s: seq<User>): (r: seq<User>)
    ensures |r| == |s|
    ensures forall i :: 0 <= i < |s| ==> r[i] == PublicView(s[i])
  {
    if s == [] then [] else [PublicView(s[0])] + PublicRows(s[1..])
  }

  /** The row `create` inserts: the provider defaults to local, a password is
   *  hashed only when truthy and the provider is not Google, and a birth
   *  date is stored only when truthy. */
  function SignupRow(id: nat, d: CreateUserDto): (u: User)
    ensures u.id == id && u.coinBalance == 0 && u.role == Regular
    ensures u.email == d.email && u.phoneNumber == d.phoneNumber && u.fullName == d.fullName
    ensures u.authProvider == (if d.authProvider.Some? then d.authProvider.value else Local)
    ensures u.password.Some? <==> Truthy(d.password) && d.authProvider != Some(Google)
    ensures u.password.Some? ==> u.password.value == Bcrypt(d.password.value)
    ensures u.dateOfBirth.Some? <==> Truthy(d.dateOfBirth)
    ensures Truthy(d.email) || Truthy(d.phoneNumber) ==> CheckRequiredFields(u).Ok?
  {
    NewUser(id, d.fullName, d.phoneNumber, d.email,
            if Truthy(d.password) && d.authProvider != Some(Google) then Some(Bcrypt(d.password.value)) else None,
            if Truthy(d.dateOfBirth) then d.dateOfBirth else None,
            d.gender, Some(if d.authProvider.Some? then d.authProvider.value else Local), None)
  }

  /** The row `update` writes: each field the body defines is copied, the
   *  password is replaced (hashed) only when truthy; nothing else moves. */
  function UpdatedRow(u: User, d: UpdateUserDto): (v: User)
    ensures v.id == u.id && v.coinBalance == u.coinBalance && v.role == u.role && v.authProvider == u.authProvider
    ensures v.fullName == (if d.fullName.Some? then d.fullName else u.fullName)
    ensures v.email == (if d.email.Some? then d.email else u.email)
    ensures v.phoneNumber == (if d.phoneNumber.Some? then d.phoneNumber else u.phoneNumber)
    ensures v.password == (if Truthy(d.password) then Some(Bcrypt(d.password.value)) else u.password)
    ensures v.avatar == u.avatar && v.address == u.address && v.refreshToken == u.refreshToken
    ensures v.gender == (if d.gender.Some? then d.gender else u.gender)
    ensures v.dateOfBirth == (if d.dateOfBirth.Some? then d.dateOfBirth else u.dateOfBirth)
  {
    u.(fullName := if d.fullName.Some? then d.fullName else u.fullName,
       email := if d.email.Some? then d.email else u.email,
       phoneNumber := if d.phoneNumber.Some? then d.phoneNumber else u.phoneNumber,
       gender := if d.gender.Some? then d.gender else u.gender,
       dateOfBirth := if d.dateOfBirth.Some? then d.dateOfBirth else u.dateOfBirth,
       password := if Truthy(d.password) then Some(Bcrypt(d.password.value)) else u.password)
  }

  /** Whether `updateProfile` changes the password: both the old and the new
   *  one are truthy. */
  predicate ChangesPassword(d: UpdateProfileDto)
  {
    Truthy(d.oldPassword) && Truthy(d.newPassword)
  }

  /** The row `updateProfile` writes once its checks pass.  `avatar` wins
   *  over `avatarUrl`; the phone number, role and balance never move. */
  function ProfileRow(u: User, d: UpdateProfileDto): (v: User)
    ensures v.id == u.id && v.coinBalance == u.coinBalance && v.role == u.role
    ensures v.phoneNumber == u.phoneNumber
    ensures v.email == (if d.email.Some? then d.email else u.email)
    ensures v.avatar == (if d.avatar.Some? then d.avatar else if d.avatarUrl.Some? then d.avatarUrl else u.avatar)
    ensures v.password == (if ChangesPassword(d) then Some(Bcrypt(d.newPassword.value)) else u.password)
    ensures v.fullName == (if d.fullName.Some? then d.fullName else u.fullName)
    ensures v.gender == (if d.gender.Some? then d.gender else u.gender)
    ensures v.dateOfBirth == (if d.dateOfBirth.Some? then d.dateOfBirth else u.dateOfBirth)
    ensures v.address == (if d.address.Some? then d.address else u.address)
    ensures v.authProvider == u.authProvider && v.refreshToken == u.refreshToken
  {
    User(u.id,
         if d.fullName.Some? then d.fullName else u.fullName,
         u.phoneNumber,
         if d.email.Some? then d.email else u.email,
         if ChangesPassword(d) then Some(Bcrypt(d.newPassword.value)) else u.password,
         if d.dateOfBirth.Some? then d.dateOfBirth else u.dateOfBirth,
         if d.gender.Some? then d.gender else u.gender,
         if d.avatar.Some? then d.avatar else if d.avatarUrl.Some? then d.avatarUrl else u.avatar,
         u.authProvider,
         u.role,
         if d.address.Some? then d.address else u.address,
         u.coinBalance,
         u.refreshToken)
  }

  /** `Object.assign(user, dto)` for the five whitelisted fields. */
  function SimpleRow(u: User, d: UpdateUserSimpleDto): (v: User)
    ensures v.id == u.id && v.coinBalance == u.coinBalance && v.role == u.role
    ensures v.password == u.password && v.phoneNumber == u.phoneNumber
    ensures v.email == (if d.email.Some? then d.email else u.email)
    ensures v.fullName == (if d.fullName.Some? then d.fullName else u.fullName)
    ensures v.avatar == (if d.avatar.Some? then d.avatar else u.avatar)
    ensures v.address == (if d.address.Some? then d.address else u.address)
    ensures v.gender == (if d.gender.Some? then d.gender else u.gender)
    ensures v.dateOfBirth == u.dateOfBirth && v.authProvider == u.authProvider && v.refreshToken == u.refreshToken
  {
    u.(fullName := if d.fullName.Some? then d.fullName else u.fullName,
       email := if d.email.Some? then d.email else u.email,
       gender := if d.gender.Some? then d.gender else u.gender,
       avatar := if d.avatar.Some? then d.avatar else u.avatar,
       address := if d.address.Some? then d.address else u.address)
  }

  /** An existing row promoted by `createOrPromoteAdmin`: role admin, and a
   *  new password only when one is given. */
  function Promoted(u: User, password: string): (v: User)
    ensures v.role == Admin && v.id == u.id && v.coinBalance == u.coinBalance
    ensures v.email == u.email && v.phoneNumber == u.phoneNumber
    ensures v.password == (if password != "" then Some(Bcrypt(password)) else u.password)
  {
    u.(role := Admin, password := if password != "" then Some(Bcrypt(password)) else u.password)
  }

  /** The row `createOrPromoteAdmin` inserts, as written: the e-mail and the
   *  phone number are stored as given, so an empty string is stored as the
   *  empty string, not as NULL. */
  function AdminRow(id: nat, email: string, phone: string, password: string): (u: User)
    ensures u.email == Some(email) && u.phoneNumber == Some(phone)
    ensures u.role == Admin && u.authProvider == Local && u.coinBalance == 0 && u.id == id
    ensures u.password == Some(Bcrypt(password))
  {
    NewUser(id, None, Some(phone), Some(email), Some(Bcrypt(password)), None, None, Some(Local), Some(Admin))
  }

  /** The row as evidently intended: an identifier that was not supplied is
   *  left NULL. */
  function IntendedAdminRow(id: nat, email: string, phone: string, password: string): (u: User)
    ensures u.email == NonEmpty(email) && u.phoneNumber == NonEmpty(phone)
    ensures u.role == Admin && u.authProvider == Local && u.coinBalance == 0 && u.id == id
    ensures u.password == Some(Bcrypt(password))
  {
    NewUser(id, None, NonEmpty(phone), NonEmpty(email), Some(Bcrypt(password)), None, None, Some(Local), Some(Admin))
  }

  /** Replacing a row by one with the same balance and no identity clash keeps
   *  the tables consistent. */
  lemma WriteKeepsConsistent(users: map<nat, User>, rows: seq<CoinTransaction>, nextUserId: nat, nextTxId: nat, clock: nat, u: User)
    requires Consistent(users, rows, nextUserId, nextTxId, clock)
    requires u.id in users && u.coinBalance == users[u.id].coinBalance
    requires forall k :: k in users && k != u.id ==> !SharesIdentity(users[k], u)
    ensures Consistent(users[u.id := u], rows, nextUserId, nextTxId, clock)
  {
  }

  /** Inserting a fresh row with balance 0 under the next id, with no
   *  identity clash, keeps the tables consistent: no ledger row can belong
   *  to an id never handed out. */
  lemma InsertKeepsConsistent(users: map<nat, User>, rows: seq<CoinTransaction>, nextUserId: nat, nextTxId: nat, clock: nat, u: User)
    requires Consistent(users, rows, nextUserId, nextTxId, clock)
    requires u.id == nextUserId && u.coinBalance == 0
    requires forall k :: k in users ==> !SharesIdentity(users[k], u)
    ensures Consistent(users[u.id := u], rows, nextUserId + 1, nextTxId, clock)
  {
    NetNoRows(rows, u.id);
  }

  class UserService {
    var users: map<nat, User>
    var transactions: seq<CoinTransaction>
    /** The next auto-increment ids; SQLite's AUTOINCREMENT never reuses one. */
    var nextUserId: nat
    var nextTxId: nat
    /** The insertion clock behind `createdAt`. */
    var clock: nat
    const inbox: NS.NotificationService

    ghost predicate Valid()
      reads this
    {
      Consistent(users, transactions, nextUserId, nextTxId, clock)
    }

    constructor (inbox: NS.NotificationService)
      ensures Valid() && this.inbox == inbox
      ensures users == map[] && transactions == []
    {
      users := map[];
      transactions := [];
      nextUserId := 1;
      nextTxId := 1;
      clock := 0;
      this.inbox := inbox;
    }

    // ---------------------------------------------------------------- lookups

    /** The smallest id below `n` whose row satisfies `p`. */
    function FirstBelow(n: nat, p: User -> bool): (r: Option<nat>)
      reads this
      ensures r.Some? ==> r.value < n && r.value in users && p(users[r.value])
      ensures r.None? ==> forall k :: 0 <= k < n && k in users ==> !p(users[k])
      decreases n
    {
      if n == 0 then None
      else match FirstBelow(n - 1, p)
        case Some(k) => Some(k)
        case None => if n - 1 in users && p(users[n - 1]) then Some(n - 1) else None
    }

    /** `findOne({ where: { email } })`. */
    function WithEmail(e: string): (r: Option<nat>)
      reads this
      requires Valid()
      ensures r.Some? ==> r.value in users && users[r.value].email == Some(e)
      ensures r.None? ==> !EmailTaken(e)
    {
      FirstBelow(nextUserId, (u: User) => u.email == Some(e))
    }

    /** `findOne({ where: { phoneNumber } })`. */
    function WithPhone(p: string): (r: Option<nat>)
      reads this
      requires Valid()
      ensures r.Some? ==> r.value in users && users[r.value].phoneNumber == Some(p)
      ensures r.None? ==> !PhoneTaken(p)
    {
      FirstBelow(nextUserId, (u: User) => u.phoneNumber == Some(p))
    }

    ghost predicate EmailTaken(e: string)
      reads this
    {
      exists id :: id in users && users[id].email == Some(e)
    }

    ghost predicate PhoneTaken(p: string)
      reads this
    {
      exists id :: id in users && users[id].phoneNumber == Some(p)
    }

    /** The unique indexes refuse `u` as the row with id `u.id`. */
    ghost predicate Clashes(u: User)
      reads this
    {
      exists k :: k in users && k != u.id && SharesIdentity(users[k], u)
    }

    /** What the database reports when it checks the unique indexes. */
    function ClashCheck(u: User): (clash: bool)
      reads this
      requires Valid()
      ensures clash <==> Clashes(u)
    {
      FirstBelow(nextUserId, (v: User) => v.id != u.id && SharesIdentity(v, u)).Some?
    }

    /** `findOne(id)`: the row without its password, or NotFound. */
    function FindOne(id: nat): (r: Result<User>)
      reads this
      ensures r.Ok? <==> id in users
      ensures r.Ok? ==> r.value == WithoutPassword(users[id])
      ensures r.Err? ==> r.error == NotFound
    {
      if id in users then Ok(WithoutPassword(users[id])) else Err(NotFound)
    }

    /** The rows with an id below `n`, without their passwords, in id order. */
    function ListBelow(n: nat): (r: seq<User>)
      reads this
      requires Valid()
      ensures forall i :: 0 <= i < |r| ==> r[i].id in users && r[i].id < n && r[i] == WithoutPassword(users[r[i].id])
      ensures forall id :: id in users && id < n ==> WithoutPassword(users[id]) in r
    {
      if n == 0 then [] else ListBelow(n - 1) + (if n - 1 in users then [WithoutPassword(users[n - 1])] else [])
    }

    /** `findAll`: every row without its password.  Only the password is
     *  stripped: the stored refresh token stays in each listed row. */
    function FindAll(): (r: seq<User>)
      reads this
      requires Valid()
      ensures forall i :: 0 <= i < |r| ==> r[i].id in users && r[i] == WithoutPassword(users[r[i].id])
      ensures forall id :: id in users ==> WithoutPassword(users[id]) in r
      ensures forall id :: id in users && users[id].refreshToken.Some? ==>
                exists i :: 0 <= i < |r| && r[i].refreshToken == users[id].refreshToken
    {
      var r := ListBelow(nextUserId);
      assert forall id :: id in users ==> WithoutPassword(users[id]) in r;
      r
    }

    /** The listing as evidently intended: no credential of any kind leaves
     *  the server, and nothing else is withheld. */
    function FindAllPublic(): (r: seq<User>)
      reads this
      requires Valid()
      ensures |r| == |FindAll()|
      ensures forall i :: 0 <= i < |r| ==> r[i].password.None? && r[i].refreshToken.None?
      ensures forall i :: 0 <= i < |r| ==> r[i].id in users && r[i] == PublicView(users[r[i].id])
    {
      PublicRows(FindAll())
    }

    /** `findByEmail`: the full row, password included, or NotFound. */
    function FindByEmail(e: string): (r: Result<User>)
      reads this
      requires Valid()
      ensures r.Ok? <==> EmailTaken(e)
      ensures r.Ok? ==> r.value.id in users && users[r.value.id] == r.value && r.value.email == Some(e)
      ensures r.Err? ==> r.error == NotFound
    {
      match WithEmail(e)
      case Some(k) => Ok(users[k])
      case None => Err(NotFound)
    }

    /** `findByPhoneNumber`: the full row, password included, or NotFound. */
    function FindByPhoneNumber(p: string): (r: Result<User>)
      reads this
      requires Valid()
      ensures r.Ok? <==> PhoneTaken(p)
      ensures r.Ok? ==> r.value.id in users && users[r.value.id] == r.value && r.value.phoneNumber == Some(p)
      ensures r.Err? ==> r.error == NotFound
    {
      match WithPhone(p)
      case Some(k) => Ok(users[k])
      case None => Err(NotFound)
    }

    // ------------------------------------------------------- user table writes

    /** What `create` answers in the current state. */
    ghost function CreateOutcome(dto: CreateUserDto): Result<User>
      reads this
    {
      if !Truthy(dto.email) && !Truthy(dto.phoneNumber) then Err(BadRequest)
      else if Truthy(dto.phoneNumber) && PhoneTaken(dto.phoneNumber.value) then Err(Conflict)
      else if Truthy(dto.email) && EmailTaken(dto.email.value) then Err(Conflict)
      else if Clashes(SignupRow(nextUserId, dto)) then Err(InternalError)
      else Ok(WithoutPassword(SignupRow(nextUserId, dto)))
    }

    /** `create`: identity required, then the phone and the e-mail must be
     *  unused (phone first); the insert can still fail on the unique indexes
     *  when an empty string is stored as an identifier. */
    method Create(dto: CreateUserDto) returns (r: Result<User>)
      requires Valid()
      modifies this
      ensures Valid() && transactions == old(transactions)
      ensures r == old(CreateOutcome(dto))
      ensures r.Err? ==> users == old(users)
      ensures r.Ok? ==> old(nextUserId) !in old(users) && users == old(users)[old(nextUserId) := SignupRow(old(nextUserId), dto)]
    {
      if !Truthy(dto.email) && !Truthy(dto.phoneNumber) {
        return Err(BadRequest);
      }
      if Truthy(dto.phoneNumber) && WithPhone(dto.phoneNumber.value).Some? {
        return Err(Conflict);
      }
      if Truthy(dto.email) && WithEmail(dto.email.value).Some? {
        return Err(Conflict);
      }
      var u := SignupRow(nextUserId, dto);
      assert CheckRequiredFields(u).Ok?;
      if ClashCheck(u) {
        return Err(InternalError);
      }
      InsertKeepsConsistent(users, transactions, nextUserId, nextTxId, clock, u);
      users := users[nextUserId := u];
      nextUserId := nextUserId + 1;
      r := Ok(WithoutPassword(u));
    }

    /** `update`: NotFound, then a changed truthy e-mail and a changed truthy
     *  phone must be unused; the defined fields are written. */
    method Update(id: nat, dto: UpdateUserDto) returns (r: Result<User>)
      requires Valid()
      modifies this
      ensures Valid() && transactions == old(transactions)
      ensures id !in old(users) ==> r == Err(NotFound)
      ensures id in old(users) ==>
        var u := old(users)[id];
        r == (if Truthy(dto.email) && dto.email != u.email && old(EmailTaken(dto.email.value)) then Err(Conflict)
              else if Truthy(dto.phoneNumber) && dto.phoneNumber != u.phoneNumber && old(PhoneTaken(dto.phoneNumber.value)) then Err(Conflict)
              else if old(Clashes(UpdatedRow(u, dto))) then Err(InternalError)
              else Ok(WithoutPassword(UpdatedRow(u, dto))))
      ensures r.Err? ==> users == old(users)
      ensures r.Ok? ==> users == old(users)[id := UpdatedRow(old(users)[id], dto)]
    {
      if id !in users {
        return Err(NotFound);
      }
      var u := users[id];
      if Truthy(dto.email) && dto.email != u.email && WithEmail(dto.email.value).Some? {
        return Err(Conflict);
      }
      if Truthy(dto.phoneNumber) && dto.phoneNumber != u.phoneNumber && WithPhone(dto.phoneNumber.value).Some? {
        return Err(Conflict);
      }
      var v := UpdatedRow(u, dto);
      if ClashCheck(v) {
        return Err(InternalError);
      }
      WriteKeepsConsistent(users, transactions, nextUserId, nextTxId, clock, v);
      users := users[id := v];
      r := Ok(WithoutPassword(v));
    }

    /** `setRefreshToken`: `update(userId, { refreshToken })`.  `None` is
     *  the `undefined` that `logout` passes; `update` leaves undefined
     *  properties out of the SET list, so the stored token stays (only the
     *  untracked `updated_at` column is written). */
    method SetRefreshToken(userId: nat, token: Option<Jwt.Token>) returns (r: Result<()>)
      requires Valid()
      modifies this
      ensures Valid() && transactions == old(transactions)
      ensures userId !in old(users) ==> r == Err(NotFound) && users == old(users)
      ensures userId in old(users) && token.None? ==> r == Ok(()) && users == old(users)
      ensures userId in old(users) && token.Some? ==>
        r == Ok(()) && users == old(users)[userId := old(users)[userId].(refreshToken := token)]
    {
      if userId !in users {
        return Err(NotFound);
      }
      if token.None? {
        return Ok(());
      }
      var v := users[userId].(refreshToken := token);
      WriteKeepsConsistent(users, transactions, nextUserId, nextTxId, clock, v);
      users := users[userId := v];
      r := Ok(());
    }

    /** The write `logout` evidently intends: `update(userId, { refreshToken:
     *  null })`, which does clear the stored token. */
    method ClearRefreshToken(userId: nat) returns (r: Result<()>)
      requires Valid()
      modifies this
      ensures Valid() && transactions == old(transactions)
      ensures userId !in old(users) ==> r == Err(NotFound) && users == old(users)
      ensures userId in old(users) ==>
        r == Ok(()) && users == old(users)[userId := old(users)[userId].(refreshToken := None)]
    {
      if userId !in users {
        return Err(NotFound);
      }
      var v := users[userId].(refreshToken := None);
      WriteKeepsConsistent(users, transactions, nextUserId, nextTxId, clock, v);
      users := users[userId := v];
      r := Ok(());
    }

    /** `resetPassword`: finds the account by a truthy e-mail, else by a
     *  truthy phone number; an unknown identifier, or none, is NotFound.
     *  The new password is hashed into the row found; `target` names it. */
    method ResetPassword(dto: ResetPasswordDto) returns (r: Result<()>, ghost target: nat)
      requires Valid()
      modifies this
      ensures Valid() && transactions == old(transactions)
      ensures Truthy(dto.email) ==> (r.Ok? <==> old(EmailTaken(dto.email.value)))
      ensures !Truthy(dto.email) && Truthy(dto.phoneNumber) ==> (r.Ok? <==> old(PhoneTaken(dto.phoneNumber.value)))
      ensures !Truthy(dto.email) && !Truthy(dto.phoneNumber) ==> r.Err?
      ensures r.Err? ==> r.error == NotFound && users == old(users)
      ensures r.Ok? ==> target in old(users)
                        && (if Truthy(dto.email) then old(users)[target].email == dto.email
                            else old(users)[target].phoneNumber == dto.phoneNumber)
                        && users == old(users)[target := old(users)[target].(password := Some(Bcrypt(dto.newPassword)))]
    {
      var found: Option<nat>;
      if Truthy(dto.email) {
        found := WithEmail(dto.email.value);
      } else if Truthy(dto.phoneNumber) {
        found := WithPhone(dto.phoneNumber.value);
      } else {
        found := None;
      }
      target := 0;
      if found.None? {
        return Err(NotFound), target;
      }
      var k := found.value;
      target := k;
      var v := users[k].(password := Some(Bcrypt(dto.newPassword)));
      WriteKeepsConsistent(users, transactions, nextUserId, nextTxId, clock, v);
      users := users[k := v];
      r := Ok(());
    }

    /** `adminUpdateUserRole`: sets the role of an existing user and returns
     *  the row without its password. */
    method AdminUpdateUserRole(id: nat, role: UserRole) returns (r: Result<User>)
      requires Valid()
      modifies this
      ensures Valid() && transactions == old(transactions)
      ensures id !in old(users) ==> r == Err(NotFound) && users == old(users)
      ensures id in old(users) ==> users == old(users)[id := old(users)[id].(role := role)]
                                   && r == Ok(WithoutPassword(users[id]))
    {
      if id !in users {
        return Err(NotFound);
      }
      var v := users[id].(role := role);
      WriteKeepsConsistent(users, transactions, nextUserId, nextTxId, clock, v);
      users := users[id := v];
      r := FindOne(id);
    }

    /** The lookup of `createOrPromoteAdmin`: by a non-empty e-mail first,
     *  then by a non-empty phone number. */
    function AdminLookup(email: string, phone: string): (r: Option<nat>)
      reads this
      requires Valid()
      ensures r.Some? ==> r.value in users
      ensures r.Some? <==> (email != "" && EmailTaken(email)) || (phone != "" && PhoneTaken(phone))
      ensures r.Some? && email != "" && EmailTaken(email) ==> users[r.value].email == Some(email)
      ensures r.Some? && !(email != "" && EmailTaken(email)) ==> users[r.value].phoneNumber == Some(phone)
    {
      var byEmail := if email != "" then WithEmail(email) else None;
      if byEmail.None? && phone != "" then WithPhone(phone) else byEmail
    }

    /** `createOrPromoteAdmin`: promotes the account found by
     *  `AdminLookup`, or inserts a new admin, which needs a password and at
     *  least one non-empty identifier (the insert hook).  The insert stores
     *  `AdminRow`, so it fails on the unique index once another row already
     *  holds the same empty string. */
    method CreateOrPromoteAdmin(email: string, phone: string, password: string) returns (r: Result<User>)
      requires Valid()
      modifies this
      ensures Valid() && transactions == old(transactions)
      ensures r.Err? ==> users == old(users)
      ensures old(AdminLookup(email, phone)).Some? ==>
        var k := old(AdminLookup(email, phone)).value;
        users == old(users)[k := Promoted(old(users)[k], password)] && r == Ok(WithoutPassword(users[k]))
      ensures old(AdminLookup(email, phone)).None? ==>
        r == (if password == "" then Err(BadRequest)
              else if email == "" && phone == "" then Err(BadRequest)
              else if old(Clashes(AdminRow(nextUserId, email, phone, password))) then Err(InternalError)
              else Ok(WithoutPassword(AdminRow(old(nextUserId), email, phone, password))))
      ensures old(AdminLookup(email, phone)).None? && r.Ok? ==>
        users == old(users)[old(nextUserId) := AdminRow(old(nextUserId), email, phone, password)]
    {
      var found := AdminLookup(email, phone);
      if found.Some? {
        var v := Promoted(users[found.value], password);
        WriteKeepsConsistent(users, transactions, nextUserId, nextTxId, clock, v);
        users := users[found.value := v];
        return Ok(WithoutPassword(v));
      }
      if password == "" {
        return Err(BadRequest);
      }
      var u := AdminRow(nextUserId, email, phone, password);
      if CheckRequiredFields(u).Err? {
        return Err(BadRequest);
      }
      if ClashCheck(u) {
        return Err(InternalError);
      }
      InsertKeepsConsistent(users, transactions, nextUserId, nextTxId, clock, u);
      users := users[nextUserId := u];
      nextUserId := nextUserId + 1;
      r := Ok(WithoutPassword(u));
    }

    /** `updateProfile`: a changed truthy e-mail needs a phone number on the
     *  account (BadRequest) and must be unused (Conflict); a password change
     *  needs the old password to match the stored hash (BadRequest), and an
     *  account without a stored hash makes bcrypt throw (status 500). */
    method UpdateProfile(id: nat, dto: UpdateProfileDto) returns (r: Result<User>)
      requires Valid()
      modifies this
      ensures Valid() && transactions == old(transactions)
      ensures id !in old(users) ==> r == Err(NotFound)
      ensures id in old(users) ==>
        var u := old(users)[id];
        var emailChange := Truthy(dto.email) && dto.email != u.email;
        r == (if emailChange && !Truthy(u.phoneNumber) then Err(BadRequest)
              else if emailChange && old(EmailTaken(dto.email.value)) then Err(Conflict)
              else if ChangesPassword(dto) && u.password.None? then Err(InternalError)
              else if ChangesPassword(dto) && !BcryptMatches(dto.oldPassword.value, u.password.value) then Err(BadRequest)
              else if old(Clashes(ProfileRow(u, dto))) then Err(InternalError)
              else Ok(WithoutPassword(ProfileRow(u, dto))))
      ensures r.Err? ==> users == old(users)
      ensures r.Ok? ==> users == old(users)[id := ProfileRow(old(users)[id], dto)]
    {
      if id !in users {
        return Err(NotFound);
      }
      var u := users[id];
      if Truthy(dto.email) && dto.email != u.email {
        if !Truthy(u.phoneNumber) {
          return Err(BadRequest);
        }
        if WithEmail(dto.email.value).Some? {
          return Err(Conflict);
        }
      }
      if ChangesPassword(dto) {
        if u.password.None? {
          return Err(InternalError);
        }
        if !BcryptMatches(dto.oldPassword.value, u.password.value) {
          return Err(BadRequest);
        }
      }
      var v := ProfileRow(u, dto);
      if ClashCheck(v) {
        return Err(InternalError);
      }
      WriteKeepsConsistent(users, transactions, nextUserId, nextTxId, clock, v);
      users := users[id := v];
      r := Ok(WithoutPassword(v));
    }

    /** `updateUserSimple`: a changed truthy e-mail must be unused (Conflict)
     *  and needs a phone number on the account (BadRequest), checked in that
     *  order; then the five fields are assigned.  The password is never
     *  touched. */
    method UpdateUserSimple(userId: nat, dto: UpdateUserSimpleDto) returns (r: Result<User>)
      requires Valid()
      modifies this
      ensures Valid() && transactions == old(transactions)
      ensures userId !in old(users) ==> r == Err(NotFound)
      ensures userId in old(users) ==>
        var u := old(users)[userId];
        var emailChange := Truthy(dto.email) && dto.email != u.email;
        r == (if emailChange && old(EmailTaken(dto.email.value)) then Err(Conflict)
              else if emailChange && !Truthy(u.phoneNumber) then Err(BadRequest)
              else if old(Clashes(SimpleRow(u, dto))) then Err(InternalError)
              else Ok(WithoutPassword(SimpleRow(u, dto))))
      ensures r.Err? ==> users == old(users)
      ensures r.Ok? ==> users == old(users)[userId := SimpleRow(old(users)[userId], dto)]
    {
      if userId !in users {
        return Err(NotFound);
      }
      var u := users[userId];
      if Truthy(dto.email) && dto.email != u.email {
        if WithEmail(dto.email.value).Some? {
          return Err(Conflict);
        }
        if !Truthy(u.phoneNumber) {
          return Err(BadRequest);
        }
      }
      var v := SimpleRow(u, dto);
      if ClashCheck(v) {
        return Err(InternalError);
      }
      WriteKeepsConsistent(users, transactions, nextUserId, nextTxId, clock, v);
      users := users[userId := v];
      r := Ok(WithoutPassword(v));
    }

    // ----------------------------------------------------------------- queries

    /** `getUserStats`: the number of rows, of admins and of regular users. */
    function GetUserStats(): (s: UserStats)
      reads this
      requires Valid()
      ensures s.total == |users|
      ensures s.admins == |set k | k in users && users[k].role == Admin|
      ensures s.users == |set k | k in users && users[k].role == Regular|
      ensures s.admins + s.users == s.total
    {
      CountRoleIsCardinality(users, nextUserId, Admin);
      CountRoleIsCardinality(users, nextUserId, Regular);
      RolesPartition(users, nextUserId);
      assert (set k | k in users && k < nextUserId) == users.Keys;
      assert (set k | k in users && k < nextUserId && users[k].role == Admin) == (set k | k in users && users[k].role == Admin);
      assert (set k | k in users && k < nextUserId && users[k].role == Regular) == (set k | k in users && users[k].role == Regular);
      UserStats(|users|, CountRole(users, nextUserId, Admin), CountRole(users, nextUserId, Regular))
    }

    /** `getUserCoinTransactions`: NotFound for an unknown user, otherwise
     *  exactly that user's ledger rows, newest first; they add up to the
     *  user's balance. */
    function GetUserCoinTransactions(userId: nat): (r: Result<seq<CoinTransaction>>)
      reads this
      requires Valid()
      ensures r.Err? <==> userId !in users
      ensures r.Err? ==> r.error == NotFound
      ensures r.Ok? ==> forall t :: t in r.value <==> t in transactions && t.userId == userId
      ensures r.Ok? ==> NewestFirst(r.value)
      ensures r.Ok? ==> Net(r.value, userId) == users[userId].coinBalance
    {
      if userId !in users then Err(NotFound)
      else
        var mine := RowsOf(transactions, userId);
        RowsOfKeeps(transactions, userId);
        ReverseMembers(mine);
        ReversedNewestFirst(mine);
        NetRowsOf(transactions, userId);
        NetReverse(mine, userId);
        Ok(Reverse(mine))
    }

    /** `getTotalSystemCoins`: the sum of all balances; the number of users
     *  with a positive balance; the sums of deposit and of withdrawal
     *  amounts; and the `Recent` ledger rows. */
    function GetTotalSystemCoins(): (s: CoinStats)
      reads this
      requires Valid()
      ensures s.totalCoins == SumBalances(users, nextUserId)
      ensures s.totalDeposits == Total(transactions, Deposit) && s.totalWithdrawals == Total(transactions, Withdraw)
      ensures s.usersWithCoins == |HoldingCoins(users)|
      ensures s.usersWithCoins <= |users|
      ensures s.recentTransactions == Recent()
    {
      HoldersCounted();
      CoinStats(SumBalances(users, nextUserId), Total(transactions, Deposit), Total(transactions, Withdraw),
                CountPositive(users, nextUserId), Recent())
    }

    /** The recent rows of `getTotalSystemCoins`: the (at most) twenty
     *  newest ledger rows, newest first, each with the whole stored row of
     *  its user attached by `leftJoinAndSelect`. */
    function Recent(): (r: seq<JoinedTransaction>)
      reads this
      requires Valid()
      ensures |r| == if |transactions| < RecentLimit then |transactions| else RecentLimit
      ensures forall i :: 0 <= i < |r| ==>
                (r[i].row == transactions[|transactions| - 1 - i] && r[i].row.userId in users
                 && r[i].user == Some(users[r[i].row.userId]))
      ensures forall i, j :: 0 <= i < j < |r| ==> r[i].row.createdAt > r[j].row.createdAt
      ensures forall i, j :: 0 <= i < |r| && 0 <= j < |transactions| - |r| ==> transactions[j].createdAt < r[i].row.createdAt
    {
      NewestJoined(users, transactions, RecentLimit)
    }

    /** `COUNT(*) WHERE coinBalance > 0` counts the users holding coins. */
    lemma HoldersCounted()
      requires Valid()
      ensures CountPositive(users, nextUserId) == |HoldingCoins(users)| <= |users|
    {
      CountPositiveIsCardinality(users, nextUserId);
      assert (set k | k in users && k < nextUserId && users[k].coinBalance > 0) == HoldingCoins(users);
      SubsetNoLarger(HoldingCoins(users), users.Keys);
      assert |users.Keys| == |users|;
    }

    /** The foreign key leaves no ledger row behind a deleted user, so the
     *  coins held equal the coins deposited minus the coins withdrawn. */
    lemma TotalCoinsMatchLedger()
      requires Valid()
      ensures SumBalances(users, nextUserId) == Total(transactions, Deposit) - Total(transactions, Withdraw)
      ensures var s := GetTotalSystemCoins(); s.totalCoins == s.totalDeposits - s.totalWithdrawals
    {
      SumIsNetWithin(users, transactions, nextUserId);
      NetWithinAll(transactions, nextUserId, users.Keys);
    }

    /** The recent rows carry the whole stored row of their user, so anyone
     *  reading the statistics receives the password hash and the refresh
     *  token of every user with a ledger row among the twenty newest. */
    lemma RecentRowsExposeSecrets(k: nat)
      requires Valid() && |transactions| - RecentLimit <= k < |transactions|
      ensures var s := GetTotalSystemCoins();
              var u := users[transactions[k].userId];
              exists i :: 0 <= i < |s.recentTransactions| && s.recentTransactions[i].user == Some(u)
                && s.recentTransactions[i].user.value.password == u.password
                && s.recentTransactions[i].user.value.refreshToken == u.refreshToken
    {
      var r := Recent();
      var i := |transactions| - 1 - k;
      assert r[i].row == transactions[k];
      assert GetTotalSystemCoins().recentTransactions == r;
    }

    /** The statistics as evidently intended: each joined user is sent in
     *  its public view, and nothing else changes. */
    function GetTotalSystemCoinsPublic(): (s: CoinStats)
      reads this
      requires Valid()
      ensures var full := GetTotalSystemCoins();
              s.(recentTransactions := full.recentTransactions) == full
              && |s.recentTransactions| == |full.recentTransactions|
              && forall i :: 0 <= i < |s.recentTransactions| ==>
                   s.recentTransactions[i].row == full.recentTransactions[i].row
                   && s.recentTransactions[i].user == Some(PublicView(full.recentTransactions[i].user.value))
      ensures forall i :: 0 <= i < |s.recentTransactions| ==>
                s.recentTransactions[i].user.Some?
                && s.recentTransactions[i].user.value.password.None? && s.recentTransactions[i].user.value.refreshToken.None?
    {
      var full := GetTotalSystemCoins();
      full.(recentTransactions := PublicJoined(full.recentTransactions))
    }

    // ------------------------------------------------------------ coin ledger

    /** The two writes of a committed adjustment: the ledger row and the
     *  balance it implies. */
    method Book(row: CoinTransaction, amount: int)
      requires Valid() && row.userId in users && users[row.userId].coinBalance + amount >= 0
      requires row.id == nextTxId && row.createdAt == clock && row.amount == Abs(amount) && row.kind == KindFor(amount)
      modifies this
      ensures Valid()
      ensures users == old(users)[row.userId := old(users)[row.userId].(coinBalance := old(users)[row.userId].coinBalance + amount)]
      ensures transactions == old(transactions) + [row]
      ensures nextUserId == old(nextUserId) && nextTxId == old(nextTxId) + 1 && clock == old(clock) + 1
    {
      AdjustKeepsConsistent(users, transactions, nextUserId, nextTxId, clock, row, amount);
      users := users[row.userId := users[row.userId].(coinBalance := users[row.userId].coinBalance + amount)];
      transactions := transactions + [row];
      nextTxId := nextTxId + 1;
      clock := clock + 1;
    }

    /** `adjustUserCoins`: checks, in order, that the target exists, that the
     *  actor exists, that the actor is an admin and that the balance stays
     *  non-negative; then writes one ledger row and the new balance in one
     *  transaction.  The notification that follows the commit may fail
     *  (`notifyFails`) without undoing anything. */
    method AdjustUserCoins(userId: nat, dto: AdjustCoinDto, adminId: nat, notifyFails: bool) returns (r: Result<User>)
      requires Valid() && inbox.Valid()
      modifies this, inbox
      ensures Valid() && inbox.Valid()
      ensures userId !in old(users) ==> r == Err(NotFound)
      ensures userId in old(users) && adminId !in old(users) ==> r == Err(NotFound)
      ensures userId in old(users) && adminId in old(users) && old(users)[adminId].role != Admin ==> r == Err(Forbidden)
      ensures (userId in old(users) && adminId in old(users) && old(users)[adminId].role == Admin
               && old(users)[userId].coinBalance + dto.amount < 0) ==> r == Err(BadRequest)
      ensures (userId in old(users) && adminId in old(users) && old(users)[adminId].role == Admin
               && old(users)[userId].coinBalance + dto.amount >= 0) ==> r.Ok?
      ensures r.Err? ==> users == old(users) && transactions == old(transactions) && inbox.rows == old(inbox.rows)
      ensures r.Ok? ==>
        var was := old(users)[userId];
        users == old(users)[userId := was.(coinBalance := was.coinBalance + dto.amount)]
        && transactions == old(transactions) + [CoinTransaction(old(nextTxId), userId, Abs(dto.amount), KindFor(dto.amount),
                                                               Some(dto.note), Some(PerformedBy(old(users)[adminId])), old(clock))]
        && r.value == WithoutPassword(users[userId]) && r.value.coinBalance >= 0
      ensures r.Ok? && notifyFails ==> inbox.rows == old(inbox.rows)
      ensures r.Ok? && !notifyFails ==>
        |inbox.rows| == |old(inbox.rows)| + 1 && inbox.rows[..|old(inbox.rows)|] == old(inbox.rows)
        && var n := inbox.rows[|old(inbox.rows)|];
           n.userId == userId && n.kind == NE.Coin && !n.isRead && NS.Message(n.title, n.content) == NS.CoinMessage(dto.amount, dto.note)
    {
      if userId !in users {
        return Err(NotFound);
      }
      var user := users[userId];
      if adminId !in users {
        return Err(NotFound);
      }
      var admin := users[adminId];
      if admin.role != Admin {
        return Err(Forbidden);
      }
      var newBalance := user.coinBalance + dto.amount;
      if newBalance < 0 {
        return Err(BadRequest);
      }
      var row := CoinTransaction(nextTxId, userId, Abs(dto.amount), KindFor(dto.amount),
                                 Some(dto.note), Some(PerformedBy(admin)), clock);
      Book(row, dto.amount);
      assert users == old(users)[userId := user.(coinBalance := newBalance)];
      user := users[userId];
      if !notifyFails {
        var _ := inbox.CreateCoinNotification(userId, dto.amount, dto.note);
      }
      r := Ok(WithoutPassword(user));
    }

    /** Rows of another table whose `user_id` foreign key still points at
     *  user `id`: ledger rows, or notifications in the inbox.  Neither key
     *  has an `onDelete` action, so SQLite refuses to delete such a user. */
    predicate Referenced(id: nat)
      reads this, inbox
    {
      RowsOf(transactions, id) != [] || NS.OfUser(inbox.rows, id) != []
    }

    /** `adminRemoveUser`: in one transaction, deletes every ledger row of the
     *  user and then the user.  A missing id is NotFound.  A user who still
     *  has notifications cannot be deleted: the foreign key refuses, the
     *  transaction rolls back and the error surfaces as InternalError.
     *  Either failure changes nothing. */
    method AdminRemoveUser(id: nat) returns (r: Result<()>)
      requires Valid()
      modifies this
      ensures Valid()
      ensures id !in old(users) ==> r == Err(NotFound)
      ensures id in old(users) && NS.OfUser(inbox.rows, id) != [] ==> r == Err(InternalError)
      ensures id in old(users) && NS.OfUser(inbox.rows, id) == [] ==>
        r == Ok(()) && users == old(users) - {id} && transactions == RowsNotOf(old(transactions), id)
      ensures r.Err? ==> users == old(users) && transactions == old(transactions)
      ensures r.Ok? ==> id !in users && !Referenced(id)
    {
      if id !in users {
        return Err(NotFound);
      }
      if NS.OfUser(inbox.rows, id) != [] {
        return Err(InternalError);
      }
      DeleteKeepsConsistent(users, transactions, nextUserId, nextTxId, clock, id);
      transactions := RowsNotOf(transactions, id);
      users := users - {id};
      r := Ok(());
    }

    /** `remove`: deletes the user row only.  A missing id is NotFound; a
     *  user still referenced by a ledger row or a notification cannot be
     *  deleted (InternalError).  Either failure changes nothing. */
    method Remove(id: nat) returns (r: Result<()>)
      requires Valid()
      modifies this
      ensures Valid()
      ensures transactions == old(transactions)
      ensures id !in old(users) ==> r == Err(NotFound) && users == old(users)
      ensures id in old(users) && old(Referenced(id)) ==> r == Err(InternalError) && users == old(users)
      ensures id in old(users) && !old(Referenced(id)) ==> r == Ok(()) && users == old(users) - {id}
    {
      if id !in users {
        return Err(NotFound);
      }
      if Referenced(id) {
        return Err(InternalError);
      }
      users := users - {id};
      forall i | 0 <= i < |transactions|
        ensures transactions[i].userId in users
      {
        assert transactions[i] in transactions;
      }
      r := Ok(());
    }

    /** The source as written: a coin adjustment notifies its target, and
     *  from then on `adminRemoveUser` cannot delete that user. */
    method AdjustedUserNotRemovable(userId: nat, dto: AdjustCoinDto, adminId: nat)
      returns (adjusted: Result<User>, removed: Result<()>)
      requires Valid() && inbox.Valid()
      modifies this, inbox
      ensures adjusted.Ok? ==> removed == Err(InternalError) && userId in users
      ensures (userId in old(users) && adminId in old(users) && old(users)[adminId].role == Admin
               && old(users)[userId].coinBalance + dto.amount >= 0) ==>
              adjusted.Ok? && removed == Err(InternalError) && userId in users
    {
      adjusted := AdjustUserCoins(userId, dto, adminId, false);
      if adjusted.Ok? {
        assert inbox.rows[|inbox.rows| - 1] in inbox.rows;
      }
      removed := AdminRemoveUser(userId);
    }

    /** `adminRemoveUser` as evidently intended: the user's notifications
     *  go in the same transaction as the ledger rows, so only a missing id
     *  fails. */
    method AdminRemoveUserWithInbox(id: nat) returns (r: Result<()>)
      requires Valid() && inbox.Valid()
      modifies this, inbox
      ensures Valid() && inbox.Valid()
      ensures id !in old(users) ==>
        r == Err(NotFound) && users == old(users) && transactions == old(transactions) && inbox.rows == old(inbox.rows)
      ensures id in old(users) ==>
        r == Ok(()) && users == old(users) - {id} && transactions == RowsNotOf(old(transactions), id)
        && inbox.rows == NS.NotOfUser(old(inbox.rows), id) && !Referenced(id)
    {
      if id !in users {
        return Err(NotFound);
      }
      ghost var before := inbox.rows;
      inbox.RemoveAllForUser(id);
      NS.NotOfUserHasNone(before, id);
      r := AdminRemoveUser(id);
    }
  }

  // -------------------------------------------------------------- aggregates

  /** `COUNT(*) WHERE role = r` over the ids below `n`. */
  function CountRole(users: map<nat, User>, n: nat, r: UserRole): nat
  {
    if n == 0 then 0 else CountRole(users, n - 1, r) + (if n - 1 in users && users[n - 1].role == r then 1 else 0)
  }

  /** `COUNT(*) WHERE coinBalance > 0` over the ids below `n`. */
  function CountPositive(users: map<nat, User>, n: nat): nat
  {
    if n == 0 then 0 else CountPositive(users, n - 1) + (if n - 1 in users && users[n - 1].coinBalance > 0 then 1 else 0)
  }

  /** The ids of the users whose balance is positive. */
  ghost function HoldingCoins(users: map<nat, User>): set<nat>
  {
    set k | k in users && users[k].coinBalance > 0
  }

  /** `SUM(coinBalance)` over the ids below `n` (0 for no rows). */
  function SumBalances(users: map<nat, User>, n: nat): int
  {
    if n == 0 then 0 else SumBalances(users, n - 1) + (if n - 1 in users then users[n - 1].coinBalance else 0)
  }

  lemma {:induction false} CountRoleIsCardinality(users: map<nat, User>, n: nat, r: UserRole)
    ensures CountRole(users, n, r) == |set k | k in users && k < n && users[k].role == r|
  {
    if n > 0 {
      CountRoleIsCardinality(users, n - 1, r);
      var below := set k | k in users && k < n - 1 && users[k].role == r;
      var upTo := set k | k in users && k < n && users[k].role == r;
      if n - 1 in users && users[n - 1].role == r {
        assert upTo == below + {n - 1};
      } else {
        assert upTo == below;
      }
    }
  }

  lemma {:induction false} CountPositiveIsCardinality(users: map<nat, User>, n: nat)
    ensures CountPositive(users, n) == |set k | k in users && k < n && users[k].coinBalance > 0|
  {
    if n > 0 {
      CountPositiveIsCardinality(users, n - 1);
      var below := set k | k in users && k < n - 1 && users[k].coinBalance > 0;
      var upTo := set k | k in users && k < n && users[k].coinBalance > 0;
      if n - 1 in users && users[n - 1].coinBalance > 0 {
        assert upTo == below + {n - 1};
      } else {
        assert upTo == below;
      }
    }
  }

  /** Every row is either an admin or a regular user. */
  lemma {:induction false} RolesPartition(users: map<nat, User>, n: nat)
    ensures CountRole(users, n, Admin) + CountRole(users, n, Regular) == |set k | k in users && k < n|
  {
    if n > 0 {
      RolesPartition(users, n - 1);
      var below := set k | k in users && k < n - 1;
      var upTo := set k | k in users && k < n;
      if n - 1 in users {
        assert upTo == below + {n - 1};
      } else {
        assert upTo == below;
      }
    }
  }

  /** The signed amounts of the rows whose user is one of `keys` and below
   *  `n`. */
  ghost function NetWithin(rows: seq<CoinTransaction>, n: nat, keys: set<nat>): int
  {
    if rows == [] then 0
    else NetWithin(rows[..|rows| - 1], n, keys)
         + (var t := rows[|rows| - 1]; if t.userId < n && t.userId in keys then SignedAmount(t) else 0)
  }

  lemma {:induction false} NetWithinNone(rows: seq<CoinTransaction>, keys: set<nat>)
    ensures NetWithin(rows, 0, keys) == 0
  {
    if rows != [] {
      NetWithinNone(rows[..|rows| - 1], keys);
    }
  }

  lemma SubsetNoLarger<T>(a: set<T>, b: set<T>)
    requires a <= b
    ensures |a| <= |b|
  {
    assert b == a + (b - a);
  }

  lemma {:induction false} NetWithinStep(rows: seq<CoinTransaction>, n: nat, keys: set<nat>)
    ensures NetWithin(rows, n + 1, keys) == NetWithin(rows, n, keys) + (if n in keys then Net(rows, n) else 0)
  {
    if rows != [] {
      NetWithinStep(rows[..|rows| - 1], n, keys);
    }
  }

  /** When every balance is its user's net, summing the balances sums the
   *  ledger rows of the users present. */
  lemma {:induction false} SumIsNetWithin(users: map<nat, User>, rows: seq<CoinTransaction>, n: nat)
    requires forall id :: id in users ==> users[id].coinBalance == Net(rows, id)
    ensures SumBalances(users, n) == NetWithin(rows, n, users.Keys)
  {
    if n > 0 {
      var m := n - 1;
      SumIsNetWithin(users, rows, m);
      NetWithinStep(rows, m, users.Keys);
      assert SumBalances(users, n) == SumBalances(users, m) + (if m in users then users[m].coinBalance else 0);
      assert m + 1 == n;
      assert NetWithin(rows, n, users.Keys) == NetWithin(rows, m, users.Keys) + (if m in users.Keys then Net(rows, m) else 0);
      if m in users {
        assert users[m].coinBalance == Net(rows, m);
      }
    } else {
      NetWithinNone(rows, users.Keys);
    }
  }

  /** When every row's user is present, the ledger's net is deposits minus
   *  withdrawals. */
  lemma {:induction false} NetWithinAll(rows: seq<CoinTransaction>, n: nat, keys: set<nat>)
    requires forall i :: 0 <= i < |rows| ==> rows[i].userId < n && rows[i].userId in keys
    ensures NetWithin(rows, n, keys) == Total(rows, Deposit) - Total(rows, Withdraw)
  {
    if rows != [] {
      NetWithinAll(rows[..|rows| - 1], n, keys);
    }
  }

  /** Rows in creation order: all but the last are in creation order and
   *  older than the last. */
  lemma ChronologicalSplit(rows: seq<CoinTransaction>)
    requires rows != [] && ChronologicalRows(rows)
    ensures ChronologicalRows(rows[..|rows| - 1])
    ensures forall t :: t in rows[..|rows| - 1] ==> t.createdAt < rows[|rows| - 1].createdAt
  {
    var front := rows[..|rows| - 1];
    forall t | t in front ensures t.createdAt < rows[|rows| - 1].createdAt {
      var k :| 0 <= k < |front| && front[k] == t;
      assert rows[k] == t;
    }
  }

  /** A row newer than every row of an ordered list extends it in order. */
  lemma ChronologicalExtend(rows: seq<CoinTransaction>, t: CoinTransaction)
    requires ChronologicalRows(rows)
    requires forall x :: x in rows ==> x.createdAt < t.createdAt
    ensures ChronologicalRows(rows + [t])
  {
    var out := rows + [t];
    forall i, j | 0 <= i < j < |out| ensures out[i].createdAt < out[j].createdAt {
      assert out[i] == rows[i];
      if j < |rows| {
        assert out[j] == rows[j];
      }
    }
  }

  /** Selecting one user's rows keeps their creation order. */
  lemma {:induction false} RowsOfKeeps(rows: seq<CoinTransaction>, u: nat)
    ensures ChronologicalRows(rows) ==> ChronologicalRows(RowsOf(rows, u))
  {
    if rows != [] {
      var front, last := rows[..|rows| - 1], rows[|rows| - 1];
      assert rows == front + [last];
      RowsOfKeeps(front, u);
      if ChronologicalRows(rows) {
        ChronologicalSplit(rows);
        if last.userId == u {
          ChronologicalExtend(RowsOf(front, u), last);
        }
      }
    }
  }

  /** Listing rows stored in creation order backwards lists them newest
   *  first. */
  lemma ReversedNewestFirst(rows: seq<CoinTransaction>)
    requires ChronologicalRows(rows)
    ensures NewestFirst(Reverse(rows))
  {
  }

  lemma {:induction false} NetPrepend(t: CoinTransaction, rows: seq<CoinTransaction>, u: nat)
    ensures Net([t] + rows, u) == (if t.userId == u then SignedAmount(t) else 0) + Net(rows, u)
    decreases |rows|
  {
    if rows != [] {
      var front, last := rows[..|rows| - 1], rows[|rows| - 1];
      assert [t] + rows == ([t] + front) + [last];
      NetPrepend(t, front, u);
      NetAppend([t] + front, last, u);
      NetAppend(front, last, u);
      assert rows == front + [last];
    } else {
      assert [t] + rows == [] + [t];
      NetAppend([], t, u);
    }
  }

  /** A balance does not depend on the order the rows are listed in. */
  lemma {:induction false} NetReverse(rows: seq<CoinTransaction>, u: nat)
    ensures Net(Reverse(rows), u) == Net(rows, u)
  {
    if rows != [] {
      NetReverse(rows[1..], u);
      NetAppend(Reverse(rows[1..]), rows[0], u);
      NetPrepend(rows[0], rows[1..], u);
      assert [rows[0]] + rows[1..] == rows;
    }
  }

  /** A zero adjustment is booked as a deposit while its notification is
   *  worded as a deduction. */
  lemma ZeroAdjustmentBookedAsDepositAnnouncedAsDeduction(note: string)
    ensures KindFor(0) == Deposit
    ensures NS.CoinMessage(0, note).title != NS.ReceivedMessage(0, note).title
  {
    NS.ZeroAmountReadsAsDeduction(note);
  }

  /** As written, two admins created with a phone number only (the e-mail
   *  passed as the empty string) cannot coexist: the second insert hits the
   *  unique index on `email`, although its lookup found nobody. */
  method PhoneOnlyAdminsCollide() returns (first: Result<User>, second: Result<User>)
    ensures first.Ok? && first.value.email == Some("")
    ensures second == Err(InternalError)
  {
    var inbox := new NS.NotificationService();
    var service := new UserService(inbox);
    first := service.CreateOrPromoteAdmin("", "0900000001", "secret-1");
    ghost var k := first.value.id;
    assert service.users == map[k := AdminRow(k, "", "0900000001", "secret-1")];
    assert !service.PhoneTaken("0900000002");
    assert SharesIdentity(service.users[k], AdminRow(service.nextUserId, "", "0900000002", "secret-2"));
    second := service.CreateOrPromoteAdmin("", "0900000002", "secret-2");
  }

  /** With absent identifiers stored as NULL, a new admin whose supplied
   *  identifiers are unused never collides with an existing row, whatever
   *  the other rows hold. */
  lemma IntendedAdminRowInsertable(users: map<nat, User>, id: nat, email: string, phone: string, password: string)
    requires email != "" ==> forall k :: k in users ==> users[k].email != Some(email)
    requires phone != "" ==> forall k :: k in users ==> users[k].phoneNumber != Some(phone)
    ensures forall k :: k in users ==> !SharesIdentity(users[k], IntendedAdminRow(id, email, phone, password))
  {
  }

  /** The same guarantee fails for the row as written: one phone-only admin
   *  in the table is enough to refuse another with an unused phone. */
  lemma AdminRowNotInsertable()
    ensures var users := map[1 := AdminRow(1, "", "0900000001", "secret-1")];
            (forall k :: k in users ==> users[k].phoneNumber != Some("0900000002"))
            && SharesIdentity(users[1], AdminRow(2, "", "0900000002", "secret-2"))
  {
  }

  /** `DELETE ... WHERE user_id = u` keeps the other rows in creation order. */
  lemma {:induction false} RowsNotOfKeeps(rows: seq<CoinTransaction>, u: nat)
    ensures ChronologicalRows(rows) ==> ChronologicalRows(RowsNotOf(rows, u))
  {
    if rows != [] {
      var front, last := rows[..|rows| - 1], rows[|rows| - 1];
      assert rows == front + [last];
      RowsNotOfKeeps(front, u);
      if ChronologicalRows(rows) {
        ChronologicalSplit(rows);
        if last.userId != u {
          ChronologicalExtend(RowsNotOf(front, u), last);
        }
      }
    }
  }

  /** After the delete, no row of that user is left. */
  lemma {:induction false} NoRowsOfLeft(rows: seq<CoinTransaction>, u: nat)
    ensures RowsOf(RowsNotOf(rows, u), u) == []
  {
    if rows != [] {
      var front, last := rows[..|rows| - 1], rows[|rows| - 1];
      NoRowsOfLeft(front, u);
      var kept := RowsNotOf(front, u);
      if last.userId != u {
        assert RowsNotOf(rows, u) == kept + [last];
        assert (kept + [last])[..|kept|] == kept;
        assert RowsOf(kept + [last], u) == RowsOf(kept, u) + [];
      } else {
        assert RowsNotOf(rows, u) == kept + [];
        assert kept + [] == kept;
      }
    }
  }
}
